=== FILE: README.md ===
# User Routine — a Dafny model of the action-string engine

User Routine drives a web page from a list of short commands ("action
strings") such as `click #submit`, `fill #name Jane Doe`, `await .done` or
`!exists .error`. The engine resolves a configuration from its defaults and
the caller's options. It refuses to start next to another run's banner. It
checks its two arguments and then performs the actions one by one, with a
delay between them. It records a log of notes and `FAIL:` entries and
resolves to `{ success, log, message, configuration }`. Three published
engines share this design:

- `userRoutine` (`lib/user-routine.ts`) is the current one;
- `dryRun` (`lib/dry-run.ts`) is its predecessor;
- `spaCheck` (`spa-check.ts`) is an older, smaller variant.

A fourth, much smaller engine, `MiniTest` (`MiniTest.ts`), fires each action
from its own timer and throws instead of logging.

The model is one engine parameterised by `Settings.Variant`, so every
difference between the three engines is an explicit branch. MiniTest gets a
module of its own because its execution model differs. The modules follow
the program's structure:

| module | file | what it holds |
|---|---|---|
| `JsString` | js_string.dfy | JavaScript's `undefined` as `Option`, template rendering, `split`, `trimStart`, the `>>` rewrite |
| `Settings` | settings.dfy | option records, each engine's defaults, the resolved configuration, the key-handler rule |
| `Control` | control.dfy | run state and log, `raiseError`, the play/pause/stop/next/keyboard controls, the pause loops, the sliced sleep |
| `Dom` | dom.dfy | the page as a tree of nodes plus the answers its CSS selectors give, and the clickable-text search |
| `Parse` | parse.dfy | building the action list, the verb code, the `argSplit` family of splitters |
| `Actions` | actions.dfy | every action verb, callbacks, and the await polling loop |
| `Routine` | routine.dfy | the start-up guard, input validation, the event loop, `finish`, and the whole call |
| `MiniTest` | minitest.dfy | the timer-driven engine |

Several things are modelled as follows:

- JavaScript `undefined` strings are `Option<string>`, and a template literal
  renders `None` as the text `undefined`.
- Errors thrown inside an action become the completion `Threw(message)`, and
  the loop turns them into an "Unexpected error" failure as the source does.
- A wait that can never end is the completion `Hangs`, and the whole call
  then becomes `NeverResolves`.
- A call that throws before its promise settles is `Rejected(error)`.
- Host services are parameters:
  - the page, including the successive states an await poll sees;
  - the control events that arrive during the delay before each action and
    during a tutorial wait for Next;
  - whether a banner or an `onkeydown` handler is already present;
  - `Number(value)`, as the `Actions.Numbers` oracle.

## Model

| member | source | states |
|---|---|---|
| JsString.TrimStart | lib/user-routine.ts:94-96 | The result is a suffix of the input, everything removed is whitespace, and the result does not start with whitespace. |
| JsString.Lower | lib/user-routine.ts:429-434 | Lower-casing keeps the length and leaves no ASCII or Latin-1 capital. Each capital becomes the small letter 32 code points above it, and every other character stays in place. |
| JsString.FoldsLatinCapitals | lib/user-routine.ts:429-434 | An accented capital matches its small letter: "ÉCOLE" is found in "école". |
| JsString.LowerIdempotent | lib/user-routine.ts:429-434 | Lower-casing twice is the same as lower-casing once. |
| JsString.FoldedIgnoresCase | lib/user-routine.ts:429-434 | The case-insensitive `includes` gives the same answer whichever side was lower-cased beforehand. |
| JsString.JoinSplitOn | lib/user-routine.ts:124 | Joining the pieces of `split(sep)` with `sep` gives back the original string. |
| JsString.SplitOnPiecesAvoidSeparator | lib/user-routine.ts:124 | No piece produced by `split(sep)` contains the separator. |
| JsString.FirstPieceIsPrefix | lib/user-routine.ts:124 | The first piece of a split is a prefix of the string. |
| JsString.SplitOnFirst | lib/user-routine.ts:124 | Splitting at a one-character separator cuts at its first occurrence and splits the rest the same way. |
| JsString.CssHasNoChevrons | lib/user-routine.ts:394-398 | After `replace(/>>/g, ' ')` no `>>` is left in the locator. |
| JsString.CssIdempotent | lib/user-routine.ts:444 | A locator that was already rewritten by `argSplit` is unchanged when `querySelector` rewrites it again. |
| JsString.ReplaceWithoutChevrons | spa-check.ts:233 | A locator with no `>>` is unchanged by the replacement, whatever replacement text is used. |
| JsString.RemoveFirst | lib/user-routine.ts:122 | `replace('!', '')` removes exactly one character when a `!` is present and nothing otherwise. |
| JsString.RemoveFirstAt | lib/user-routine.ts:122 | `replace('!', '')` removes the first `!` and keeps everything before and after it. |
| Settings.Resolve | lib/user-routine.ts:5-31 | The resolved configuration takes each option the caller gave, else the engine's default. Tutorial mode forces progress display on and keyboard controls off in `userRoutine`, and sets the 200 ms delay in `dryRun`. |
| Settings.InstallsKeyHandler | lib/user-routine.ts:729-744 | The key handler is installed only when the page has none and tutorial mode is off. `userRoutine` also needs keyboard controls, `dryRun` needs progress display, and `spaCheck` never installs one. |
| Settings.TutorialDisablesKeys | lib/user-routine.ts:23-31 | In tutorial mode `userRoutine` shows progress and never installs the key handler, whatever the caller asked for. |
| Settings.NoOptionsMeansDefaults | spa-check.ts:11-26 | With no options, each engine runs on its own defaults. |
| Control.ExtendsTrans | lib/user-routine.ts:902-910 | Log growth is transitive. |
| Control.LaterTrans | lib/user-routine.ts:912-929 | The run-progress relation (the log only grows, and "errorOccurred iff a failure entry" is kept) is transitive. |
| Control.AllHaltAppend | lib/user-routine.ts:912-929 | Every failure in two concatenated logs says the run halts iff that holds for each log. |
| Control.HasFailureAppend | lib/user-routine.ts:912-929 | Two concatenated logs have a failure iff one of them does. |
| Control.Log | lib/user-routine.ts:902-910 | `log` appends exactly one note and changes no flag. |
| Control.RaiseError | lib/user-routine.ts:912-929 | `raiseError` sets `errorOccurred`, keeps `continueActions` only when continuing on failure, appends exactly one failure with the standard text, and changes nothing else. |
| Control.FailTextShape | lib/user-routine.ts:912-929 | A failure text starts with `FAIL: ` and the message. It ends with ". Halting execution." iff the run halts on failure, and with ". Continuing execution." otherwise. |
| Control.Interrupt | lib/user-routine.ts:931-935 | An interruption halts the run, marks the error, and appends one halting failure. |
| Control.Handle | lib/user-routine.ts:747-770 | A control event never shrinks the log. Only a confirmed stop changes `continueActions` or the log. No event changes whether the key handler is set. |
| Control.HandleAll | lib/user-routine.ts:747-770 | A sequence of events with no confirmed stop leaves the run's flow and log as they were. |
| Control.ControlsSpec | lib/user-routine.ts:729-770 | Pause sets `paused` and play clears it (outside tutorial mode). Space toggles pause when the handler is set. A confirmed stop (button or Escape) interrupts with the matching message. A declined stop, or any key without the handler, does nothing. |
| Control.Wait | lib/user-routine.ts:942-953 | A wait releases only once its gate is open. It consumes a prefix of the events, and returns at once when the gate is already open. |
| Control.WaitStuck | lib/user-routine.ts:942-946 | A wait gets stuck only if the gate is still closed after every event has been handled. |
| Control.PauseIfNeeded | lib/user-routine.ts:942-946 | `pauseIfNeeded` returns only once the run is playing or halted, and at once if it already is. |
| Control.PauseBetweenNextButtons | lib/user-routine.ts:948-953 | `pauseBetweenNextButtons` returns once Next was clicked or the run halted, and then clears the Next flag. |
| Control.AdvanceDelay | lib/user-routine.ts:937-940 | `advanceDelay` hangs only if the run ends up paused with no event left to resume it. Otherwise it handles the events and keeps the run's progress. |
| Control.StopDuringDelay | lib/user-routine.ts:752-760 | A confirmed stop during an unpaused delay clears `continueActions` and logs the stop failure. The delay itself still ends, so the action after it runs (see `Routine.ActionRunsAfterStopInDelay`). |
| Control.IterationCount | lib/user-routine.ts:317-324 | A loop `for (i = 0; i < num / den; i++)` runs exactly the counted number of times under JavaScript division. It runs forever exactly when a positive numerator meets a zero divisor. |
| Control.TruncRem | lib/user-routine.ts:959 | JavaScript `%`: the remainder is smaller than the divisor in magnitude and has the dividend's sign, and the dividend minus the remainder is a multiple of the divisor. |
| Control.NonBlockingSleep | lib/user-routine.ts:955-966 | A short sleep is one plain sleep. A zero delay with a positive duration never ends. Otherwise there is one half-delay slice for each index that the loop condition `i < (ms / globalDelay) * 2` admits, then half the remainder. |
| Control.SleepNeverEndsCases | lib/user-routine.ts:955-966 | On any JavaScript number, the sliced sleep never ends exactly for a positive duration at a zero delay, or for `Infinity` at a delay that is not negative. `NaN` and `-Infinity` end at once. |
| Control.SleepNeverEndsAgrees | lib/user-routine.ts:955-966 | On whole milliseconds, the number model and the slice plan agree on which sleeps never end. |
| Control.NonBlockingSleepMultiple | lib/user-routine.ts:955-966 | When the duration is a multiple of the delay, the slices add up to exactly the duration. |
| Control.NonBlockingSleepOvershoots | lib/user-routine.ts:958-964 | 750 ms at a 500 ms delay is slept as 875 ms. |
| Control.ExactSleep | lib/user-routine.ts:955-966 | The intended sliced sleep: it always ends, each slice is at most half a delay, and the slices add up to the requested duration. |
| Control.SleepsAgreeOnMultiples | lib/user-routine.ts:955-966 | For durations that are a multiple of the delay, the sleep as written and the intended sleep are identical. |
| Dom.Query | lib/user-routine.ts:394-398 | `querySelector` finds something iff `querySelectorAll` does, and then it is the first match in document order. |
| Dom.ResolveAfterUpdate | lib/user-routine.ts:209-219 | Setting one node's value keeps which nodes every selector matches. |
| Dom.QueryAfterSetValue | lib/user-routine.ts:209-250 | After a fill, the same locator finds the same element, now holding the filled value. |
| Dom.SearchNodeSpec | lib/user-routine.ts:409-423 | The recursive text search returns a clickable node containing the text, reached through clickable ancestors. It finds one whenever such a node exists. |
| Dom.SearchListLastWins | lib/user-routine.ts:409-423 | Over a list, the search finds something iff some element's search does, and the last such element wins. |
| Dom.FirstHolding | lib/user-routine.ts:328-337 | The `for … of` loop that breaks on the first text match: it finds an element iff one holds the text, and no earlier element does. |
| Dom.DescendantOverwritesAncestor | lib/user-routine.ts:409-423 | A matching clickable child overrides its matching ancestor, so the deepest match is returned. |
| Dom.FindElementWithTextRecursive | lib/user-routine.ts:409-423 | The loop-and-recursion method returns the functional search's answer, which is a clickable node containing the text. |
| Dom.Visit | lib/user-routine.ts:409-423 | Visiting one subtree replaces the current candidate exactly when that subtree has a match. |
| Dom.Advance | lib/user-routine.ts:346 | Each poll delay moves the page to its next observed state, and the last state persists. |
| Parse.TrimAction | lib/user-routine.ts:96 | Strings are trimmed at the start, and callbacks and other values pass through unchanged. |
| Parse.MakeActionList | lib/user-routine.ts:91-98 | A string list gives one action per line and an array gives one per item, each trimmed at the start. |
| Parse.TextListIsLines | lib/user-routine.ts:94 | The lines of a string list join back to the string, contain no newline, and are all commands. |
| Parse.VerbOfWord | lib/user-routine.ts:122 | The verb code is the first three letters of the first word. In the newer engines a leading `!` is skipped and marks negation. |
| Parse.SpaBangIsNoVerb | spa-check.ts:81 | In `spaCheck` a leading `!` stays part of the verb code, which then matches no verb. |
| Parse.DataSplitParts | lib/user-routine.ts:442 | The `/ ([^\s]+) (.*)/s` split either does not match and returns the string, or gives the part before the first match, a whitespace-free word, and the rest. |
| Parse.DataSplitOfWords | lib/user-routine.ts:442 | `verb selector free text` splits into the verb, the selector, and the free text with its spaces kept. |
| Parse.RestSplitOfWord | lib/user-routine.ts:280 | `/ (.*)/s` splits at the first space and keeps the rest whole. |
| Parse.RestSplitNoSpace | lib/user-routine.ts:280 | Without a space the split returns the string alone. |
| Parse.ArgSplit | lib/user-routine.ts:440-446 | `argSplit` never takes the lone-word path. With the default separator it reports malformed input exactly when the data pattern does not match. Otherwise it gives four pieces: the verb, the rewritten non-empty locator and the verbatim rest reassemble the action, and the fourth piece is empty. With a custom separator it is the plain `split`, so a one-piece action has no selector piece. |
| Parse.ArgSplitWithData | lib/user-routine.ts:440-454 | Both splitters turn `verb sel data` into the verb, the rewritten selector and the data. |
| Parse.DataSplit | lib/user-routine.ts:442 | The data pattern split gives one piece or four; with one, it is the action itself (see `Parse.DataSplitParts` for the four-piece case). |
| Parse.ArgSplitComplex | lib/user-routine.ts:448-454 | With a custom separator, `argSplitComplex` is the plain split. With the default separator it is `argSplit` when there are more than two pieces. With exactly two, the verb has no space and the rewritten locator follows it. It gives no selector only for a lone word, which is every action without a space. |
| Parse.RestSplit | lib/user-routine.ts:280 | The split at the first space gives one piece (the text, when it has no space) or three: a spaceless head, then the rest after the first space, then an empty piece. |
| Parse.TargetText | lib/user-routine.ts:436-438 | The target text starts with the quoted selector. It is longer than that iff the value is truthy, and then it ends with " containing text '<value>'". |
| Parse.ArgSplitComplexNoData | lib/user-routine.ts:448-454 | `argSplitComplex` on `verb sel` gives the rewritten selector and no data. |
| Parse.ArgSplitComplexLoneWord | lib/user-routine.ts:452 | A lone word has no selector piece, so the rewrite of `regularSplit[1]` throws. |
| Parse.CustomSeparatorKeepsText | lib/user-routine.ts:441 | With a custom separator, both splitters are plain `split`, and the pieces join back to the action. |
| Actions.Noted | lib/user-routine.ts:902-910 | A note leaves the page and the flags alone and adds one entry. |
| Actions.Failed | lib/user-routine.ts:912-929 | A failure adds exactly one failure entry and halts unless continuing on failure. |
| Actions.Push | lib/user-routine.ts:902-910 | Logging a value adds one entry, blank for `undefined`. |
| Actions.Arguments | lib/user-routine.ts:440-454 | A malformed split first logs the "Unexpected input with data" failure and then throws on `split[1].replace`. |
| Actions.Select | lib/user-routine.ts:386-392 | `select` crashes on an undefined locator, finds the first match of the rewritten locator, or records "CSS Selector not found". |
| Actions.Navigate | lib/user-routine.ts:123-135 | `nav` with a second word starting with `#` moves the page there and notes it. A missing or any other second word records the "Unexpected nav action, got" failure and leaves the page alone. |
| Actions.ClickAction | lib/user-routine.ts:137-166 | `click` changes the page only by one click. Without text it clicks the first match of the rewritten locator. With text it clicks what the clickable-text search under all the matches returns. |
| Actions.ClickBySelectorTarget | lib/user-routine.ts:155-165 | `click sel` clicks the first match and notes "Clicked sel". With no match it records "CSS Selector not found" and clicks nothing. |
| Actions.ClickByTextTarget | lib/user-routine.ts:140-152 | `click sel text` clicks exactly what the recursive text search under the selection returns. |
| Actions.ExistsVerdict | lib/user-routine.ts:192-206 | An `exists` check adds one entry, which is a failure iff the answer equals the negation flag. Each of the four outcomes has its exact text, including `spaCheck`'s "Confirmed exists" wording for a negated hit. |
| Actions.ExistsFound | lib/user-routine.ts:176-190 | Without text, `exists` finds iff the selector matches something. With text, it finds iff some match holds a clickable element containing the text, and the element it settles on is clickable and contains the text. |
| Actions.Exists | lib/user-routine.ts:168-207 | `exists` never changes the page and keeps the run's progress. |
| Actions.ExistsTable | lib/user-routine.ts:168-207 | The four outcomes of `exists` and `!exists`, with their exact texts. |
| Actions.SpaExists | spa-check.ts:123-168 | `spaCheck`'s `exists` never changes the page and keeps the run's progress. It throws the `getBoundingClientRect` error only when tooltips are shown, and then leaves the session untouched. |
| Actions.SpaExistsPinned | spa-check.ts:134-144 | The element a text `exists` in `spaCheck` points its tooltip at is clickable and holds the text, and it is there only when the text was found. |
| Actions.SpaExistsNeedsNoClickable | spa-check.ts:123-168 | Text inside an element with nothing clickable fails `userRoutine`'s `exists`. `spaCheck` counts it as existing: without progress display it notes so, and with progress display it throws while pointing the tooltip at the missing clickable element. |
| Actions.Fill | lib/user-routine.ts:209-219 | `fill` changes the page only by setting the selected element's value to the data. Conversely, when the action parses to a selector that matches, it completes normally, adds one note and sets that element's value to the data. |
| Actions.SpaValSets | spa-check.ts:169-178 | In `spaCheck`, `val sel data` on a matching selector completes normally, logs "Set the value of sel to data" and leaves that element's value equal to the data. |
| Actions.SpaValDispatch | spa-check.ts:169-170 | `spaCheck` routes every action starting with `val` to the value setter. |
| Actions.ValueVerdict | lib/user-routine.ts:229-249 | A `value` check notes success iff the value equals the expected text, or is non-empty when none is expected. Otherwise it fails. |
| Actions.CheckValue | lib/user-routine.ts:221-250 | `value` never changes the page and keeps the run's progress. When the action parses to a selector that matches, it completes normally. It adds one entry, or two when the element has no value property, the first then being a failure. The last entry is a note iff the value equals the expected data, or is anything but the empty string when no data is given. |
| Actions.FillThenValue | lib/user-routine.ts:209-250 | `fill sel data` followed by `value sel data` passes. |
| Actions.FillWithData | lib/user-routine.ts:209-219 | `fill sel data` stores the data, spaces included, in the selected element. |
| Actions.CheckFilledValue | lib/user-routine.ts:221-250 | `value sel data` on an element holding exactly the data records one note. |
| Actions.Write | lib/user-routine.ts:252-273 | `write` and `append` change only the selected element's text. The newer engines write or append the data, or nothing when it is missing or empty. `spaCheck`'s `write` writes the data or empties the text, and its `append` appends the data or `undefined`. |
| Actions.WriteWithData | lib/user-routine.ts:252-264 | `write sel data` replaces the element's text with the data and notes "Wrote 'data' over sel". |
| Actions.ShortDataActionThrows | lib/user-routine.ts:440-446 | A data action without data logs the malformed-input failure and throws. |
| Actions.AwaitNext | lib/user-routine.ts:282-287 | In tutorial mode the run waits until Next is clicked or the run halts, and hangs only if neither happens. |
| Actions.LogValue | lib/user-routine.ts:276-281 | With the default separator (always in `spaCheck`) `log` has a value iff the action contains a space, and the value is everything after the first space, which follows a spaceless word. |
| Actions.LogAction | lib/user-routine.ts:275-287 | `log` adds exactly one entry: a note holding `Actions.LogValue`'s text, or a blank entry when there is none (a bare `log`). With a custom separator that text is only the second piece, so `log;a;b` logs `a`. |
| Actions.LogKeepsText | lib/user-routine.ts:280 | `log some text` logs exactly `some text`. |
| Actions.Comment | lib/user-routine.ts:289-300 | `comment` never changes the page. |
| Actions.CommentAddsNoEntry | lib/user-routine.ts:289-300 | A `comment` adds no log entry, and outside tutorial mode it does nothing at all. |
| Actions.WaitAction | lib/user-routine.ts:302-310 | `wait` notes the duration in seconds. A newer engine hangs exactly when `Number(value)` is positive at a zero delay, or is `Infinity` at a delay that is not negative. `spaCheck` never hangs. |
| Actions.PollFinite | lib/user-routine.ts:324-347 | A bounded poll breaks only on a page where the probe answers differently from the negation flag. When it runs out, the first page answered the same as the flag. |
| Actions.PollCount | lib/user-routine.ts:324-347 | The number of page states a bounded poll examines: every earlier one answered like the negation flag, and stopping short of the bound means the next one answered differently. |
| Actions.PollFiniteStopsAt | lib/user-routine.ts:324-347 | The bounded poll leaves the page at the state where it stopped, and broke exactly when it stopped before the bound. |
| Actions.PollFiniteFirstHit | lib/user-routine.ts:324-347 | The bounded poll breaks iff one of the first `n` page states answers differently from the negation flag. |
| Actions.PollForever | lib/user-routine.ts:324-347 | An unbounded poll either finds a page where the probe answers differently or never ends. |
| Actions.Poll | lib/user-routine.ts:317-347 | The poll hangs exactly when it is unbounded and never breaks. |
| Actions.AwaitVerdict | lib/user-routine.ts:351-363 | An `await` adds one entry, which is a failure iff the answer equals the negation flag. Each outcome has its exact text: "...Found", "Timed out after N second(s) awaiting", "...Timed out awaiting … to not exist" and "... disappeared". |
| Actions.AwaitPinned | lib/user-routine.ts:326-353 | The closing tooltip of an await points at the match itself, or at a clickable element holding the text below the first text match, which may not exist. |
| Actions.AwaitAction | lib/user-routine.ts:312-364 | `await` keeps the run's progress, and when it completes it adds exactly two entries. It throws the `getBoundingClientRect` error only when tooltips are shown, after its "Awaiting" note. |
| Actions.AwaitFoundIffSomePollHits | lib/user-routine.ts:324-364 | A non-negated await with a finite poll count notes "...Found" iff one of the page states it polls has the target. It leaves the page where polling stopped, and otherwise can only throw on a text tooltip. |
| Actions.AwaitTextWithoutClickable | lib/user-routine.ts:326-353 | Text found at once in an element with nothing clickable is noted as found when tooltips are off, and throws the `getBoundingClientRect` error when they are shown. |
| Actions.NegatedAwaitNeverTimesOut | lib/user-routine.ts:344-363 | Whatever the page shows, a negated await that completes notes the awaiting and then "...disappeared". `found` is reset at the end of every pass, so the timeout branch for a negated await is unreachable. |
| Actions.SpaTextAwaitSelector | spa-check.ts:233 | `spaCheck` rewrites `>>` in a text await to `undefined`, while `userRoutine` uses a space. They agree on locators that have no `>>`. |
| Actions.AwaitProbe | lib/user-routine.ts:324-340 | An await polls for an element iff the value is not truthy, and otherwise for its text. The looked-up selector never contains `>>`. It is the rewritten locator except in `spaCheck`'s text poll on a locator with `>>`, which writes `undefined` (spa-check.ts:233). |
| Actions.AwaitLimit | lib/user-routine.ts:317-324 | The poll count is unbounded iff the delay is zero and the timeout positive. Otherwise the poll indices are exactly those below the timeout (doubled outside `spaCheck`) over the delay, so a fractional quotient rounds up. |
| Actions.AwaitLoop | lib/user-routine.ts:324-347 | The imperative polling loop returns the functional poll's answer and page, and never reports "found" for a negated await. |
| Actions.ActString | lib/user-routine.ts:121-370 | Every action string keeps the run's progress, or hangs. |
| Actions.Perform | lib/user-routine.ts:100-119 | A callback adds one entry, a failure iff it threw. Anything that is neither a string nor a function fails with its type. |
| Actions.SpaLacksFillAndComment | spa-check.ts:80-278 | `spaCheck` has no `fill` or `comment`, so both fail as unrecognized keywords. |
| Routine.Admit | lib/user-routine.ts:456-476 | The start-up guard refuses with a halting failure, or crashes on a missing document or a banner without text. It always admits a run with no banner, and a simultaneous `userRoutine`. |
| Routine.GuardRefuses | lib/user-routine.ts:456-476 | Beside another run's banner, `userRoutine` refuses with the exact "already running" text. |
| Routine.DryRunGuardQuotesNull | lib/dry-run.ts:448-466 | `dryRun` quotes `null` when the banner has no attribute. |
| Routine.ListProblem | lib/user-routine.ts:886-900 | The list check reports a problem iff the engine does not accept the list argument. |
| Routine.Report | lib/user-routine.ts:886-900 | A reported problem halts the run with one failure. No problem changes nothing. |
| Routine.Validate | lib/user-routine.ts:886-900 | Validation leaves the run untouched iff both arguments are valid, and otherwise halts with one failure per problem. |
| Routine.SpaRejectsTextList | spa-check.ts:601-615 | `spaCheck` given a string list resolves with exactly two entries: the halting failure "FAIL: Action list argument is not an Array", then the `Done` note with `success` false. |
| Routine.BothArgumentsReported | lib/user-routine.ts:886-900 | A missing list and a non-object options value are both reported, as the halting failures "FAIL: Missing required argument Action List" and "FAIL: Options argument is not an Object", in that order, before `Done`. |
| Routine.Iterate | lib/user-routine.ts:80-86 | One iteration (delay, then action, with a thrown error turned into "Unexpected error") keeps the run's progress. With continue-on-failure and no stop, it keeps the run going. |
| Routine.ShortFillFailsTwice | lib/user-routine.ts:80-86 | `fill sel` without data records two failures: the malformed input, then the error it throws. |
| Routine.ActionRunsAfterStopInDelay | lib/user-routine.ts:78-86 | The loop checks `continueActions` before the delay and not after it. So an action still runs after a stop confirmed during an unpaused delay, and a returning callback appends its "Ran provided function" note after the stop failure. |
| Routine.Loop | lib/user-routine.ts:78-87 | The loop keeps the run's progress. It stops early only once the run halted, and does nothing for a halted run. |
| Routine.EveryActionRuns | lib/user-routine.ts:78-87 | With continue-on-failure and no stop, every action runs and the run is still going at the end. |
| Routine.Finish | lib/user-routine.ts:497-512 | `finish` appends the `Done` note and resolves with the payload. `success` is true iff the log has no failure, and the key handler is removed if the run set it. |
| Routine.Walk | lib/user-routine.ts:75-87 | After start-up, the run resolves with the `Done` note last, `success` iff no failure, halting failures only unless continuing, and `onkeydown` restored. |
| Routine.Main | lib/user-routine.ts:64-87 | The same promises for a whole admitted run, and the exact outcome when the inputs are invalid. |
| Routine.Start | lib/user-routine.ts:64-87 | A run is rejected iff the guard crashes. A refused run resolves with the guard's failure alone. An admitted run is `Main`. |
| Routine.Routine | lib/user-routine.ts:5-87 | The whole call. It rejects iff `null` options reach a newer engine or the guard crashes. It resolves with `success` iff the log has no failure, and with the configuration only for `userRoutine`. |
| Routine.NullOptionsHandling | lib/user-routine.ts:23-31 | `null` options throw in the newer engines, while `spaCheck` runs with them. |
| MiniTest.FireTimesOrdered | MiniTest.ts:19-27 | Timers fire in list order. |
| MiniTest.BannerOutlastsActions | MiniTest.ts:27 | The message is removed no earlier than the last action fires. |
| MiniTest.Select | MiniTest.ts:61-68 | `select` finds the first match of the locator as written, or halts and throws "CSS Selector not found". |
| MiniTest.Do | MiniTest.ts:30-59 | Only a missing element halts, and it throws the selector error naming the locator. Unknown verbs do nothing. |
| MiniTest.MissingTextDoesNotHalt | MiniTest.ts:45-49 | A failed `includes` throws but the later actions still run. |
| MiniTest.ValueStoresText | MiniTest.ts:41-43 | `value sel text` stores the text, spaces included. |
| MiniTest.WriteAppends | MiniTest.ts:51-53 | `write sel text` appends the text, spaces included, to the element's text and never writes over it. |
| MiniTest.Fire | MiniTest.ts:22-24 | A timer does nothing once `continue` is cleared, throws at most one error, and clears `continue` only with a selector error. |
| MiniTest.HaltIsFinal | MiniTest.ts:19-28 | Once halted, nothing changes. A halted run's last error is a selector error, and at most one error is thrown per action. |
| MiniTest.Start | MiniTest.ts:14-28 | The message appears iff it is non-empty. At most one error is thrown per action, and a halt ends with a selector error. |

## Left out

- Tooltips, animations, the progress banner's styling and all timing
  constants: they only affect what the user sees and when. The exception is
  a tooltip pointed at an element that is not there, which throws and is
  modelled. The banner element that some tooltips point at is taken to
  exist.
- Console output (`logProgress`, `logCollapse`, `logResult`, warnings): it is
  not part of the returned payload.
- Control events during an await poll's half-delay sleeps and during `wait`
  slices: events are taken only in the delay before each action and in
  tutorial Next waits. The pausing inside those sleeps is not modelled.
- The durations of sleeps: only whether a sleep ends is modelled.
- `Number(value)` for `wait`: the string-to-number conversion and the text
  of `Number(value) / 1000` are the `Actions.Numbers` oracle. The number is a
  `Control.JsNumber` (a real, an infinity or `NaN`), and negative zero is not
  told apart from zero.
- `innerText` is read as `textContent`. The `textContent` setter replaces the
  node's children with its text but does not recompute its ancestors' text:
  there is no layout engine.
- Dom.ResolveAfterUpdate: stated for value edits only. A text edit drops the
  edited node's children, so selector matches below it disappear.
- JsString.Lower: folds the ASCII and Latin-1 capitals only. `toLowerCase`
  also folds the capitals of other scripts (Latin Extended, Greek, Cyrillic
  and more), so case-insensitive matches on those letters are not modelled.
- `querySelector` throwing a `SyntaxError` on an invalid selector: the CSS
  grammar is not modelled. A selector either matches nodes or does not.
- `setTimeout` treating delays above 2^31-1 ms as zero: delays are unbounded
  integers.
- Side effects of user callbacks on the page: a callback's only outcome is
  that it returns or throws with a message.
- Two runs at the same time: the banner is a host input, so concurrency is
  limited to the start-up guard.
- `spaCheck` is taken to be called with a `this` that has its methods, as its
  published wrapper does.
- `MiniTest`'s `log` verb and `messageStyle`: they only write to the console
  or style the banner.
- Control.NonBlockingSleep: the plan says which slices are slept but not the
  pauses taken between them. `Actions.WaitAction` depends only on whether the
  sleep ends, and for a positive delay `Control.ExactSleep` and the sleep as
  written both end.
- Actions.AwaitAction: its own contract gives the entry count, the run's
  progress and when it may throw. Which entry it adds is stated by
  `Actions.AwaitVerdict` and `Actions.AwaitFoundIffSomePollHits`, the latter
  for finite poll counts only.
- Settings.Resolve: an option is either absent or set to a value. JavaScript
  has a third case: a key present with the value `undefined`, which the
  spread `{...defaultConfig, ...options}` copies over the default. So
  `{message: undefined}` resolves with an undefined message, and
  `{separator: undefined}` makes `split` return the whole action, so `nav #x`
  fails with "Unexpected nav action". `{globalDelay: undefined}` makes the await count
  `NaN`, so an await never polls. None of these are modelled.
- Routine.Routine: the newer engines write the tutorial-mode overrides back
  into the caller's options object (lib/user-routine.ts:23-30,
  lib/dry-run.ts:22). In strict mode that write throws a `TypeError` on a
  frozen object, so `Object.freeze({tutorialMode: true})` rejects the
  promise. Options are values here, so its rejects-iff covers only `null`
  options and a crashing start-up guard.
- Actions.CheckValue: a numeric `value` property (on `li`, `progress` or
  `meter`) is modelled as absent. Such an element is reported as having no
  value where the page would report the number's text, such as '0'.
- Actions.FillThenValue: the browser's sanitisation of what is written to
  `value` (an `input type=number` dropping non-numeric text, for example) is
  not modelled. The stored value is always the raw data, so this round trip
  also holds for inputs where the page would not keep the data.
- The page does not react between actions: it changes only through the run's
  own edits and through the page states an await poll is given. Click
  handlers, the input event that `spaCheck` dispatches, page timers during
  the delay and a `MiniTest` navigation to a URL that unloads the page have
  no effect in the model.

## Findings

| source | as written | input that shows it | evidently intended | confidence | as-written member | corrected member |
|---|---|---|---|---|---|---|
| lib/user-routine.ts:958-964 | `nonBlockingSleep` runs `ms / globalDelay * 2` half-delay slices, which already cover the whole duration (a fractional count rounds up), and then sleeps half of `ms % globalDelay` on top | `wait 750` at the default 500 ms delay sleeps 875 ms | slices that add up to the requested duration | not executed | Control.NonBlockingSleepOvershoots | Control.ExactSleep |

=== FILE: actions.dfy ===
/*******************************************************************************
 *  The action executors: what one entry of the action list does to the run
 *  and to the page, for each engine.
 *******************************************************************************/
module Actions {
  import opened JsString
  import opened Settings
  import opened Dom
  import opened Parse
  import opened Control

  /** What the engine asks of the JavaScript host when it converts a `wait`
      duration: `${Number(value) / 1000}` as text, and `Number(value)`. */
  datatype Numbers = Numbers(seconds: MaybeString -> string, number: MaybeString -> JsNumber)

  /** The engine that runs, its resolved configuration and the host's number
      conversions. */
  datatype Env = Env(v: Variant, c: Config, num: Numbers)

  /** What an action may change: the run's flags and log, and the page. */
  datatype Session = Session(run: Run, page: Page)

  /** How an action ends: normally, with a `TypeError` the run loop catches,
      or never (a tooltip whose Next is never clicked, an endless sleep or
      await). */
  datatype Completion = Normal | Threw(message: string) | Hangs

  datatype Step = Step(s: Session, how: Completion)

  const ReadingReplace := "Cannot read properties of undefined (reading 'replace')"
  const ReadingZero := "Cannot read properties of undefined (reading '0')"
  const ReadingRect := "Cannot read properties of undefined (reading 'getBoundingClientRect')"

  /** `animateTooltipOpen` measures its element when progress is displayed;
      the newer engines skip the tooltips of `exists` and `await` in tutorial
      mode. */
  predicate ShowsTooltips(e: Env)
  {
    e.c.displayProgress && (e.v == SpaCheck || !e.c.Tutorial())
  }

  /** `t` is a possible end of an action started in `s`: the run moved on
      keeping its invariants, and, when failures are continued past and no
      stop was confirmed while the action waited, the run still goes on. */
  predicate Follows(e: Env, s: Session, t: Step, waiting: seq<Event>)
  {
    t.how.Hangs? ||
      (&& Later(e.c.continueOnFailure, s.run, t.s.run)
       && (e.c.continueOnFailure && Quiet(waiting) ==> t.s.run.st.continueActions == s.run.st.continueActions))
  }

  /*****************************************************************************
   * Recording
   *****************************************************************************/

  function Noted(s: Session, message: string): (t: Session)
    ensures t.page == s.page && t.run.st == s.run.st
    ensures t.run.log == s.run.log + [Note(message)]
    ensures forall cof :: Later(cof, s.run, t.run)
  {
    s.(run := Log(s.run, message))
  }

  function Failed(e: Env, s: Session, message: string, value: MaybeString): (t: Session)
    ensures t.page == s.page
    ensures t.run.log == s.run.log + [Failure(FailText(message, value, e.c.continueOnFailure))]
    ensures Later(e.c.continueOnFailure, s.run, t.run)
    ensures t.run.st.continueActions == (s.run.st.continueActions && e.c.continueOnFailure)
  {
    s.(run := RaiseError(s.run, message, value, e.c.continueOnFailure))
  }

  /** `log(value)` with a value that may be `undefined`, which the log keeps
      as a blank entry. */
  function Push(r: Run, value: MaybeString): (r': Run)
    ensures r'.st == r.st
    ensures r'.log == r.log + [if value.Some? then Note(value.value) else Blank]
    ensures forall cof :: Later(cof, r, r')
  {
    if value.Some? then Log(r, value.value)
    else
      HasFailureAppend(r.log, [Blank]);
      AllHaltAppend(r.log, [Blank]);
      r.(log := r.log + [Blank])
  }

  /*****************************************************************************
   * Arguments and lookup
   *****************************************************************************/

  /** The locator and data of an action, or how reading them ended the action. */
  datatype Parsed = Got(selector: MaybeString, data: MaybeString) | Ended(t: Step)

  /** The failure text `argSplit` records when the data pattern does not
      match; `spaCheck` puts the whole action into the message. */
  function MalformedMessage(v: Variant, action: string): string
  {
    if v == SpaCheck then "Unexpected " + action + " input with data, got:"
    else "Unexpected input with data, got"
  }

  /** `argSplit` (`complex` false) or `argSplitComplex`, followed by the
      destructuring of pieces 1 and 2. */
  function Arguments(e: Env, s: Session, action: string, complex: bool): (p: Parsed)
    ensures p.Ended? ==> p.t.how == Threw(ReadingReplace) && Follows(e, s, p.t, [])
    ensures p.Ended? ==> p.t.s.page == s.page
  {
    var a := if complex then ArgSplitComplex(e.c.separator, action) else ArgSplit(e.c.separator, action);
    match a
    case Parts(pieces) => Got(At(pieces, 1), At(pieces, 2))
    case NoSelector => Ended(Step(s, Threw(ReadingReplace)))
    case Malformed =>
      Ended(Step(Failed(e, s, MalformedMessage(e.v, action), Some(action)), Threw(ReadingReplace)))
  }

  datatype Selected = Found(n: Node) | NotFound(s: Session) | Crashed

  /** `select`: the first element the selector matches; a miss records a
      failure, an `undefined` locator throws. */
  function Select(e: Env, s: Session, selector: MaybeString): (r: Selected)
    ensures r.Crashed? <==> selector.None?
    ensures r.Found? <==> selector.Some? && Query(s.page.doc, Css(selector.value)).Some?
    ensures r.Found? ==> r.n == Query(s.page.doc, Css(selector.value)).value
    ensures r.NotFound? ==>
      r.s == Failed(e, s, "CSS Selector not found", Some(Css(selector.value)))
  {
    match selector
    case None => Crashed
    case Some(sel) =>
      match Query(s.page.doc, Css(sel))
      case Some(n) => Found(n)
      case None => NotFound(Failed(e, s, "CSS Selector not found", Some(Css(sel))))
  }

  /*****************************************************************************
   * navigate
   *****************************************************************************/

  /** `nav`: only an in-page `#` location is followed. */
  function Navigate(e: Env, s: Session, action: string): (t: Step)
    ensures t.how == Normal && Follows(e, s, t, [])
    ensures var loc := At(Split(action, e.c.separator), 1);
      if Truthy(loc) && loc.value[0] == '#' then
        t.s.page == s.page.(location := loc.value) && t.s.run.log == s.run.log + [Note("Navigated to " + loc.value)]
      else
        t.s.page == s.page && t.s.run.log == s.run.log + [Failure(FailText("Unexpected nav action, got", Some(action), e.c.continueOnFailure))]
  {
    var loc := At(Split(action, e.c.separator), 1);
    if Truthy(loc) && loc.value[0] == '#' then
      Step(Noted(s.(page := s.page.(location := loc.value)), "Navigated to " + loc.value), Normal)
    else
      Step(Failed(e, s, "Unexpected nav action, got", Some(action)), Normal)
  }

  /*****************************************************************************
   * click
   *****************************************************************************/

  /** `cli`: with text, the last qualifying element found by the text search
      under the selected elements; without, the first selected element. */
  function ClickAction(e: Env, s: Session, action: string): (t: Step)
    ensures Follows(e, s, t, [])
    ensures t.how.Normal? && |t.s.page.clicked| > |s.page.clicked| ==>
      t.s.page.clicked == s.page.clicked + [t.s.page.clicked[|s.page.clicked|]]
    ensures t.s.page != s.page ==>
      var g := Arguments(e, s, action, true);
      && t.how.Normal? && g.Got? && g.selector.Some?
      && (Truthy(g.data) ==>
            var hit := SearchList(QueryAll(s.page.doc, Css(g.selector.value)), g.data.value);
            hit.Some? && t.s.page == Click(s.page, hit.value))
      && (!Truthy(g.data) ==>
            var found := Query(s.page.doc, Css(g.selector.value));
            found.Some? && t.s.page == Click(s.page, found.value))
  {
    match Arguments(e, s, action, true)
    case Ended(t) => t
    case Got(selector, value) =>
      if Truthy(value) then
        if selector.None? then Step(s, Threw(ReadingReplace))
        else
          var hit := SearchList(QueryAll(s.page.doc, Css(selector.value)), value.value);
          if hit.Some? then
            var n := hit.value;
            Step(Noted(s.(page := Click(s.page, n)),
                       "Clicked text '" + value.value + "' inside " + selector.value + " (clicked on " + Lower(n.tag) + ")"),
                 Normal)
          else
            Step(Failed(e, s, "Could not find selector to click", Some(TargetText(selector, value))), Normal)
      else
        match Select(e, s, selector)
        case Crashed => Step(s, Threw(ReadingReplace))
        case NotFound(s1) => Step(s1, Normal)
        case Found(n) => Step(Noted(s.(page := Click(s.page, n)), "Clicked " + selector.value), Normal)
  }

  /** A click by selector clicks the first match and notes the selector, or
      records that the selector was not found and clicks nothing. */
  lemma ClickBySelectorTarget(e: Env, s: Session, sel: string)
    requires e.c.separator == Space && ' ' !in sel
    ensures var t := ClickAction(e, s, "click " + sel);
      var found := Query(s.page.doc, Css(sel));
      && t.how.Normal?
      && (found.Some? ==>
            t.s.page == Click(s.page, found.value) && t.s.run.log == s.run.log + [Note("Clicked " + Css(sel))])
      && (found.None? ==>
            t.s.page == s.page
            && t.s.run.log == s.run.log + [Failure(FailText("CSS Selector not found", Some(Css(sel)), e.c.continueOnFailure))])
  {
    assert "click " + sel == "click" + " " + sel;
    ArgSplitComplexNoData("click", sel);
    CssIdempotent(sel);
    assert Arguments(e, s, "click " + sel, true) == Got(Some(Css(sel)), None);
  }

  /** A click by text whose search succeeds clicks what it found. */
  lemma ClickByTextClicks(e: Env, s: Session, action: string, sel: string, text: string)
    requires Arguments(e, s, action, true) == Got(Some(sel), Some(text)) && |text| > 0
    requires SearchList(QueryAll(s.page.doc, Css(sel)), text).Some?
    ensures var t := ClickAction(e, s, action);
      && t.how.Normal?
      && t.s.page.clicked == s.page.clicked + [SearchList(QueryAll(s.page.doc, Css(sel)), text).value.id]
  {
  }

  /** A click by text lands on a clickable element that contains the text and
      that the walk reaches from one of the selected elements. */
  lemma ClickByTextTarget(e: Env, s: Session, action: string, sel: string, text: string)
    requires Arguments(e, s, action, true) == Got(Some(sel), Some(text)) && |text| > 0
    requires SearchList(QueryAll(s.page.doc, Css(sel)), text).Some?
    ensures var t := ClickAction(e, s, action);
      var n := SearchList(QueryAll(s.page.doc, Css(sel)), text).value;
      && t.how.Normal? && t.s.page.clicked == s.page.clicked + [n.id]
      && Clickable(n) && ContainsText(n, text)
      && exists j :: 0 <= j < |QueryAll(s.page.doc, Css(sel))| && Reaches(QueryAll(s.page.doc, Css(sel))[j], n, text)
  {
    ClickByTextClicks(e, s, action, sel, text);
    var ns := QueryAll(s.page.doc, Css(sel));
    SearchListLastWins(ns, text);
    var j :| 0 <= j < |ns| && SearchList(ns, text) == SearchNode(ns[j], text)
      && forall k :: j < k < |ns| ==> SearchNode(ns[k], text).None?;
    SearchNodeSpec(ns[j], text);
  }

  /*****************************************************************************
   * exists
   *****************************************************************************/

  /** What the newer engines' `exi` counts as found: with text, a clickable
      element containing it; without, any match of the selector. */
  function ExistsFound(d: Document, sel: string, value: MaybeString): (found: bool)
    ensures !Truthy(value) ==> (found <==> |QueryAll(d, Css(sel))| > 0)
    ensures Truthy(value) ==>
      (found <==> exists j :: 0 <= j < |QueryAll(d, Css(sel))| && SearchNode(QueryAll(d, Css(sel))[j], value.value).Some?)
    ensures found && Truthy(value) ==>
      && SearchList(QueryAll(d, Css(sel)), value.value).Some?
      && var n := SearchList(QueryAll(d, Css(sel)), value.value).value;
        Clickable(n) && ContainsText(n, value.value)
  {
    if Truthy(value) then
      var ns := QueryAll(d, Css(sel));
      SearchListLastWins(ns, value.value);
      assert SearchList(ns, value.value).Some? ==>
        var n := SearchList(ns, value.value).value; Clickable(n) && ContainsText(n, value.value)
      by {
        if SearchList(ns, value.value).Some? {
          var j :| 0 <= j < |ns| && SearchList(ns, value.value) == SearchNode(ns[j], value.value);
          SearchNodeSpec(ns[j], value.value);
        }
      }
      SearchList(ns, value.value).Some?
    else Query(d, Css(sel)).Some?
  }

  /** The four outcomes of a presence check. */
  function ExistsVerdict(e: Env, s: Session, found: bool, negated: bool, target: string, spa: bool): (t: Session)
    ensures Later(e.c.continueOnFailure, s.run, t.run) && t.page == s.page
    ensures e.c.continueOnFailure ==> t.run.st.continueActions == s.run.st.continueActions
    ensures |t.run.log| == |s.run.log| + 1
    ensures t.run.log[|s.run.log|].Failure? <==> found == negated
    ensures found && !negated ==> t.run.log[|s.run.log|] == Note("Confirmed exists: " + target)
    ensures !found && !negated ==>
      t.run.log[|s.run.log|] == Failure(FailText("Did not exist", Some(target), e.c.continueOnFailure))
    ensures found && negated ==>
      t.run.log[|s.run.log|] == Failure(FailText((if spa then "Confirmed exists: " else "Incorrectly exists: ") + target, None, e.c.continueOnFailure))
    ensures !found && negated ==> t.run.log[|s.run.log|] == Note("Confirmed does not exist: " + target)
  {
    if found && !negated then Noted(s, "Confirmed exists: " + target)
    else if !found && !negated then Failed(e, s, "Did not exist", Some(target))
    else if found && negated then Failed(e, s, (if spa then "Confirmed exists: " else "Incorrectly exists: ") + target, None)
    else Noted(s, "Confirmed does not exist: " + target)
  }

  /** `exi` in `userRoutine` and `dryRun`: a leading `!` on the action negates. */
  function Exists(e: Env, s: Session, action: string): (t: Step)
    ensures Follows(e, s, t, [])
    ensures t.s.page == s.page
  {
    match Arguments(e, s, action, true)
    case Ended(t) => t
    case Got(selector, value) =>
      if selector.None? then Step(s, Threw(ReadingReplace))
      else
        var found := ExistsFound(s.page.doc, selector.value, value);
        Step(ExistsVerdict(e, s, found, Negated(action), TargetText(selector, value), false), Normal)
  }

  /** An existence check passes exactly when what it looks for is found and
      the action is not negated, or is not found and the action is negated;
      otherwise it records one failure. */
  lemma ExistsTable(e: Env, s: Session, action: string, sel: string, value: MaybeString)
    requires Arguments(e, s, action, true) == Got(Some(sel), value)
    ensures var t := Exists(e, s, action);
      && t.how.Normal? && |t.s.run.log| == |s.run.log| + 1
      && (t.s.run.log[|s.run.log|].Failure? <==> ExistsFound(s.page.doc, sel, value) == Negated(action))
      && (!t.s.run.log[|s.run.log|].Failure? <==> t.s.run.log[|s.run.log|].Note?)
  {
  }

  /** `spaCheck` has any element containing the text count as found. */
  predicate AnyContains(ns: seq<Node>, text: string)
  {
    exists i :: 0 <= i < |ns| && ContainsText(ns[i], text)
  }

  /** `exi` in `spaCheck`: a leading `!` on the locator negates and is
      dropped before the lookup. A text lookup points its tooltip at what the
      clickable-text search finds below the first element holding the text,
      which may be nothing. */
  function SpaExists(e: Env, s: Session, action: string): (t: Step)
    ensures Follows(e, s, t, [])
    ensures t.s.page == s.page
    ensures t.how == Threw(ReadingRect) ==> ShowsTooltips(e) && t.s == s
  {
    match Arguments(e, s, action, true)
    case Ended(t) => t
    case Got(selector, value) =>
      if selector.None? then Step(s, Threw(ReadingZero))
      else
        var negated := |selector.value| > 0 && selector.value[0] == '!';
        var sel := if negated then selector.value[1..] else selector.value;
        var found :=
          if Truthy(value) then AnyContains(QueryAll(s.page.doc, Css(sel)), value.value)
          else Query(s.page.doc, Css(sel)).Some?;
        if found && Truthy(value) && ShowsTooltips(e) && SpaExistsPinned(s.page.doc, sel, value.value).None? then
          Step(s, Threw(ReadingRect))
        else Step(ExistsVerdict(e, s, found, negated, TargetText(Some(sel), value), true), Normal)
  }

  /** The element `spaCheck`'s text `exi` points its tooltip at. */
  function SpaExistsPinned(d: Document, sel: string, text: string): (r: Option<Node>)
    ensures r.Some? ==> Clickable(r.value) && ContainsText(r.value, text)
    ensures r.Some? ==> AnyContains(QueryAll(d, Css(sel)), text)
  {
    match FirstHolding(QueryAll(d, Css(sel)), text, false)
    case None => None
    case Some(n) =>
      SearchNodeSpec(n, text);
      SearchNode(n, text)
  }

  /** The same page and action: an element that holds the text but nothing
      clickable passes `spaCheck`'s check and fails the newer engines'. */
  lemma SpaExistsNeedsNoClickable(e: Env, s: Session, action: string, sel: string, text: string, n: Node)
    requires Arguments(e, s, action, true) == Got(Some(sel), Some(text)) && |text| > 0
    requires |sel| == 0 || sel[0] != '!'
    requires !Negated(action)
    requires QueryAll(s.page.doc, Css(sel)) == [n]
    requires ContainsText(n, text) && !Clickable(n) && n.children == []
    ensures Exists(e, s, action).s.run.log == s.run.log + [Failure(FailText("Did not exist", Some(TargetText(Some(sel), Some(text))), e.c.continueOnFailure))]
    ensures !e.c.displayProgress ==>
      SpaExists(e, s, action) == Step(Noted(s, "Confirmed exists: " + TargetText(Some(sel), Some(text))), Normal)
    ensures e.c.displayProgress && e.v == SpaCheck ==> SpaExists(e, s, action) == Step(s, Threw(ReadingRect))
  {
    assert SearchKids(n, 0, text) == None;
    assert SearchList([n], text) == Or(SearchNode(n, text), SearchList([], text));
    assert AnyContains([n], text) by {
      assert ContainsText([n][0], text);
    }
    assert FirstHolding([n], text, false) == Some(n);
  }

  /*****************************************************************************
   * fill, value, write, append
   *****************************************************************************/

  /** `fil`: sets the selected element's `value` to the data, which a missing
      piece turns into the text `undefined`. `spaCheck`'s `val` does the same
      and words its note differently. */
  function Fill(e: Env, s: Session, action: string): (t: Step)
    ensures Follows(e, s, t, [])
    ensures t.s.page != s.page ==>
      var g := Arguments(e, s, action, false);
      && t.how.Normal? && g.Got? && g.selector.Some? && Query(s.page.doc, Css(g.selector.value)).Some?
      && t.s.page == EditNode(s.page, Query(s.page.doc, Css(g.selector.value)).value.id, SetValue(Show(g.data)))
    ensures var g := Arguments(e, s, action, false);
      g.Got? && g.selector.Some? && Query(s.page.doc, Css(g.selector.value)).Some? ==>
      && t.how.Normal?
      && t.s.page == EditNode(s.page, Query(s.page.doc, Css(g.selector.value)).value.id, SetValue(Show(g.data)))
      && |t.s.run.log| == |s.run.log| + 1 && t.s.run.log[|s.run.log|].Note?
  {
    match Arguments(e, s, action, false)
    case Ended(t) => t
    case Got(selector, value) =>
      match Select(e, s, selector)
      case Crashed => Step(s, Threw(ReadingReplace))
      case NotFound(s1) => Step(s1, Normal)
      case Found(n) =>
        var note :=
          if e.v == SpaCheck then "Set the value of " + selector.value + " to " + Show(value)
          else "Filled the value of " + selector.value + " to '" + Show(value) + "'";
        Step(Noted(s.(page := EditNode(s.page, n.id, SetValue(Show(value)))), note), Normal)
  }

  /** The verdict of `val` on the selected element's value `seen`: without
      expected data it passes on anything but the empty string, with data on
      equality. */
  function ValueVerdict(e: Env, s: Session, sel: string, expected: MaybeString, seen: Option<string>): (t: Session)
    ensures Later(e.c.continueOnFailure, s.run, t.run) && t.page == s.page
    ensures e.c.continueOnFailure ==> t.run.st.continueActions == s.run.st.continueActions
    ensures |t.run.log| == |s.run.log| + 1
    ensures t.run.log[|s.run.log|].Note? <==> if expected.None? then seen != Some("") else seen == expected
    ensures !t.run.log[|s.run.log|].Note? ==> t.run.log[|s.run.log|].Failure?
  {
    if expected.None? then
      if seen != Some("") then Noted(s, "Element '" + sel + "' had a value ('" + Show(seen) + "')")
      else Failed(e, s, "Element '" + sel + "' did not have a value", None)
    else if seen == expected then
      Noted(s, "Element '" + sel + "' has the correct value: '" + Show(seen) + "'")
    else
      Failed(e, s, "Element '" + sel + "' has an incorrect value, expected '" + expected.value + "' but saw '" + Show(seen) + "'", None)
  }

  /** `val` in `userRoutine` and `dryRun`: checks the selected element's value.
      An element without a value property records a failure and is still
      checked. */
  function CheckValue(e: Env, s: Session, action: string): (t: Step)
    ensures Follows(e, s, t, [])
    ensures t.s.page == s.page
    ensures var g := Arguments(e, s, action, true);
      g.Got? && g.selector.Some? && Query(s.page.doc, Css(g.selector.value)).Some? ==>
      var seen := Query(s.page.doc, Css(g.selector.value)).value.value;
      && t.how.Normal?
      && |t.s.run.log| == |s.run.log| + (if seen.None? then 2 else 1)
      && (seen.None? ==> t.s.run.log[|s.run.log|].Failure?)
      && (t.s.run.log[|t.s.run.log| - 1].Note? <==> if g.data.None? then seen != Some("") else seen == g.data)
  {
    match Arguments(e, s, action, true)
    case Ended(t) => t
    case Got(selector, value) =>
      match Select(e, s, selector)
      case Crashed => Step(s, Threw(ReadingReplace))
      case NotFound(s1) => Step(s1, Normal)
      case Found(n) =>
        var s1 :=
          if n.value.None? then
            Failed(e, s, "Element " + selector.value + " (" + Lower(n.tag) + ") did not have a value attribute", None)
          else s;
        var t := ValueVerdict(e, s1, selector.value, value, n.value);
        LaterTrans(e.c.continueOnFailure, s.run, s1.run, t.run);
        Step(t, Normal)
  }

  /** What filling a field and then checking it gives: with the default
      separator, `fill S D` followed by `value S D` passes, leaving one note
      each. */
  lemma FillThenValue(e: Env, s: Session, sel: string, data: string)
    requires e.v != SpaCheck && e.c.separator == Space
    requires |sel| > 0 && forall k :: 0 <= k < |sel| ==> !IsWhitespace(sel[k])
    requires Query(s.page.doc, Css(sel)).Some?
    ensures var t1 := Fill(e, s, "fill " + sel + " " + data);
      var t2 := CheckValue(e, t1.s, "value " + sel + " " + data);
      && t1.how.Normal? && t2.how.Normal?
      && t1.s.run.log == s.run.log + [Note("Filled the value of " + Css(sel) + " to '" + data + "'")]
      && t2.s.run.log == t1.s.run.log + [Note("Element '" + Css(sel) + "' has the correct value: '" + data + "'")]
  {
    var t1 := Fill(e, s, "fill " + sel + " " + data);
    FillWithData(e, s, sel, data);
    CheckFilledValue(e, t1.s, sel, data);
  }

  lemma FillWithData(e: Env, s: Session, sel: string, data: string)
    requires e.v != SpaCheck && e.c.separator == Space
    requires |sel| > 0 && forall k :: 0 <= k < |sel| ==> !IsWhitespace(sel[k])
    requires Query(s.page.doc, Css(sel)).Some?
    ensures var t := Fill(e, s, "fill " + sel + " " + data);
      && t.how.Normal?
      && t.s.run.log == s.run.log + [Note("Filled the value of " + Css(sel) + " to '" + data + "'")]
      && Query(t.s.page.doc, Css(sel)).Some? && Query(t.s.page.doc, Css(sel)).value.value == Some(data)
  {
    assert "fill " + sel + " " + data == "fill" + " " + sel + " " + data;
    ArgSplitWithData("fill", sel, data);
    CssIdempotent(sel);
    QueryAfterSetValue(s.page.doc, Css(sel), data);
  }

  /** `spaCheck`'s `val` sets the value and notes it; it never reads the
      value back. */
  lemma SpaValSets(e: Env, s: Session, sel: string, data: string)
    requires e.v == SpaCheck && e.c.separator == Space
    requires |sel| > 0 && forall k :: 0 <= k < |sel| ==> !IsWhitespace(sel[k])
    requires Query(s.page.doc, Css(sel)).Some?
    ensures var t := Fill(e, s, "val " + sel + " " + data);
      && t.how.Normal?
      && t.s.run.log == s.run.log + [Note("Set the value of " + Css(sel) + " to " + data)]
      && Query(t.s.page.doc, Css(sel)).Some? && Query(t.s.page.doc, Css(sel)).value.value == Some(data)
  {
    assert "val " + sel + " " + data == "val" + " " + sel + " " + data;
    ArgSplitWithData("val", sel, data);
    CssIdempotent(sel);
    QueryAfterSetValue(s.page.doc, Css(sel), data);
  }

  lemma CheckFilledValue(e: Env, s: Session, sel: string, data: string)
    requires e.v != SpaCheck && e.c.separator == Space
    requires |sel| > 0 && forall k :: 0 <= k < |sel| ==> !IsWhitespace(sel[k])
    requires Query(s.page.doc, Css(sel)).Some? && Query(s.page.doc, Css(sel)).value.value == Some(data)
    ensures var t := CheckValue(e, s, "value " + sel + " " + data);
      && t.how.Normal?
      && t.s.run.log == s.run.log + [Note("Element '" + Css(sel) + "' has the correct value: '" + data + "'")]
  {
    assert "value " + sel + " " + data == "value" + " " + sel + " " + data;
    ArgSplitWithData("value", sel, data);
    CssIdempotent(sel);
  }

  /** The text an element holds after `wri` (`append` false) or `app`. */
  function Written(before: string, text: string, append: bool): string
  {
    if append then before + text else text
  }

  /** `wri` and `app`: the newer engines write the data, or nothing when it is
      missing or empty; `spaCheck` writes `undefined` into the log and, for
      `app`, into the element. */
  function Write(e: Env, s: Session, action: string, append: bool): (t: Step)
    ensures Follows(e, s, t, [])
    ensures t.s.page != s.page ==>
      var g := Arguments(e, s, action, false);
      && t.how.Normal? && g.Got? && g.selector.Some? && Query(s.page.doc, Css(g.selector.value)).Some?
      && var n := Query(s.page.doc, Css(g.selector.value)).value;
      && (e.v != SpaCheck ==>
            t.s.page == EditNode(s.page, n.id, SetText(Written(n.text, if Truthy(g.data) then g.data.value else "", append))))
      && (e.v == SpaCheck && !append ==>
            t.s.page == EditNode(s.page, n.id, SetText(if g.data.Some? then g.data.value else "")))
      && (e.v == SpaCheck && append ==>
            t.s.page == EditNode(s.page, n.id, SetText(n.text + Show(g.data))))
  {
    match Arguments(e, s, action, false)
    case Ended(t) => t
    case Got(selector, value) =>
      match Select(e, s, selector)
      case Crashed => Step(s, Threw(ReadingReplace))
      case NotFound(s1) => Step(s1, Normal)
      case Found(n) =>
        var shown := if e.v == SpaCheck then Show(value) else if Truthy(value) then value.value else "";
        var text := if e.v == SpaCheck && !append then (if value.Some? then value.value else "") else shown;
        var page := EditNode(s.page, n.id, SetText(Written(n.text, text, append)));
        var note :=
          if append then "Appended '" + shown + "' to " + selector.value
          else "Wrote '" + shown + "' over " + selector.value;
        assert page == EditNode(s.page, n.id, SetText(Written(n.text, text, append)));
        Step(Noted(s.(page := page), note), Normal)
  }

  /** `write` replaces the selected element's text with the data, and its
      note quotes the data. */
  lemma WriteWithData(e: Env, s: Session, sel: string, data: string)
    requires e.v != SpaCheck && e.c.separator == Space
    requires |sel| > 0 && forall k :: 0 <= k < |sel| ==> !IsWhitespace(sel[k])
    requires Query(s.page.doc, Css(sel)).Some?
    ensures var t := Write(e, s, "write " + sel + " " + data, false);
      var n := Query(s.page.doc, Css(sel)).value;
      && t.how.Normal?
      && t.s.page == EditNode(s.page, n.id, SetText(data))
      && t.s.run.log == s.run.log + [Note("Wrote '" + data + "' over " + Css(sel))]
  {
    assert "write " + sel + " " + data == "write" + " " + sel + " " + data;
    ArgSplitWithData("write", sel, data);
    CssIdempotent(sel);
  }

  /** A `fill`, `write` or `append` without data under the default separator
      records the malformed action and then throws while translating the
      missing locator. */
  lemma ShortDataActionThrows(e: Env, s: Session, w: string, sel: string)
    requires e.c.separator == Space && ' ' !in w && ' ' !in sel
    ensures var a := w + " " + sel;
      var f := Failure(FailText(MalformedMessage(e.v, a), Some(a), e.c.continueOnFailure));
      && Fill(e, s, a) == Step(Failed(e, s, MalformedMessage(e.v, a), Some(a)), Threw(ReadingReplace))
      && Fill(e, s, a).s.run.log == s.run.log + [f]
      && Write(e, s, a, false) == Fill(e, s, a)
      && Write(e, s, a, true) == Fill(e, s, a)
  {
    var a := w + " " + sel;
    OnlySpace(w, sel);
    assert forall q :: !DataMatchAt(a, q);
  }

  /** The one space of `w + " " + sel` is the one between them. */
  lemma OnlySpace(w: string, sel: string)
    requires ' ' !in w && ' ' !in sel
    ensures forall k :: 0 <= k < |w + " " + sel| && (w + " " + sel)[k] == ' ' ==> k == |w|
  {
    var a := w + " " + sel;
    assert forall k :: 0 <= k < |w| ==> a[k] == w[k];
    assert forall k :: |w| < k < |a| ==> a[k] == sel[k - |w| - 1];
  }

  /*****************************************************************************
   * log, comment, wait
   *****************************************************************************/

  /** A later moment keeps every entry already logged. */
  lemma ExtendsKeepsEntry(r: Run, r': Run, i: nat)
    requires Extends(r, r') && i < |r.log|
    ensures |r'.log| > i && r'.log[i] == r.log[i]
  {
    assert r'.log[..|r.log|][i] == r'.log[i];
  }

  /** In tutorial mode a tooltip stays until its Next button is clicked:
      `nextButtonPressed` is cleared first, then the run waits for it. */
  function AwaitNext(e: Env, s: Session, r: Run, waiting: seq<Event>): (t: Step)
    requires Later(e.c.continueOnFailure, s.run, r)
    requires e.c.continueOnFailure ==> r.st.continueActions == s.run.st.continueActions
    ensures Follows(e, s, t, waiting)
    ensures t.how.Normal? ==> t.s.page == s.page && Extends(r, t.s.run)
    ensures t.how.Normal? && Quiet(waiting) ==> t.s.run.log == r.log
    ensures t.how.Hangs? ==> Wait(e.c, r.(st := r.st.(nextButtonPressed := false)), waiting, UntilNext).Stuck?
  {
    var r1 := r.(st := r.st.(nextButtonPressed := false));
    assert Later(e.c.continueOnFailure, r, r1);
    match PauseBetweenNextButtons(e.c, r1, waiting)
    case Stuck => Step(s, Hangs)
    case Released(r2, _) =>
      LaterTrans(e.c.continueOnFailure, s.run, r, r1);
      LaterTrans(e.c.continueOnFailure, s.run, r1, r2);
      ExtendsTrans(r, r1, r2);
      Step(s.(run := r2), Normal)
  }

  /** `log`: the newer engines take the second piece of a custom separator or
      everything after the first space; `spaCheck` always the latter. */
  function LogValue(e: Env, action: string): (r: MaybeString)
    ensures e.v == SpaCheck || e.c.separator == Space ==> (r.Some? <==> ' ' in action)
    ensures (e.v == SpaCheck || e.c.separator == Space) && r.Some? ==>
      exists w :: ' ' !in w && w + " " + r.value == action
  {
    At(if e.v != SpaCheck && e.c.separator != Space then Split(action, e.c.separator) else RestSplit(action), 1)
  }

  function LogAction(e: Env, s: Session, action: string, waiting: seq<Event>): (t: Step)
    ensures Follows(e, s, t, waiting)
    ensures t.how.Normal? ==> t.s.page == s.page
    ensures t.how.Normal? ==>
      && |t.s.run.log| > |s.run.log|
      && t.s.run.log[|s.run.log|] == (if LogValue(e, action).Some? then Note(LogValue(e, action).value) else Blank)
    ensures !(e.v != SpaCheck && e.c.Tutorial()) ==>
      t.how.Normal? && t.s.run.log == s.run.log + [t.s.run.log[|s.run.log|]]
  {
    var value := LogValue(e, action);
    if e.v != SpaCheck && e.c.Tutorial() then LogAndAwaitNext(e, s, value, waiting)
    else Step(s.(run := Push(s.run, value)), Normal)
  }

  /** `log` in tutorial mode: the value is logged, then the run waits for
      Next. */
  function LogAndAwaitNext(e: Env, s: Session, value: MaybeString, waiting: seq<Event>): (t: Step)
    ensures Follows(e, s, t, waiting)
    ensures t.how.Normal? ==>
      && t.s.page == s.page && |t.s.run.log| > |s.run.log|
      && t.s.run.log[|s.run.log|] == (if value.Some? then Note(value.value) else Blank)
  {
    var r0 := s.run.(st := s.run.st.(nextButtonPressed := false));
    var r := Push(r0, value);
    assert Later(e.c.continueOnFailure, s.run, r0);
    LaterTrans(e.c.continueOnFailure, s.run, r0, r);
    var t := AwaitNext(e, s, r, waiting);
    if t.how.Normal? then
      ExtendsKeepsEntry(r, t.s.run, |s.run.log|);
      t
    else t
  }

  /** With the default separator the logged text is the verbatim rest of the
      action after the verb, spaces and `>>` included. */
  lemma LogKeepsText(e: Env, s: Session, w: string, text: string)
    requires e.c.separator == Space && !e.c.Tutorial() && ' ' !in w
    ensures LogAction(e, s, w + " " + text, []).s.run.log == s.run.log + [Note(text)]
  {
    RestSplitOfWord(w, text);
  }

  /** `com` in the newer engines: shows the data as a tooltip on the selected
      element and, in tutorial mode, waits for Next. It writes nothing to the
      log unless it fails. */
  function Comment(e: Env, s: Session, action: string, waiting: seq<Event>): (t: Step)
    ensures Follows(e, s, t, waiting)
    ensures t.s.page == s.page
  {
    match Arguments(e, s, action, true)
    case Ended(t) => t
    case Got(selector, value) =>
      if !Truthy(value) then
        Step(Failed(e, s, "Value was not provided for comment action '" + action + "'", None), Normal)
      else
        match Select(e, s, selector)
        case Crashed => Step(s, Threw(ReadingReplace))
        case NotFound(s1) => Step(s1, Normal)
        case Found(_) =>
          if e.c.Tutorial() then AwaitNext(e, s, s.run, waiting)
          else Step(s, Normal)
  }

  /** A comment on an element that exists adds no entry to the log. */
  lemma CommentAddsNoEntry(e: Env, s: Session, action: string, waiting: seq<Event>, sel: string, text: string)
    requires Arguments(e, s, action, true) == Got(Some(sel), Some(text)) && |text| > 0
    requires Query(s.page.doc, Css(sel)).Some?
    requires Quiet(waiting)
    ensures var t := Comment(e, s, action, waiting);
      t.how.Normal? ==> t.s.run.log == s.run.log
    ensures !e.c.Tutorial() ==> Comment(e, s, action, waiting) == Step(s, Normal)
  {
  }

  /** `wai`: notes the wait. The newer engines sleep in slices and never wake
      when a positive duration meets a zero delay. */
  function WaitAction(e: Env, s: Session, action: string): (t: Step)
    ensures Follows(e, s, t, [])
    ensures t.s.page == s.page
    ensures t.s.run.log == s.run.log + [Note("Waiting " + e.num.seconds(At(Split(action, e.c.separator), 1)) + " second(s)")]
    ensures var ms := e.num.number(At(Split(action, e.c.separator), 1));
      t.how.Hangs? <==>
        && e.v != SpaCheck
        && ((ms.Num? && e.c.globalDelay == 0 && ms.r > 0.0) || (ms.PosInf? && e.c.globalDelay >= 0))
  {
    var value := At(Split(action, e.c.separator), 1);
    var s1 := Noted(s, "Waiting " + e.num.seconds(value) + " second(s)");
    SleepNeverEndsCases(e.num.number(value), e.c.globalDelay);
    if e.v != SpaCheck && SleepNeverEnds(e.num.number(value), e.c.globalDelay) then Step(s1, Hangs)
    else Step(s1, Normal)
  }

  /*****************************************************************************
   * await
   *****************************************************************************/

  /** What one poll of `awa` looks for: an element whose `textContent`
      contains the text, or any element. */
  datatype Probe = TextIn(css: string, text: string) | Element(css: string)

  predicate Hit(d: Document, p: Probe)
  {
    match p
    case TextIn(css, text) =>
      var ns := QueryAll(d, css);
      exists i :: 0 <= i < |ns| && TextContentIncludes(ns[i], text)
    case Element(css) => Query(d, css).Some?
  }

  /** How a bounded polling loop ends: whether it broke out, and the page it
      left behind. */
  datatype Polled = Polled(broke: bool, page: Page)

  /** At most `n` polls, the page moving on between two polls; the loop
      breaks when the probe's answer differs from `negated`. */
  function PollFinite(p: Page, probe: Probe, negated: bool, n: nat): (r: Polled)
    ensures r.broke ==> Hit(r.page.doc, probe) != negated
    ensures !r.broke && n > 0 ==> Hit(p.doc, probe) == negated
    ensures n == 0 ==> r == Polled(false, p)
    decreases n
  {
    if n == 0 then Polled(false, p)
    else if Hit(p.doc, probe) != negated then Polled(true, p)
    else PollFinite(Advance(p), probe, negated, n - 1)
  }

  /** How many page states a bounded loop examines and finds unchanged before
      it stops: all `n`, or fewer when one answers differently. */
  function PollCount(p: Page, probe: Probe, negated: bool, n: nat): (k: nat)
    ensures k <= n
    ensures forall j :: 0 <= j < k ==> Hit(After(p, j).doc, probe) == negated
    ensures k < n ==> Hit(After(p, k).doc, probe) != negated
    decreases n
  {
    if n == 0 || Hit(p.doc, probe) != negated then 0
    else
      var k := PollCount(Advance(p), probe, negated, n - 1);
      AfterStep(p, k + 1);
      k + 1
  }

  /** One poll delay, then `k - 1` more, is `k` poll delays. */
  lemma AfterStep(p: Page, n: nat)
    ensures forall k :: 0 < k <= n ==> After(p, k) == After(Advance(p), k - 1)
  {
  }

  /** The bounded loop leaves the page at the state it stopped on, and it
      broke exactly when it stopped before the bound. */
  lemma {:induction false} PollFiniteStopsAt(p: Page, probe: Probe, negated: bool, n: nat)
    ensures var r, k := PollFinite(p, probe, negated, n), PollCount(p, probe, negated, n);
      r.page == After(p, k) && (r.broke <==> k < n)
    decreases n
  {
    if n > 0 && Hit(p.doc, probe) == negated {
      var k := PollCount(Advance(p), probe, negated, n - 1);
      PollFiniteStopsAt(Advance(p), probe, negated, n - 1);
      assert PollCount(p, probe, negated, n) == k + 1;
      assert PollFinite(p, probe, negated, n) == PollFinite(Advance(p), probe, negated, n - 1);
      AfterStep(p, k + 1);
    }
  }

  /** The bounded loop breaks exactly when one of the first `n` page states
      answers differently from `negated`, and then stops at the first such
      state. */
  lemma PollFiniteFirstHit(p: Page, probe: Probe, negated: bool, n: nat)
    ensures PollFinite(p, probe, negated, n).broke <==> exists k :: 0 <= k < n && Hit(After(p, k).doc, probe) != negated
  {
    PollFiniteStopsAt(p, probe, negated, n);
  }

  /** The loop without a bound: it breaks once the answer changes, and never
      ends when the page has stopped changing without that happening. */
  function PollForever(p: Page, probe: Probe, negated: bool): (r: Option<Page>)
    ensures r.Some? ==> Hit(r.value.doc, probe) != negated
    ensures r.None? ==> Hit(p.doc, probe) == negated
    ensures |p.later| == 0 ==> (r.None? <==> Hit(p.doc, probe) == negated)
    decreases |p.later|
  {
    if Hit(p.doc, probe) != negated then Some(p)
    else if |p.later| == 0 then None
    else PollForever(Advance(p), probe, negated)
  }

  function Poll(p: Page, probe: Probe, negated: bool, limit: Limit): (r: Option<Polled>)
    ensures r.Some? && r.value.broke ==> Hit(r.value.page.doc, probe) != negated
    ensures r.None? <==> limit.Unbounded? && PollForever(p, probe, negated).None?
  {
    match limit
    case Finite(n) => Some(PollFinite(p, probe, negated, n))
    case Unbounded =>
      match PollForever(p, probe, negated)
      case None => None
      case Some(q) => Some(Polled(true, q))
  }

  /** The lookup each poll makes. The newer engines translate `>>` in the
      locator (once more at the lookup); `spaCheck`'s text poll calls
      `replace(/>>/g)` without a replacement, which writes `undefined`. */
  function AwaitProbe(v: Variant, sel: string, value: MaybeString): (p: Probe)
    ensures p.Element? <==> !Truthy(value)
    ensures p.TextIn? ==> p.text == value.value
    ensures !HasChevrons(p.css)
    ensures v != SpaCheck || !Truthy(value) || !HasChevrons(sel) ==> p.css == Css(sel)
  {
    CssHasNoChevrons(sel);
    if !Truthy(value) then Element(Css(sel))
    else if v == SpaCheck then
      CssHasNoChevrons(ReplaceChevrons(sel, "undefined"));
      assert !HasChevrons(sel) ==> Css(ReplaceChevrons(sel, "undefined")) == Css(sel) by {
        if !HasChevrons(sel) { ReplaceWithoutChevrons(sel, "undefined"); }
      }
      TextIn(Css(ReplaceChevrons(sel, "undefined")), value.value)
    else
      CssIdempotent(sel);
      TextIn(Css(Css(sel)), value.value)
  }

  /** The four outcomes of an await. */
  function AwaitVerdict(e: Env, s: Session, found: bool, negated: bool, target: string): (t: Session)
    ensures Later(e.c.continueOnFailure, s.run, t.run) && t.page == s.page
    ensures e.c.continueOnFailure ==> t.run.st.continueActions == s.run.st.continueActions
    ensures |t.run.log| == |s.run.log| + 1
    ensures t.run.log[|s.run.log|].Failure? <==> found == negated
    ensures found && !negated ==> t.run.log[|s.run.log|] == Note("...Found " + target)
    ensures !found && !negated ==>
      t.run.log[|s.run.log|] == Failure(FailText("Timed out after " + SecondsText(e.c.awaitTimeout) + " second(s) awaiting", Some(target), e.c.continueOnFailure))
    ensures found && negated ==>
      t.run.log[|s.run.log|] == Failure(FailText("...Timed out awaiting " + target + " to not exist", None, e.c.continueOnFailure))
    ensures !found && negated ==> t.run.log[|s.run.log|] == Note("..." + target + " disappeared")
  {
    if found && !negated then Noted(s, "...Found " + target)
    else if !found && !negated then
      Failed(e, s, "Timed out after " + SecondsText(e.c.awaitTimeout) + " second(s) awaiting", Some(target))
    else if found && negated then Failed(e, s, "...Timed out awaiting " + target + " to not exist", None)
    else Noted(s, "..." + target + " disappeared")
  }

  /** The element the closing tooltip of a successful await points at: the
      element itself, or what the clickable-text search finds below the first
      element whose `textContent` holds the text, which may be nothing. */
  function AwaitPinned(d: Document, probe: Probe): (r: Option<Node>)
    ensures probe.Element? ==> r == Query(d, probe.css)
    ensures probe.TextIn? && r.Some? ==> Clickable(r.value) && ContainsText(r.value, probe.text)
    ensures probe.TextIn? && r.Some? ==> Hit(d, probe)
  {
    match probe
    case Element(css) => Query(d, css)
    case TextIn(css, text) =>
      match FirstHolding(QueryAll(d, css), text, true)
      case None => None
      case Some(n) =>
        SearchNodeSpec(n, text);
        SearchNode(n, text)
  }

  /** How many polls an await makes: twice the timeout over the delay in the
      newer engines, which sleep half a delay between polls; the timeout over
      the delay in `spaCheck`, which sleeps a whole one. */
  function AwaitLimit(e: Env): (l: Limit)
    ensures l.Unbounded? <==> e.c.globalDelay == 0 && e.c.awaitTimeout > 0
    ensures l.Finite? ==> forall i: nat :: i < l.n <==> BelowQuotient(i, AwaitSpan(e), e.c.globalDelay)
  {
    IterationCount(AwaitSpan(e), e.c.globalDelay)
  }

  /** The numerator of the poll count: the timeout, doubled in the newer
      engines. */
  function AwaitSpan(e: Env): int
  {
    if e.v == SpaCheck then e.c.awaitTimeout else 2 * e.c.awaitTimeout
  }

  /** `awa`: notes the wait, polls, then reports. `found` survives the loop
      only when a non-negated await broke out of it. */
  function AwaitAction(e: Env, s: Session, action: string): (t: Step)
    ensures Follows(e, s, t, [])
    ensures t.how.Normal? ==> |t.s.run.log| == |s.run.log| + 2
    ensures t.how == Threw(ReadingRect) ==> ShowsTooltips(e) && |t.s.run.log| == |s.run.log| + 1
  {
    match Arguments(e, s, action, true)
    case Ended(t) => t
    case Got(selector, value) =>
      if e.v == SpaCheck && selector.None? then Step(s, Threw(ReadingZero))
      else
        var spaNegated := e.v == SpaCheck && |selector.value| > 0 && selector.value[0] == '!';
        var negated := if e.v == SpaCheck then spaNegated else Negated(action);
        var sel: MaybeString := if spaNegated then Some(selector.value[1..]) else selector;
        var target := TargetText(sel, value);
        var s1 := Noted(s, "Awaiting " + target + "...");
        var t := AwaitPoll(e, s1, sel, value, negated, target);
        FollowsNote(e, s, s1, t);
        t
  }

  /** An action that noted something and then moved on from there follows
      from where it began. */
  lemma FollowsNote(e: Env, s: Session, s1: Session, t: Step)
    requires s1.run.st == s.run.st && Later(e.c.continueOnFailure, s.run, s1.run)
    requires t.how.Hangs? || Later(e.c.continueOnFailure, s1.run, t.s.run)
    requires !t.how.Hangs? && e.c.continueOnFailure ==> t.s.run.st.continueActions == s1.run.st.continueActions
    ensures Follows(e, s, t, [])
  {
    if !t.how.Hangs? {
      LaterTrans(e.c.continueOnFailure, s.run, s1.run, t.s.run);
    }
  }

  /** An await after its "Awaiting" note: an `undefined` locator throws unless
      no poll is due; otherwise poll, then end. */
  function AwaitPoll(e: Env, s1: Session, sel: MaybeString, value: MaybeString, negated: bool, target: string): (t: Step)
    ensures t.how.Hangs? || Later(e.c.continueOnFailure, s1.run, t.s.run)
    ensures !t.how.Hangs? && e.c.continueOnFailure ==> t.s.run.st.continueActions == s1.run.st.continueActions
    ensures t.how.Normal? ==> |t.s.run.log| == |s1.run.log| + 1
    ensures t.how == Threw(ReadingRect) ==> ShowsTooltips(e) && t.s.run == s1.run
  {
    var limit := AwaitLimit(e);
    if sel.None? && limit != Finite(0) then Step(s1, Threw(ReadingReplace))
    else
      var polled :=
        if sel.None? then Some(Polled(false, s1.page))
        else Poll(s1.page, AwaitProbe(e.v, sel.value, value), negated, limit);
      if polled.None? then Step(s1, Hangs)
      else AwaitEnd(e, s1, sel, value, negated, target, polled.value)
  }

  /** What an await does once polling is over: point the closing tooltip,
      which throws when a text match has nothing clickable below it, then
      report the verdict on the polled page. */
  function AwaitEnd(e: Env, s1: Session, sel: MaybeString, value: MaybeString, negated: bool,
                    target: string, polled: Polled): (t: Step)
    ensures t.s.page == polled.page
    ensures t.how.Normal? || t.how == Threw(ReadingRect)
    ensures t.how.Normal? ==> t.s == AwaitVerdict(e, s1.(page := polled.page), !negated && polled.broke, negated, target)
    ensures t.how == Threw(ReadingRect) <==>
      && sel.Some? && !negated && polled.broke && ShowsTooltips(e)
      && AwaitPinned(polled.page.doc, AwaitProbe(e.v, sel.value, value)).None?
    ensures t.how == Threw(ReadingRect) ==> t.s.run == s1.run
  {
    var found := !negated && polled.broke;
    if sel.Some? && found && ShowsTooltips(e)
      && AwaitPinned(polled.page.doc, AwaitProbe(e.v, sel.value, value)).None?
    then
      Step(s1.(page := polled.page), Threw(ReadingRect))
    else
      Step(AwaitVerdict(e, s1.(page := polled.page), found, negated, target), Normal)
  }

  /** A non-negated await with a finite poll count records that it found its
      target exactly when one of the page states it polls has it, and leaves
      the page at the state where it stopped. It can only throw when it must
      point a tooltip at a text match with nothing clickable below it. */
  lemma AwaitFoundIffSomePollHits(e: Env, s: Session, action: string, sel: string, value: MaybeString, n: nat)
    requires Arguments(e, s, action, true) == Got(Some(sel), value)
    requires if e.v == SpaCheck then |sel| == 0 || sel[0] != '!' else !Negated(action)
    requires AwaitLimit(e) == Finite(n)
    ensures var t := AwaitAction(e, s, action);
      var probe := AwaitProbe(e.v, sel, value);
      && (t.how.Normal? || (t.how == Threw(ReadingRect) && ShowsTooltips(e) && probe.TextIn?))
      && t.s.page == After(s.page, PollCount(s.page, probe, false, n))
      && (t.how.Normal? ==>
           (t.s.run.log[|s.run.log| + 1] == Note("...Found " + TargetText(Some(sel), value)) <==>
              exists k :: 0 <= k < n && Hit(After(s.page, k).doc, probe)))
  {
    var probe := AwaitProbe(e.v, sel, value);
    PollFiniteStopsAt(s.page, probe, false, n);
    PollFiniteFirstHit(s.page, probe, false, n);
  }

  /** A text await that finds its text at once in an element with nothing
      clickable in it logs the find when no tooltip is shown, and otherwise
      throws while pointing the tooltip at the missing clickable element. */
  lemma AwaitTextWithoutClickable(e: Env, s: Session, action: string, sel: string, text: string, n: Node)
    requires Arguments(e, s, action, true) == Got(Some(sel), Some(text)) && |text| > 0
    requires if e.v == SpaCheck then |sel| == 0 || sel[0] != '!' else !Negated(action)
    requires AwaitLimit(e) != Finite(0)
    requires QueryAll(s.page.doc, AwaitProbe(e.v, sel, Some(text)).css) == [n]
    requires TextContentIncludes(n, text) && !Clickable(n) && n.children == []
    ensures ShowsTooltips(e) ==> AwaitAction(e, s, action).how == Threw(ReadingRect)
    ensures !ShowsTooltips(e) ==>
      AwaitAction(e, s, action).s.run.log == s.run.log + [
        Note("Awaiting " + TargetText(Some(sel), Some(text)) + "..."),
        Note("...Found " + TargetText(Some(sel), Some(text)))]
  {
    var probe := AwaitProbe(e.v, sel, Some(text));
    assert Hit(s.page.doc, probe) by {
      assert TextContentIncludes(QueryAll(s.page.doc, probe.css)[0], text);
    }
    assert SearchKids(n, 0, text) == None;
    assert FirstHolding([n], text, true) == Some(n);
    assert AwaitPinned(s.page.doc, probe) == None;
  }

  /** The timeout branch of a negated await is unreachable: whenever the loop
      runs to its end `found` has just been reset, so a negated await that
      ends reports that its target disappeared, whatever the page shows. */
  lemma NegatedAwaitNeverTimesOut(e: Env, s: Session, action: string, sel: string, value: MaybeString)
    requires Arguments(e, s, action, true) == Got(Some(sel), value)
    requires if e.v == SpaCheck then |sel| > 0 && sel[0] == '!' else Negated(action)
    ensures var t := AwaitAction(e, s, action);
      var target := TargetText(Some(if e.v == SpaCheck then sel[1..] else sel), value);
      t.how.Normal? ==> t.s.run.log == s.run.log + [Note("Awaiting " + target + "..."), Note("..." + target + " disappeared")]
  {
  }

  /** With a custom separator `spaCheck`'s text await looks for a different
      selector than its other lookups; under the default separator the
      locator has no `>>` left and both agree. */
  lemma SpaTextAwaitSelector(sel: string, text: string)
    requires |text| > 0
    ensures AwaitProbe(SpaCheck, "a>>b", Some(text)) == TextIn("aundefinedb", text)
    ensures AwaitProbe(UserRoutine, "a>>b", Some(text)) == TextIn("a b", text)
    ensures AwaitProbe(SpaCheck, Css(sel), Some(text)) == AwaitProbe(UserRoutine, Css(sel), Some(text))
  {
    ChevronsToUndefined();
    ChevronsToSpace();
    CssHasNoChevrons(sel);
    ReplaceWithoutChevrons(Css(sel), "undefined");
    CssIdempotent(sel);
    CssHasNoChevrons(Css(sel));
    ReplaceWithoutChevrons(Css(Css(sel)), " ");
  }

  lemma ChevronsToUndefined()
    ensures Css(ReplaceChevrons("a>>b", "undefined")) == "aundefinedb"
  {
    var u := "undefined";
    var r := ReplaceChevrons("a>>b", u);
    assert "a>>b"[1..] == ">>b" && ">>b"[2..] == "b";
    assert ReplaceChevrons("b", u) == "b";
    assert r == "a" + u + "b";
    assert r == "aundefinedb";
    assert '>' !in r;
    ReplaceWithoutGreater(r, " ");
  }

  lemma ChevronsToSpace()
    ensures Css(Css("a>>b")) == "a b"
  {
    assert ReplaceChevrons(">>b", " ") == " " + ReplaceChevrons("b", " ");
    assert '>' !in "a b";
    ReplaceWithoutGreater("a b", " ");
  }

  /** The polling loop as the source writes it: `found` is set by each poll,
      the loop breaks when it differs from `negated`, and is reset before the
      page moves on. */
  method AwaitLoop(p: Page, probe: Probe, negated: bool, n: nat) returns (found: bool, q: Page)
    ensures found == (!negated && PollFinite(p, probe, negated, n).broke)
    ensures q == PollFinite(p, probe, negated, n).page
    ensures !(found && negated)
  {
    found := false;
    q := p;
    var i := 0;
    while i < n
      invariant 0 <= i <= n
      invariant !found
      invariant PollFinite(p, probe, negated, n) == PollFinite(q, probe, negated, n - i)
    {
      found := Hit(q.doc, probe);
      if found && !negated {
        return;
      }
      if !found && negated {
        return;
      }
      found := false;
      q := Advance(q);
      i := i + 1;
    }
  }

  /*****************************************************************************
   * Dispatch
   *****************************************************************************/

  /** `doActionString`: dispatch on the verb code; the empty action does
      nothing and anything else is an unknown keyword. */
  function ActString(e: Env, s: Session, action: string, waiting: seq<Event>): (t: Step)
    ensures Follows(e, s, t, waiting)
  {
    var code := VerbCode(e.v, action);
    if code == "nav" then Navigate(e, s, action)
    else if code == "cli" then ClickAction(e, s, action)
    else if code == "exi" then (if e.v == SpaCheck then SpaExists(e, s, action) else Exists(e, s, action))
    else if code == "fil" && e.v != SpaCheck then Fill(e, s, action)
    else if code == "val" then (if e.v == SpaCheck then Fill(e, s, action) else CheckValue(e, s, action))
    else if code == "wri" || code == "app" then Write(e, s, action, code == "app")
    else if code == "log" then LogAction(e, s, action, waiting)
    else if code == "com" && e.v != SpaCheck then Comment(e, s, action, waiting)
    else if code == "wai" then WaitAction(e, s, action)
    else if code == "awa" then AwaitAction(e, s, action)
    else if action == "" then Step(s, Normal)
    else Step(Failed(e, s, "Action string keyword not recognized, got", Some(action)), Normal)
  }

  /** `doAction`: strings are dispatched, functions are called, and any other
      value is refused. */
  function Perform(e: Env, s: Session, a: Action, waiting: seq<Event>): (t: Step)
    ensures Follows(e, s, t, waiting)
    ensures a.Callback? ==> t.how.Normal? && t.s.page == s.page && |t.s.run.log| == |s.run.log| + 1
    ensures a.Callback? ==> (t.s.run.log[|s.run.log|].Failure? <==> a.result.Throws?)
    ensures a.Other? ==>
      t == Step(Failed(e, s, "Action is not of type string or function, got", Some(a.typeName)), Normal)
  {
    match a
    case Command(text) => ActString(e, s, text, waiting)
    case Callback(source, Returns) => Step(Noted(s, "Ran provided function"), Normal)
    case Callback(source, Throws(error)) =>
      Step(Failed(e, s, "Error running provided function", Some(error + "; function: " + source)), Normal)
    case Other(typeName) =>
      Step(Failed(e, s, "Action is not of type string or function, got", Some(typeName)), Normal)
  }

  /** In `spaCheck` a `val` action is the setter. */
  lemma SpaValDispatch(e: Env, s: Session, rest: string)
    requires e.v == SpaCheck
    ensures ActString(e, s, "val" + rest, []) == Fill(e, s, "val" + rest)
  {
    assert Prefix3("val" + rest) == "val" by {
      assert ("val" + rest)[..3] == "val";
    }
  }

  /** `spaCheck` has no `fill` and no `comment`: those actions are unknown
      keywords there. */
  lemma SpaLacksFillAndComment(e: Env, s: Session, verb: string, rest: string)
    requires e.v == SpaCheck && (verb == "fil" || verb == "com")
    ensures ActString(e, s, verb + rest, []).s.run.log ==
      s.run.log + [Failure(FailText("Action string keyword not recognized, got", Some(verb + rest), e.c.continueOnFailure))]
  {
    assert Prefix3(verb + rest) == verb by {
      assert (verb + rest)[..3] == verb;
    }
  }
}

=== FILE: control.dfy ===
/*******************************************************************************
 *  The run's flags and log: recording failures, the play / pause / stop /
 *  next controls, the two waiting loops and the sliced sleep.
 *******************************************************************************/
module Control {
  import opened JsString
  import opened Settings

  /** The `state` object of a run. */
  datatype RunState = RunState(
    paused: bool,
    errorOccurred: bool,
    continueActions: bool,
    keyDownSet: bool,
    nextButtonPressed: bool)

  const Initial := RunState(false, false, true, false, false)

  /** One element of the returned `log`: a progress note, the `undefined` a
      message-less `log` action pushes, or a failure. */
  datatype Entry = Note(text: string) | Blank | Failure(text: string)

  predicate HasFailure(log: seq<Entry>)
  {
    exists i :: 0 <= i < |log| && log[i].Failure?
  }

  /** The mutable part of a run besides the page: its flags and its log. */
  datatype Run = Run(st: RunState, log: seq<Entry>)

  /** Flags and log agree: an error has occurred exactly when the log holds a
      failure. */
  predicate Consistent(r: Run)
  {
    r.st.errorOccurred <==> HasFailure(r.log)
  }

  /** `r'` is a later moment of the run `r`: the log only grew, an error is
      never forgotten and a halted run never resumes. */
  predicate Extends(r: Run, r': Run)
  {
    && |r.log| <= |r'.log| && r'.log[..|r.log|] == r.log
    && (r.st.errorOccurred ==> r'.st.errorOccurred)
    && (!r.st.continueActions ==> !r'.st.continueActions)
  }

  lemma ExtendsTrans(a: Run, b: Run, c: Run)
    requires Extends(a, b) && Extends(b, c)
    ensures Extends(a, c)
  {
    assert c.log[..|a.log|] == c.log[..|b.log|][..|a.log|];
  }

  /** Every failure recorded so far says that the run halts. */
  predicate AllHalt(log: seq<Entry>)
  {
    forall i :: 0 <= i < |log| && log[i].Failure? ==> EndsWith(log[i].text, Halting)
  }

  /** `b` is a later moment of `a` that keeps the run's invariants: flags and
      log agree, and, when failures are not continued past, every failure
      halts. */
  predicate Later(continueOnFailure: bool, a: Run, b: Run)
  {
    && Extends(a, b)
    && (Consistent(a) ==> Consistent(b))
    && (!continueOnFailure && AllHalt(a.log) ==> AllHalt(b.log))
  }

  lemma LaterTrans(continueOnFailure: bool, a: Run, b: Run, c: Run)
    requires Later(continueOnFailure, a, b) && Later(continueOnFailure, b, c)
    ensures Later(continueOnFailure, a, c)
  {
    ExtendsTrans(a, b, c);
  }

  lemma AllHaltAppend(log: seq<Entry>, more: seq<Entry>)
    ensures AllHalt(log + more) <==> AllHalt(log) && AllHalt(more)
  {
    if AllHalt(log) && AllHalt(more) {
      forall i | 0 <= i < |log + more| && (log + more)[i].Failure?
        ensures EndsWith((log + more)[i].text, Halting)
      {
        if i >= |log| {
          assert (log + more)[i] == more[i - |log|];
        }
      }
    }
    if AllHalt(log + more) {
      forall i | 0 <= i < |more| && more[i].Failure?
        ensures EndsWith(more[i].text, Halting)
      {
        assert (log + more)[|log| + i] == more[i];
      }
      forall i | 0 <= i < |log| && log[i].Failure?
        ensures EndsWith(log[i].text, Halting)
      {
        assert (log + more)[i] == log[i];
      }
    }
  }

  lemma HasFailureAppend(log: seq<Entry>, more: seq<Entry>)
    ensures HasFailure(log + more) <==> HasFailure(log) || HasFailure(more)
  {
    if HasFailure(log + more) {
      var i :| 0 <= i < |log + more| && (log + more)[i].Failure?;
      if i >= |log| {
        assert more[i - |log|].Failure?;
      }
    }
    if HasFailure(more) {
      var i :| 0 <= i < |more| && more[i].Failure?;
      assert (log + more)[|log| + i].Failure?;
    }
    if HasFailure(log) {
      var i :| 0 <= i < |log| && log[i].Failure?;
      assert (log + more)[i].Failure?;
    }
  }

  /** `log(message)`: a note, and nothing else changes. */
  function Log(r: Run, message: string): (r': Run)
    ensures r'.st == r.st && r'.log == r.log + [Note(message)]
    ensures forall cof :: Later(cof, r, r')
  {
    HasFailureAppend(r.log, [Note(message)]);
    AllHaltAppend(r.log, [Note(message)]);
    r.(log := r.log + [Note(message)])
  }

  const Halting := ". Halting execution."
  const Continuing := ". Continuing execution."

  /** The text of a failure entry. */
  function FailText(message: string, value: MaybeString, continueOnFailure: bool): string
  {
    "FAIL: " + message
    + (if Truthy(value) then ": '" + value.value + "'" else "")
    + (if continueOnFailure then Continuing else Halting)
  }

  /** `raiseError`: marks the error, appends exactly one failure, and halts
      the run unless failures are to be continued past. */
  function RaiseError(r: Run, message: string, value: MaybeString, continueOnFailure: bool): (r': Run)
    ensures r'.st.errorOccurred
    ensures r'.st.continueActions == (r.st.continueActions && continueOnFailure)
    ensures r'.st.paused == r.st.paused && r'.st.keyDownSet == r.st.keyDownSet
    ensures r'.st.nextButtonPressed == r.st.nextButtonPressed
    ensures r'.log == r.log + [Failure(FailText(message, value, continueOnFailure))]
    ensures Consistent(r')
    ensures Later(continueOnFailure, r, r')
  {
    var f := Failure(FailText(message, value, continueOnFailure));
    HasFailureAppend(r.log, [f]);
    AllHaltAppend(r.log, [f]);
    FailTextShape(message, value, continueOnFailure);
    assert [f][0].Failure?;
    assert (r.log + [f])[..|r.log|] == r.log;
    Run(r.st.(errorOccurred := true, continueActions := r.st.continueActions && continueOnFailure),
        r.log + [f])
  }

  /** A failure text starts with `FAIL: ` and the message, carries the value
      only when it is a non-empty string, and says "Halting" exactly when the
      run stops. */
  lemma FailTextShape(message: string, value: MaybeString, continueOnFailure: bool)
    ensures StartsWith(FailText(message, value, continueOnFailure), "FAIL: " + message)
    ensures EndsWith(FailText(message, value, continueOnFailure), Halting) <==> !continueOnFailure
    ensures EndsWith(FailText(message, value, continueOnFailure), Continuing) <==> continueOnFailure
    ensures FailText(message, value, continueOnFailure)
      == "FAIL: " + message + (if Truthy(value) then ": '" + value.value + "'" else "")
         + (if continueOnFailure then Continuing else Halting)
  {
    var head := "FAIL: " + message + (if Truthy(value) then ": '" + value.value + "'" else "");
    var t := FailText(message, value, continueOnFailure);
    assert t == head + (if continueOnFailure then Continuing else Halting);
    assert t[..|"FAIL: " + message|] == "FAIL: " + message;
    SuffixesExclusive(head);
  }

  /** No failure text both continues and halts. */
  lemma SuffixesExclusive(head: string)
    ensures EndsWith(head + Halting, Halting) && !EndsWith(head + Halting, Continuing)
    ensures EndsWith(head + Continuing, Continuing) && !EndsWith(head + Continuing, Halting)
  {
    var h := head + Halting;
    var c := head + Continuing;
    assert h[|h| - |Halting|..] == Halting;
    assert c[|c| - |Continuing|..] == Continuing;
    assert h[|h| - 20] == '.';
    assert c[|c| - 20] == Continuing[3];
  }

  /*****************************************************************************
   * Controls
   *****************************************************************************/

  /** What the person watching a run can do while time passes: click play,
      pause, stop (answering the confirmation), press a key (answering the
      confirmation Escape asks for), or click Next on a tutorial tooltip. */
  datatype Event =
    | PlayClick
    | PauseClick
    | StopClick(confirmed: bool)
    | KeyPress(key: string, confirmed: bool)
    | NextClick

  /** `interruptExecution`: halt, and record one failure that halts. */
  function Interrupt(r: Run, message: string): (r': Run)
    ensures !r'.st.continueActions && r'.st.errorOccurred
    ensures r'.log == r.log + [Failure("FAIL: " + message + Halting)]
    ensures Consistent(r') && forall cof :: Later(cof, r, r')
  {
    assert FailText(message, Some(""), false) == "FAIL: " + message + Halting;
    RaiseError(r.(st := r.st.(continueActions := false)), message, Some(""), false)
  }

  function StopMessage(source: string): string
  {
    "Stopped by user (" + source + ")"
  }

  /** A stop that is confirmed: the only events that halt a run. */
  predicate Stops(e: Event)
  {
    (e.StopClick? && e.confirmed) || (e.KeyPress? && e.key == "Escape" && e.confirmed)
  }

  predicate Quiet(evs: seq<Event>)
  {
    forall i :: 0 <= i < |evs| ==> !Stops(evs[i])
  }

  /** `stop(source)`: nothing happens unless the confirmation is accepted. */
  function Stop(r: Run, source: string, confirmed: bool): Run
  {
    if confirmed then Interrupt(r, StopMessage(source)) else r
  }

  /** The handlers a run installs. Play and pause exist only outside tutorial
      mode; keys work only once the run installed its key handler. */
  function Handle(c: Config, r: Run, e: Event): (r': Run)
    ensures forall cof :: Later(cof, r, r')
    ensures !Stops(e) ==> r'.st.continueActions == r.st.continueActions && r'.log == r.log
    ensures r'.st.keyDownSet == r.st.keyDownSet
  {
    match e
    case PlayClick => if c.Tutorial() then r else r.(st := r.st.(paused := false))
    case PauseClick => if c.Tutorial() then r else r.(st := r.st.(paused := true))
    case StopClick(ok) => Stop(r, "pause button", ok)
    case KeyPress(k, ok) =>
      if !r.st.keyDownSet then r
      else if k == "Escape" then Stop(r, "escape key", ok)
      else if k == " " then r.(st := r.st.(paused := !r.st.paused))
      else r
    case NextClick => r.(st := r.st.(nextButtonPressed := true))
  }

  function HandleAll(c: Config, r: Run, evs: seq<Event>): (r': Run)
    ensures forall cof :: Later(cof, r, r')
    ensures Quiet(evs) ==> r'.st.continueActions == r.st.continueActions && r'.log == r.log
    decreases |evs|
  {
    if |evs| == 0 then r
    else
      var r1 := Handle(c, r, evs[0]);
      var r2 := HandleAll(c, r1, evs[1..]);
      forall cof ensures Later(cof, r, r2) {
        LaterTrans(cof, r, r1, r2);
      }
      assert Quiet(evs) ==> !Stops(evs[0]) && Quiet(evs[1..]);
      r2
  }

  /** Play and pause set and clear `paused`, the space key toggles it, and a
      confirmed stop from the button or the Escape key halts the run with one
      failure. */
  lemma ControlsSpec(c: Config, r: Run)
    ensures !c.Tutorial() ==> Handle(c, r, PauseClick).st == r.st.(paused := true)
    ensures !c.Tutorial() ==> Handle(c, r, PlayClick).st == r.st.(paused := false)
    ensures r.st.keyDownSet ==> Handle(c, r, KeyPress(" ", true)).st == r.st.(paused := !r.st.paused)
    ensures !r.st.keyDownSet ==> forall k, ok :: Handle(c, r, KeyPress(k, ok)) == r
    ensures Handle(c, r, StopClick(true)).log == r.log + [Failure("FAIL: " + StopMessage("pause button") + Halting)]
    ensures !Handle(c, r, StopClick(true)).st.continueActions && Handle(c, r, StopClick(true)).st.errorOccurred
    ensures r.st.keyDownSet ==>
      Handle(c, r, KeyPress("Escape", true)).log == r.log + [Failure("FAIL: " + StopMessage("escape key") + Halting)]
    ensures Handle(c, r, StopClick(false)) == r
  {
  }

  /*****************************************************************************
   * Waiting
   *****************************************************************************/

  /** The two polling loops: `pauseIfNeeded` waits while the run is paused,
      `pauseBetweenNextButtons` until Next is clicked; both give up once the
      run is halted. */
  datatype Gate = WhilePaused | UntilNext

  predicate Blocked(g: Gate, st: RunState)
  {
    match g
    case WhilePaused => st.paused && st.continueActions
    case UntilNext => !st.nextButtonPressed && st.continueActions
  }

  /** How a wait ends: released, with the events it did not consume, or stuck
      for good because the events ran out while it was still blocked. */
  datatype Waited = Released(r: Run, rest: seq<Event>) | Stuck

  /** The loop polls once per half delay; each event arrives during one of
      those sleeps. */
  function Wait(c: Config, r: Run, evs: seq<Event>, g: Gate): (w: Waited)
    ensures w.Released? ==> !Blocked(g, w.r.st)
    ensures w.Released? ==> |w.rest| <= |evs| && w.rest == evs[|evs| - |w.rest|..]
    ensures w.Released? ==> forall cof :: Later(cof, r, w.r)
    ensures w.Released? && Quiet(evs) ==> w.r.st.continueActions == r.st.continueActions && w.r.log == r.log
    ensures w.Released? && Quiet(evs) ==> Quiet(w.rest)
    ensures !Blocked(g, r.st) ==> w == Released(r, evs)
    decreases |evs|
  {
    if !Blocked(g, r.st) then Released(r, evs)
    else if |evs| == 0 then Stuck
    else
      var r1 := Handle(c, r, evs[0]);
      var w := Wait(c, r1, evs[1..], g);
      if w.Released? then
        forall cof ensures Later(cof, r, w.r) {
          LaterTrans(cof, r, r1, w.r);
        }
        assert Quiet(evs) ==> !Stops(evs[0]) && Quiet(evs[1..]);
        w
      else w
  }

  /** A wait only gets stuck when it is still blocked after every event. */
  lemma {:induction false} WaitStuck(c: Config, r: Run, evs: seq<Event>, g: Gate)
    requires Wait(c, r, evs, g).Stuck?
    ensures Blocked(g, HandleAll(c, r, evs).st)
    decreases |evs|
  {
    if |evs| > 0 {
      WaitStuck(c, Handle(c, r, evs[0]), evs[1..], g);
    }
  }

  /** `pauseIfNeeded`: released only once the run is playing or halted. */
  function PauseIfNeeded(c: Config, r: Run, evs: seq<Event>): (w: Waited)
    ensures w.Released? ==> !w.r.st.paused || !w.r.st.continueActions
    ensures !r.st.paused || !r.st.continueActions ==> w == Released(r, evs)
    ensures w.Released? ==> forall cof :: Later(cof, r, w.r)
    ensures w.Released? && Quiet(evs) ==> w.r.st.continueActions == r.st.continueActions && w.r.log == r.log
    ensures w.Released? && Quiet(evs) ==> Quiet(w.rest)
  {
    Wait(c, r, evs, WhilePaused)
  }

  /** `pauseBetweenNextButtons`: released once Next was clicked or the run
      halted, and Next is unset again for the next tooltip. */
  function PauseBetweenNextButtons(c: Config, r: Run, evs: seq<Event>): (w: Waited)
    ensures w.Released? ==> !w.r.st.nextButtonPressed
    ensures w.Stuck? <==> Wait(c, r, evs, UntilNext).Stuck?
    ensures w.Released? ==> var v := Wait(c, r, evs, UntilNext).r;
      (v.st.nextButtonPressed || !v.st.continueActions) && w.r == v.(st := v.st.(nextButtonPressed := false))
    ensures w.Released? ==> forall cof :: Later(cof, r, w.r)
    ensures w.Released? && Quiet(evs) ==> w.r.st.continueActions == r.st.continueActions && w.r.log == r.log
  {
    match Wait(c, r, evs, UntilNext)
    case Stuck => Stuck
    case Released(v, rest) =>
      ClearNextIsLater(r, v);
      Released(v.(st := v.st.(nextButtonPressed := false)), rest)
  }

  /** Unsetting Next keeps a later moment later. */
  lemma ClearNextIsLater(r: Run, v: Run)
    requires forall cof :: Later(cof, r, v)
    ensures forall cof :: Later(cof, r, v.(st := v.st.(nextButtonPressed := false)))
  {
    forall cof ensures Later(cof, r, v.(st := v.st.(nextButtonPressed := false))) {
      LaterTrans(cof, r, v, v.(st := v.st.(nextButtonPressed := false)));
    }
  }

  /** `advanceDelay`: wait while paused, then sleep; the events left over arrive
      during the sleep. `None` is a run paused for good. */
  function AdvanceDelay(c: Config, r: Run, evs: seq<Event>): (o: Option<Run>)
    ensures o.Some? ==> forall cof :: Later(cof, r, o.value)
    ensures o.Some? && Quiet(evs) ==> o.value.st.continueActions == r.st.continueActions && o.value.log == r.log
    ensures o.None? ==> var end := HandleAll(c, r, evs); end.st.paused && end.st.continueActions
    ensures !r.st.paused || !r.st.continueActions ==> o == Some(HandleAll(c, r, evs))
  {
    match PauseIfNeeded(c, r, evs)
    case Stuck =>
      WaitStuck(c, r, evs, WhilePaused);
      None
    case Released(r1, rest) =>
      forall cof ensures Later(cof, r, HandleAll(c, r1, rest)) {
        LaterTrans(cof, r, r1, HandleAll(c, r1, rest));
      }
      Some(HandleAll(c, r1, rest))
  }

  /** A run that is not paused is never held up by the delay, and a stop that
      arrives during it halts the run. */
  lemma StopDuringDelay(c: Config, r: Run)
    requires !r.st.paused
    ensures AdvanceDelay(c, r, [StopClick(true)]) == Some(Handle(c, r, StopClick(true)))
    ensures !AdvanceDelay(c, r, [StopClick(true)]).value.st.continueActions
  {
  }

  /*****************************************************************************
   * `nonBlockingSleep`
   *****************************************************************************/

  /** How often a loop `for (i = 0; i < num / den; i++)` runs. */
  datatype Limit = Finite(n: nat) | Unbounded

  /** `i < num / den` with JavaScript's division; a zero divisor gives an
      infinite quotient of the numerator's sign, or `NaN` for `0 / 0`. */
  predicate BelowQuotient(i: int, num: int, den: int)
  {
    if den > 0 then i * den < num
    else if den < 0 then i * den > num
    else num > 0
  }

  lemma CeilingCount(num: int, den: int, n: nat, i: nat)
    requires den > 0 && num > 0 && n == (num + den - 1) / den
    ensures i < n <==> i * den < num
  {
    var r := (num + den - 1) % den;
    assert num + den - 1 == n * den + r && 0 <= r < den;
    if i < n {
      var g := n - 1 - i;
      assert g * den >= 0;
      assert g * den == n * den - den - i * den;
    } else {
      var g := i - n;
      assert g * den >= 0;
      assert g * den == i * den - n * den;
    }
  }

  function IterationCount(num: int, den: int): (l: Limit)
    ensures l.Unbounded? <==> den == 0 && num > 0
    ensures l.Unbounded? ==> forall i: nat :: BelowQuotient(i, num, den)
    ensures l.Finite? ==> forall i: nat :: i < l.n <==> BelowQuotient(i, num, den)
  {
    if den == 0 then
      if num > 0 then Unbounded else Finite(0)
    else if den > 0 then
      if num <= 0 then
        assert forall i: nat :: i * den >= 0;
        Finite(0)
      else
        var n := (num + den - 1) / den;
        assert forall i: nat :: i < n <==> BelowQuotient(i, num, den) by {
          forall i: nat ensures i < n <==> BelowQuotient(i, num, den) {
            CeilingCount(num, den, n, i);
          }
        }
        Finite(n)
    else
      if num >= 0 then
        assert forall i: nat :: i * den <= 0 by {
          forall i: nat ensures i * den <= 0 {
            assert i * (-den) >= 0;
          }
        }
        Finite(0)
      else
        var n := (-num + -den - 1) / -den;
        assert forall i: nat :: i < n <==> BelowQuotient(i, num, den) by {
          forall i: nat ensures i < n <==> BelowQuotient(i, num, den) {
            CeilingCount(-num, -den, n, i);
            assert i * den == -(i * -den);
          }
        }
        Finite(n)
  }

  /** `a % b` in JavaScript: the remainder takes the sign of the dividend. */
  function TruncRem(a: int, b: int): (r: int)
    requires b != 0
    ensures -(if b < 0 then -b else b) < r < (if b < 0 then -b else b)
    ensures r == 0 || (r < 0 <==> a < 0)
    ensures (a - r) % b == 0
  {
    var m := (if a < 0 then -a else a) % (if b < 0 then -b else b);
    TruncRemDivides(a, b, m);
    if a < 0 then -m else m
  }

  lemma TruncRemDivides(a: int, b: int, m: int)
    requires b != 0 && m == (if a < 0 then -a else a) % (if b < 0 then -b else b)
    ensures (a - (if a < 0 then -m else m)) % b == 0
  {
    var aa := if a < 0 then -a else a;
    var bb := if b < 0 then -b else b;
    var q := aa / bb;
    assert aa == q * bb + m;
    var sa := if a < 0 then -1 else 1;
    var sb := if b < 0 then -1 else 1;
    assert a - (if a < 0 then -m else m) == sa * (aa - m);
    assert bb == sb * b;
    var j := sa * q * sb;
    assert sa * (aa - m) == sa * (q * bb);
    assert sa * (q * bb) == j * b by {
      assert q * bb == q * (sb * b);
    }
    MultipleRemainder(j, b);
  }

  lemma MultipleRemainder(m: int, d: int)
    requires d != 0
    ensures (m * d) % d == 0
  {
    var q, r := (m * d) / d, (m * d) % d;
    assert m * d == q * d + r;
    var j := m - q;
    assert j * d == r by {
      assert m * d - q * d == (m - q) * d;
    }
    if j != 0 {
      ProductAtLeast(j, d);
    }
  }

  /** A non-zero multiple of `d` is at least `|d|` away from zero. */
  lemma ProductAtLeast(j: int, d: int)
    requires j != 0 && d != 0
    ensures j * d >= (if d < 0 then -d else d) || j * d <= -(if d < 0 then -d else d)
  {
    var aj, ad := (if j < 0 then -j else j), (if d < 0 then -d else d);
    assert aj * ad >= ad by {
      assert aj * ad == (aj - 1) * ad + ad;
    }
    assert j * d == aj * ad || j * d == -(aj * ad);
  }


  /** The sleeps a sliced sleep performs, in halves of a millisecond so that
      half a delay stays whole: one plain sleep, a list of slices each preceded
      by `pauseIfNeeded`, or a loop that never ends. */
  datatype SleepPlan = Plain(half: int) | Paced(slices: seq<int>) | Endless

  function Sum(xs: seq<int>): int
    decreases |xs|
  {
    if |xs| == 0 then 0 else xs[0] + Sum(xs[1..])
  }

  function Repeat(x: int, n: nat): (r: seq<int>)
    ensures |r| == n && forall i :: 0 <= i < n ==> r[i] == x
  {
    seq(n, _ => x)
  }

  lemma {:induction false} SumRepeat(x: int, n: nat)
    ensures Sum(Repeat(x, n)) == n * x
    decreases n
  {
    if n > 0 {
      assert Repeat(x, n)[1..] == Repeat(x, n - 1);
      SumRepeat(x, n - 1);
    }
  }

  lemma SumAppend(xs: seq<int>, y: int)
    ensures Sum(xs + [y]) == Sum(xs) + y
    decreases |xs|
  {
    if |xs| > 0 {
      assert (xs + [y])[1..] == xs[1..] + [y];
      SumAppend(xs[1..], y);
    }
  }

  /** A JavaScript number as `Number(value)` yields it (negative zero is not
      told apart from zero). */
  datatype JsNumber = Num(r: real) | PosInf | NegInf | NaN

  /** `x <= y` for a finite right-hand side. */
  predicate AtMost(x: JsNumber, y: real)
  {
    match x
    case Num(r) => r <= y
    case NegInf => true
    case _ => false
  }

  /** `x / d` for a whole-number divisor, with the IEEE rules for zero and
      the infinities. */
  function DivideBy(x: JsNumber, d: int): JsNumber
  {
    match x
    case NaN => NaN
    case Num(r) =>
      if d != 0 then Num(r / d as real)
      else if r > 0.0 then PosInf
      else if r < 0.0 then NegInf
      else NaN
    case PosInf => if d < 0 then NegInf else PosInf
    case NegInf => if d < 0 then PosInf else NegInf
  }

  function Double(x: JsNumber): JsNumber
  {
    if x.Num? then Num(2.0 * x.r) else x
  }

  /** `nonBlockingSleep(ms)` on a JavaScript number: it never returns when
      the duration is not short and the loop bound `(ms / globalDelay) * 2`
      is infinite, since `i < Infinity` holds for every `i`. A `NaN` bound
      admits no slice. */
  predicate SleepNeverEnds(ms: JsNumber, delay: int)
  {
    !AtMost(ms, delay as real / 2.0) && Double(DivideBy(ms, delay)) == PosInf
  }

  /** The cases in which a sliced sleep never ends: a positive duration at a
      zero delay, or an infinite duration at any delay that is not negative. */
  lemma SleepNeverEndsCases(ms: JsNumber, delay: int)
    ensures SleepNeverEnds(ms, delay) <==>
      (ms.Num? && delay == 0 && ms.r > 0.0) || (ms.PosInf? && delay >= 0)
  {
    if ms.Num? && delay != 0 {
      assert DivideBy(ms, delay).Num?;
    }
  }

  /** On whole milliseconds the number model and the slice plan agree on
      which sleeps never end. */
  lemma SleepNeverEndsAgrees(ms: int, delay: int)
    ensures SleepNeverEnds(Num(ms as real), delay) <==> NonBlockingSleep(ms, delay).Endless?
  {
    SleepNeverEndsCases(Num(ms as real), delay);
  }

  /** `nonBlockingSleep(ms)` as written: a short sleep is one plain sleep;
      otherwise as many half-delay slices as the loop condition
      `i < (ms / globalDelay) * 2` admits, then half the remainder of `ms`
      by the delay. */
  function NonBlockingSleep(ms: int, delay: int): (p: SleepPlan)
    ensures 2 * ms <= delay ==> p == Plain(2 * ms)
    ensures p.Endless? <==> delay == 0 && ms > 0
    ensures p.Paced? ==>
      delay != 0 && 2 * ms > delay && |p.slices| >= 1 && p.slices[|p.slices| - 1] == TruncRem(ms, delay)
      && forall i :: 0 <= i < |p.slices| - 1 ==> p.slices[i] == delay
    ensures p.Paced? ==> forall i: nat :: i < |p.slices| - 1 <==> BelowQuotient(i, 2 * ms, delay)
  {
    if 2 * ms <= delay then Plain(2 * ms)
    else match IterationCount(2 * ms, delay)
      case Unbounded => Endless
      case Finite(n) => Paced(Repeat(delay, n) + [TruncRem(ms, delay)])
  }

  /** When the duration is a multiple of the delay the slices add up to it. */
  lemma NonBlockingSleepMultiple(ms: int, delay: int)
    requires delay > 0 && ms > 0 && ms % delay == 0
    ensures NonBlockingSleep(ms, delay).Paced?
    ensures Sum(NonBlockingSleep(ms, delay).slices) == 2 * ms
  {
    var k := ms / delay;
    assert ms == k * delay;
    assert k >= 1;
    var n := IterationCount(2 * ms, delay).n;
    assert (2 * k - 1) * delay == 2 * ms - delay;
    assert BelowQuotient(2 * k - 1, 2 * ms, delay);
    assert !BelowQuotient(2 * k, 2 * ms, delay);
    assert n == 2 * k;
    SumRepeat(delay, n);
    SumAppend(Repeat(delay, n), TruncRem(ms, delay));
    assert TruncRem(ms, delay) == 0;
  }

  /** Otherwise the slices already cover the duration and the remainder is
      slept on top: 750 ms at a 500 ms delay sleeps 875 ms. */
  lemma NonBlockingSleepOvershoots()
    ensures NonBlockingSleep(750, 500) == Paced([500, 500, 500, 250])
    ensures Sum(NonBlockingSleep(750, 500).slices) == 1750
  {
    assert Repeat(500, 3) == [500, 500, 500];
  }

  /** The sliced sleep as meant: whole half-delay slices, then what is left,
      so that the slices add up to the requested duration. */
  function ExactSleep(ms: int, delay: int): (p: SleepPlan)
    requires delay > 0
    ensures p.Plain? ==> p.half == 2 * ms
    ensures p.Paced? ==> Sum(p.slices) == 2 * ms
    ensures p.Paced? ==> forall i :: 0 <= i < |p.slices| ==> 0 <= p.slices[i] <= delay
    ensures !p.Endless?
  {
    if 2 * ms <= delay then Plain(2 * ms)
    else
      var n := (2 * ms) / delay;
      SumRepeat(delay, n);
      SumAppend(Repeat(delay, n), (2 * ms) % delay);
      Paced(Repeat(delay, n) + [(2 * ms) % delay])
  }

  lemma MultipleDivides(m: int, d: int)
    requires d > 0
    ensures (m * d) / d == m && (m * d) % d == 0
  {
    var q, r := (m * d) / d, (m * d) % d;
    assert m * d == q * d + r && 0 <= r < d;
    var j := m - q;
    assert j * d == r by {
      assert m * d - q * d == (m - q) * d;
    }
    assert q == m;
  }

  /** Where the duration is a multiple of the delay, the loop as written and
      the loop as meant perform the same sleeps. */
  lemma SleepsAgreeOnMultiples(ms: int, delay: int)
    requires delay > 0 && ms % delay == 0
    ensures NonBlockingSleep(ms, delay) == ExactSleep(ms, delay)
  {
    if 2 * ms > delay {
      var k := ms / delay;
      assert ms == k * delay;
      assert k >= 1;
      var n := IterationCount(2 * ms, delay).n;
      assert (2 * k - 1) * delay == 2 * ms - delay;
      assert BelowQuotient(2 * k - 1, 2 * ms, delay);
      assert !BelowQuotient(2 * k, 2 * ms, delay);
      assert n == 2 * k;
      assert TruncRem(ms, delay) == 0;
      MultipleDivides(2 * k, delay);
    }
  }
}

=== FILE: dom.dfy ===
/*******************************************************************************
 *  The page as the engines see it: an immutable tree of nodes, a CSS oracle
 *  from selector text to matching nodes, and the recursive "smallest clickable
 *  element containing a text" search.
 *******************************************************************************/
module Dom {
  import opened JsString

  type NodeId = nat

  /** A DOM node. `text` is its `textContent`, `value` its `value` property
      when that is a string, `hasClick` whether it has a `click` method (HTML
      elements do, text nodes and comments do not), `tag` its upper-case
      `tagName`. */
  datatype Node = Node(
    id: NodeId,
    tag: string,
    text: string,
    value: Option<string>,
    hasClick: bool,
    children: seq<Node>)

  /** A snapshot of the document: its tree, and what `querySelectorAll` returns
      for each selector, in document order. A selector absent from `css`
      matches nothing. */
  datatype Document = Document(root: Node, css: map<string, seq<NodeId>>)

  /** `checkIfElementIsClickable`. */
  predicate Clickable(n: Node)
  {
    n.hasClick && n.tag != "SCRIPT"
  }

  /** `checkIfElementContainsText`: a non-empty `textContent` or a string
      `value` contains the text, ignoring case. */
  predicate ContainsText(n: Node, text: string)
  {
    (|n.text| > 0 && IncludesFolded(n.text, text))
    || (n.value.Some? && IncludesFolded(n.value.value, text))
  }

  /** The text test of `await`, which reads `textContent` only. */
  predicate TextContentIncludes(n: Node, text: string)
  {
    |n.text| > 0 && IncludesFolded(n.text, text)
  }

  function Or(a: Option<Node>, b: Option<Node>): Option<Node>
  {
    if a.Some? then a else b
  }

  /*****************************************************************************
   * Looking nodes up by identity
   *****************************************************************************/

  /** The first node with the given id, in pre-order. */
  function Find(n: Node, id: NodeId): Option<Node>
    decreases n, |n.children| + 1
  {
    if n.id == id then Some(n) else FindIn(n, 0, id)
  }

  function FindIn(n: Node, i: nat, id: NodeId): Option<Node>
    decreases n, |n.children| - i
  {
    if i >= |n.children| then None
    else Or(Find(n.children[i], id), FindIn(n, i + 1, id))
  }

  /** The live nodes behind a list of ids; ids no longer in the tree are dropped. */
  function Resolve(root: Node, ids: seq<NodeId>): (r: seq<Node>)
    ensures |r| <= |ids|
    decreases |ids|
  {
    if |ids| == 0 then []
    else match Find(root, ids[0])
      case Some(n) => [n] + Resolve(root, ids[1..])
      case None => Resolve(root, ids[1..])
  }

  /** `document.querySelectorAll(css)`. */
  function QueryAll(d: Document, css: string): seq<Node>
  {
    Resolve(d.root, if css in d.css then d.css[css] else [])
  }

  /** `document.querySelector(css)`: the first match, or null. */
  function Query(d: Document, css: string): (r: Option<Node>)
    ensures r.Some? <==> |QueryAll(d, css)| > 0
    ensures r.Some? ==> r.value == QueryAll(d, css)[0]
  {
    var all := QueryAll(d, css);
    if |all| == 0 then None else Some(all[0])
  }

  /*****************************************************************************
   * Editing a node
   *****************************************************************************/

  /** What an action writes into an element: its `value`, or its
      `textContent`, which replaces the element's children by the text. */
  datatype Edit = SetValue(v: string) | SetText(t: string)

  function ApplyEdit(n: Node, e: Edit): Node
  {
    match e
    case SetValue(v) => n.(value := Some(v))
    case SetText(t) => n.(text := t, children := [])
  }

  /** The tree with the edit applied to the node(s) carrying `id`. */
  function Update(n: Node, id: NodeId, e: Edit): (r: Node)
    ensures r.id == n.id
    ensures e.SetValue? ==> |r.children| == |n.children|
    decreases n
  {
    var kids := seq(|n.children|, i requires 0 <= i < |n.children| => Update(n.children[i], id, e));
    var self := n.(children := kids);
    if n.id == id then ApplyEdit(self, e) else self
  }

  /** Setting a value never changes which ids the tree holds, nor where. */
  lemma {:induction false} UpdateKeepsIds(n: Node, id: NodeId, e: Edit, j: NodeId)
    requires e.SetValue?
    ensures Find(Update(n, id, e), j).Some? == Find(n, j).Some?
    ensures Find(n, j).Some? ==> Find(Update(n, id, e), j).value.id == j
    ensures Find(n, j).Some? ==> Find(n, j).value.id == j
    decreases n, |n.children| + 1
  {
    UpdateKeepsIdsIn(n, 0, id, e, j);
  }

  lemma {:induction false} UpdateKeepsIdsIn(n: Node, i: nat, id: NodeId, e: Edit, j: NodeId)
    requires e.SetValue?
    ensures FindIn(Update(n, id, e), i, j).Some? == FindIn(n, i, j).Some?
    ensures FindIn(n, i, j).Some? ==> FindIn(Update(n, id, e), i, j).value.id == j
    ensures FindIn(n, i, j).Some? ==> FindIn(n, i, j).value.id == j
    decreases n, |n.children| - i
  {
    if i < |n.children| {
      var u := Update(n, id, e);
      assert u.children[i] == Update(n.children[i], id, e);
      UpdateKeepsIds(n.children[i], id, e, j);
      UpdateKeepsIdsIn(n, i + 1, id, e, j);
    }
  }

  /** After a value edit, looking the edited id up finds the new value. */
  lemma {:induction false} FindEdited(n: Node, id: NodeId, v: string)
    requires Find(n, id).Some?
    ensures Find(Update(n, id, SetValue(v)), id).Some?
    ensures Find(Update(n, id, SetValue(v)), id).value.value == Some(v)
    decreases n, |n.children| + 1
  {
    if n.id != id {
      FindEditedIn(n, 0, id, v);
    }
  }

  lemma {:induction false} FindEditedIn(n: Node, i: nat, id: NodeId, v: string)
    requires FindIn(n, i, id).Some?
    ensures FindIn(Update(n, id, SetValue(v)), i, id).Some?
    ensures FindIn(Update(n, id, SetValue(v)), i, id).value.value == Some(v)
    decreases n, |n.children| - i
  {
    var u := Update(n, id, SetValue(v));
    assert u.children[i] == Update(n.children[i], id, SetValue(v));
    if Find(n.children[i], id).Some? {
      FindEdited(n.children[i], id, v);
    } else {
      UpdateKeepsIds(n.children[i], id, SetValue(v), id);
      FindEditedIn(n, i + 1, id, v);
    }
  }

  /** Resolving a list of ids is unaffected by setting a value. */
  lemma {:induction false} ResolveAfterUpdate(root: Node, ids: seq<NodeId>, id: NodeId, e: Edit)
    requires e.SetValue?
    ensures |Resolve(Update(root, id, e), ids)| == |Resolve(root, ids)|
    ensures forall k :: 0 <= k < |Resolve(root, ids)| ==> Resolve(Update(root, id, e), ids)[k].id == Resolve(root, ids)[k].id
    ensures forall k :: 0 <= k < |Resolve(root, ids)| ==> Resolve(root, ids)[k].id in ids
    decreases |ids|
  {
    if |ids| > 0 {
      UpdateKeepsIds(root, id, e, ids[0]);
      ResolveAfterUpdate(root, ids[1..], id, e);
    }
  }

  /** The first element a selector resolves to, once its value was set. */
  lemma QueryAfterSetValue(d: Document, css: string, v: string)
    requires Query(d, css).Some?
    ensures var d' := d.(root := Update(d.root, Query(d, css).value.id, SetValue(v)));
      Query(d', css).Some? && Query(d', css).value.id == Query(d, css).value.id
      && Query(d', css).value.value == Some(v)
  {
    var ids := if css in d.css then d.css[css] else [];
    var m := Query(d, css).value;
    var root' := Update(d.root, m.id, SetValue(v));
    ResolveAfterUpdate(d.root, ids, m.id, SetValue(v));
    FirstResolved(d.root, ids);
    FirstResolved(root', ids);
    UpdateKeepsIds(d.root, m.id, SetValue(v), m.id);
    FindEdited(d.root, m.id, v);
  }

  /** The first resolved node is what its own id looks up to. */
  lemma {:induction false} FirstResolved(root: Node, ids: seq<NodeId>)
    requires |Resolve(root, ids)| > 0
    ensures Find(root, Resolve(root, ids)[0].id) == Some(Resolve(root, ids)[0])
    decreases |ids|
  {
    match Find(root, ids[0])
    case Some(n) =>
      UpdateKeepsIds(root, 0, SetValue(""), ids[0]);
    case None =>
      FirstResolved(root, ids[1..]);
  }

  /*****************************************************************************
   * `findElementWithTextRecursive`
   *****************************************************************************/

  /** The node the search ends on when visiting `n`: the last node assigned in
      a pre-order walk that assigns every clickable node containing the text and
      only descends into clickable children of nodes containing the text. */
  function SearchNode(n: Node, text: string): Option<Node>
    decreases n, |n.children| + 1
  {
    if !ContainsText(n, text) then None
    else Or(SearchKids(n, |n.children|, text), if Clickable(n) then Some(n) else None)
  }

  /** The same, over the first `i` children of `n`; a later child wins. */
  function SearchKids(n: Node, i: nat, text: string): Option<Node>
    requires i <= |n.children|
    decreases n, i
  {
    if i == 0 then None
    else
      var c := n.children[i - 1];
      Or(if Clickable(c) then SearchNode(c, text) else None, SearchKids(n, i - 1, text))
  }

  /** The same, over a list of starting elements; a later element wins. */
  function SearchList(ns: seq<Node>, text: string): Option<Node>
    decreases |ns|
  {
    if |ns| == 0 then None
    else Or(SearchNode(ns[|ns| - 1], text), SearchList(ns[..|ns| - 1], text))
  }

  /** The element test of a text lookup: `await` reads `textContent` only,
      `exists` also reads `value`. */
  predicate Holds(n: Node, text: string, textOnly: bool)
  {
    if textOnly then TextContentIncludes(n, text) else ContainsText(n, text)
  }

  /** The first element of `ns` that holds the text, where a `for … of` loop
      that breaks on a match stops. */
  function FirstHolding(ns: seq<Node>, text: string, textOnly: bool): (r: Option<Node>)
    ensures r.Some? <==> exists i :: 0 <= i < |ns| && Holds(ns[i], text, textOnly)
    ensures r.Some? ==>
      exists i :: 0 <= i < |ns| && r.value == ns[i] && Holds(ns[i], text, textOnly)
        && forall k :: 0 <= k < i ==> !Holds(ns[k], text, textOnly)
    decreases |ns|
  {
    if |ns| == 0 then None
    else if Holds(ns[0], text, textOnly) then Some(ns[0])
    else
      var r := FirstHolding(ns[1..], text, textOnly);
      assert forall i :: 1 <= i < |ns| ==> ns[i] == ns[1..][i - 1];
      r
  }

  /** `m` is reached from `n` by the walk: every node on the way contains the
      text, and every node below `n` is clickable. */
  ghost predicate Reaches(n: Node, m: Node, text: string)
    decreases n
  {
    ContainsText(n, text)
    && (m == n || exists i :: 0 <= i < |n.children| && Clickable(n.children[i]) && Reaches(n.children[i], m, text))
  }

  /** What the search returns qualifies: it contains the text, it is
      clickable, and the walk reaches it. Conversely it returns something
      whenever the walk reaches a clickable node. */
  lemma {:induction false} SearchNodeSpec(n: Node, text: string)
    ensures SearchNode(n, text).Some? ==>
      var m := SearchNode(n, text).value; Reaches(n, m, text) && Clickable(m) && ContainsText(m, text)
    ensures (exists m :: Reaches(n, m, text) && Clickable(m)) ==> SearchNode(n, text).Some?
    decreases n, |n.children| + 1
  {
    SearchKidsSpec(n, |n.children|, text);
    if ContainsText(n, text) {
      var k := SearchKids(n, |n.children|, text);
      if k.Some? {
        var i :| 0 <= i < |n.children| && Clickable(n.children[i]) && Reaches(n.children[i], k.value, text);
        assert Reaches(n, k.value, text);
      }
      if exists m :: Reaches(n, m, text) && Clickable(m) {
        var m :| Reaches(n, m, text) && Clickable(m);
        if m != n {
          var i :| 0 <= i < |n.children| && Clickable(n.children[i]) && Reaches(n.children[i], m, text);
          assert k.Some?;
        }
      }
    } else {
      forall m | Reaches(n, m, text) ensures false { }
    }
  }

  lemma {:induction false} SearchKidsSpec(n: Node, i: nat, text: string)
    requires i <= |n.children|
    ensures SearchKids(n, i, text).Some? ==>
      var m := SearchKids(n, i, text).value;
      Clickable(m) && ContainsText(m, text)
      && exists j :: 0 <= j < i && Clickable(n.children[j]) && Reaches(n.children[j], m, text)
    ensures (exists j, m :: 0 <= j < i && Clickable(n.children[j]) && Reaches(n.children[j], m, text) && Clickable(m))
      ==> SearchKids(n, i, text).Some?
    decreases n, i
  {
    if i > 0 {
      var c := n.children[i - 1];
      SearchKidsSpec(n, i - 1, text);
      SearchNodeSpec(c, text);
    }
  }

  /** Among the starting elements, the result comes from the last one whose
      walk finds anything. */
  lemma {:induction false} SearchListLastWins(ns: seq<Node>, text: string)
    ensures SearchList(ns, text).Some? <==> exists j :: 0 <= j < |ns| && SearchNode(ns[j], text).Some?
    ensures SearchList(ns, text).Some? ==>
      exists j :: 0 <= j < |ns| && SearchList(ns, text) == SearchNode(ns[j], text)
        && forall k :: j < k < |ns| ==> SearchNode(ns[k], text).None?
    decreases |ns|
  {
    if |ns| > 0 {
      var init := ns[..|ns| - 1];
      SearchListLastWins(init, text);
      if SearchNode(ns[|ns| - 1], text).None? {
        if SearchList(ns, text).Some? {
          var j :| 0 <= j < |init| && SearchList(init, text) == SearchNode(init[j], text)
            && forall k :: j < k < |init| ==> SearchNode(init[k], text).None?;
          assert ns[j] == init[j];
          assert forall k :: j < k < |ns| ==> SearchNode(ns[k], text).None? by {
            forall k | j < k < |ns| ensures SearchNode(ns[k], text).None? {
              if k < |init| { assert ns[k] == init[k]; }
            }
          }
        }
        if exists j :: 0 <= j < |ns| && SearchNode(ns[j], text).Some? {
          var j :| 0 <= j < |ns| && SearchNode(ns[j], text).Some?;
          assert j < |init| && init[j] == ns[j];
        }
      }
    }
  }

  /** A clickable child that contains the text takes precedence over its
      ancestor: the search then returns a node found below one of the children. */
  lemma DescendantOverwritesAncestor(n: Node, text: string, i: nat)
    requires ContainsText(n, text)
    requires i < |n.children| && Clickable(n.children[i]) && ContainsText(n.children[i], text)
    ensures SearchNode(n, text).Some?
    ensures exists j :: (0 <= j < |n.children| && Clickable(n.children[j])
                         && Reaches(n.children[j], SearchNode(n, text).value, text))
  {
    var c := n.children[i];
    assert Reaches(c, c, text);
    SearchKidsSpec(n, |n.children|, text);
  }

  /** The search as the source writes it: a loop over the elements that
      overwrites a running result, recursing into the clickable children of
      every element that contains the text. */
  method FindElementWithTextRecursive(elements: seq<Node>, text: string) returns (found: Option<Node>)
    ensures found == SearchList(elements, text)
    ensures found.Some? ==> Clickable(found.value) && ContainsText(found.value, text)
  {
    found := None;
    var j := 0;
    while j < |elements|
      invariant j <= |elements|
      invariant found == SearchList(elements[..j], text)
    {
      assert elements[..j + 1][..j] == elements[..j];
      found := Visit(elements[j], text, found);
      j := j + 1;
    }
    assert elements[..j] == elements;
    if found.Some? {
      SearchListLastWins(elements, text);
      var k :| 0 <= k < |elements| && found == SearchNode(elements[k], text);
      SearchNodeSpec(elements[k], text);
    }
  }

  /** One element of the walk: assign it when it qualifies, then walk its
      clickable children in order. */
  method Visit(n: Node, text: string, current: Option<Node>) returns (found: Option<Node>)
    ensures found == Or(SearchNode(n, text), current)
    decreases n
  {
    if !ContainsText(n, text) {
      return current;
    }
    found := if Clickable(n) then Some(n) else current;
    var i := 0;
    while i < |n.children|
      invariant i <= |n.children|
      invariant found == Or(SearchKids(n, i, text), Or(if Clickable(n) then Some(n) else None, current))
    {
      var c := n.children[i];
      if Clickable(c) {
        found := Visit(c, text, found);
      }
      i := i + 1;
    }
  }

  /*****************************************************************************
   * The page over time
   *****************************************************************************/

  /** The page a run acts on: the document now, the documents the following
      polls of an `await` see one after the other (what the page's own scripts
      make of the run's clicks and edits), the location and the ids of the
      elements clicked so far. */
  datatype Page = Page(doc: Document, later: seq<Document>, location: string, clicked: seq<NodeId>)

  /** Time passes: the page moves on to its next state, if it has one. */
  function Advance(p: Page): (q: Page)
    ensures |q.later| == if |p.later| == 0 then 0 else |p.later| - 1
    ensures |p.later| == 0 ==> q == p
  {
    if |p.later| == 0 then p else p.(doc := p.later[0], later := p.later[1..])
  }

  /** The page after `k` poll delays. */
  function After(p: Page, k: nat): Page
    decreases k
  {
    if k == 0 then p else After(Advance(p), k - 1)
  }

  function Click(p: Page, n: Node): Page
  {
    p.(clicked := p.clicked + [n.id])
  }

  function EditNode(p: Page, id: NodeId, e: Edit): Page
  {
    p.(doc := p.doc.(root := Update(p.doc.root, id, e)))
  }
}

=== FILE: js_string.dfy ===
/*******************************************************************************
 *  String operations of the JavaScript host that the routine engines rely on,
 *  written out over `seq<char>`.
 *
 *  A JavaScript value that may be `undefined` where a string is expected (an
 *  array index past the end of a split result, a missing option) is an
 *  `Option<string>`; `None` is `undefined`.
 *******************************************************************************/
module JsString {

  datatype Option<+T> = None | Some(value: T)

  /** A string or `undefined`. */
  type MaybeString = Option<string>

  /** `parts[i]` in JavaScript: reading past the end gives `undefined`. */
  function At(parts: seq<string>, i: nat): MaybeString
  {
    if i < |parts| then Some(parts[i]) else None
  }

  /** How a template literal renders a string-or-undefined. */
  function Show(v: MaybeString): string
  {
    match v
    case Some(s) => s
    case None => "undefined"
  }

  /** JavaScript truthiness of a string-or-undefined: defined and non-empty. */
  predicate Truthy(v: MaybeString)
  {
    v.Some? && |v.value| > 0
  }

  function BoolText(b: bool): string
  {
    if b then "true" else "false"
  }

  predicate StartsWith(s: string, p: string)
  {
    |p| <= |s| && s[..|p|] == p
  }

  predicate EndsWith(s: string, p: string)
  {
    |p| <= |s| && s[|s| - |p|..] == p
  }

  /** `String.prototype.includes`: `t` occurs somewhere in `s`. */
  predicate Includes(s: string, t: string)
  {
    exists i | 0 <= i <= |s| - |t| :: OccursAt(s, t, i)
  }

  predicate OccursAt(s: string, t: string, i: int)
  {
    0 <= i <= |s| - |t| && s[i..i + |t|] == t
  }

  /*****************************************************************************
   * Whitespace, as `\s` and `trimStart` see it
   *****************************************************************************/

  /** The ECMAScript WhiteSpace and LineTerminator code points. */
  predicate IsWhitespace(c: char)
  {
    var n := c as int;
    n == 0x09 || n == 0x0A || n == 0x0B || n == 0x0C || n == 0x0D || n == 0x20
    || n == 0xA0 || n == 0x1680 || (0x2000 <= n <= 0x200A) || n == 0x2028
    || n == 0x2029 || n == 0x202F || n == 0x205F || n == 0x3000 || n == 0xFEFF
  }

  /** `String.prototype.trimStart`: drops the leading whitespace and nothing else. */
  function TrimStart(s: string): (r: string)
    ensures |r| <= |s| && r == s[|s| - |r|..]
    ensures forall i :: 0 <= i < |s| - |r| ==> IsWhitespace(s[i])
    ensures |r| > 0 ==> !IsWhitespace(r[0])
    decreases |s|
  {
    if |s| > 0 && IsWhitespace(s[0]) then TrimStart(s[1..]) else s
  }

  /*****************************************************************************
   * Case folding
   *****************************************************************************/

  /** A capital of the ASCII or Latin-1 letters; its small letter lies 32
      code points above it. */
  predicate IsUpper(c: char)
  {
    'A' <= c <= 'Z' || ('\U{C0}' <= c <= '\U{DE}' && c != '\U{D7}')
  }

  function LowerChar(c: char): char
  {
    if IsUpper(c) then (c as int + 32) as char else c
  }

  /** `toLowerCase`, restricted to the ASCII and Latin-1 letters: no capital
      is left, and every other character stays where it was. */
  function Lower(s: string): (r: string)
    ensures |r| == |s|
    ensures forall i :: 0 <= i < |r| ==> !IsUpper(r[i])
    ensures forall i :: 0 <= i < |s| && !IsUpper(s[i]) ==> r[i] == s[i]
    ensures forall i :: 0 <= i < |s| && IsUpper(s[i]) ==> r[i] as int == s[i] as int + 32
  {
    seq(|s|, i requires 0 <= i < |s| => LowerChar(s[i]))
  }

  /** Lower-casing twice is lower-casing once. */
  lemma LowerIdempotent(s: string)
    ensures Lower(Lower(s)) == Lower(s)
  {
    assert forall i :: 0 <= i < |s| ==> Lower(Lower(s))[i] == Lower(s)[i];
  }

  /** Case-insensitive substring test, as `a.toLowerCase().includes(b.toLowerCase())`. */
  predicate IncludesFolded(s: string, t: string)
  {
    Includes(Lower(s), Lower(t))
  }

  /** Accented Latin capitals fold too: "ÉCOLE" is found in "école". */
  lemma FoldsLatinCapitals()
    ensures IncludesFolded("\U{E9}cole", "\U{C9}COLE")
  {
    assert Lower("\U{C9}COLE") == "\U{E9}cole";
    assert Lower("\U{E9}cole") == "\U{E9}cole";
    assert OccursAt("\U{E9}cole", "\U{E9}cole", 0);
  }

  /** The folded test does not depend on the case of either side. */
  lemma FoldedIgnoresCase(s: string, t: string)
    ensures IncludesFolded(s, t) <==> IncludesFolded(Lower(s), t)
    ensures IncludesFolded(s, t) <==> IncludesFolded(s, Lower(t))
  {
    LowerIdempotent(s);
    LowerIdempotent(t);
  }

  /*****************************************************************************
   * `String.prototype.split` with a string separator
   *****************************************************************************/

  /** `s.split(sep)`. An empty separator splits into single characters. */
  function Split(s: string, sep: string): seq<string>
  {
    if |sep| == 0 then Chars(s) else SplitOn(s, sep)
  }

  function Chars(s: string): (r: seq<string>)
    ensures |r| == |s|
    ensures forall i :: 0 <= i < |s| ==> r[i] == [s[i]]
  {
    seq(|s|, i requires 0 <= i < |s| => [s[i]])
  }

  /** Leftmost, non-overlapping split on a non-empty separator. */
  function SplitOn(s: string, sep: string): (r: seq<string>)
    requires |sep| > 0
    ensures |r| >= 1
    decreases |s|
  {
    if |s| < |sep| then [s]
    else if s[..|sep|] == sep then [""] + SplitOn(s[|sep|..], sep)
    else
      var rest := SplitOn(s[1..], sep);
      [[s[0]] + rest[0]] + rest[1..]
  }

  /** `parts.join(sep)`. */
  function Join(parts: seq<string>, sep: string): string
    decreases |parts|
  {
    if |parts| == 0 then ""
    else if |parts| == 1 then parts[0]
    else parts[0] + sep + Join(parts[1..], sep)
  }

  /** Splitting loses nothing: joining the pieces back with the separator gives the input. */
  lemma {:induction false} JoinSplitOn(s: string, sep: string)
    requires |sep| > 0
    ensures Join(SplitOn(s, sep), sep) == s
    decreases |s|
  {
    if |s| < |sep| {
    } else if s[..|sep|] == sep {
      JoinSplitOn(s[|sep|..], sep);
      var rest := SplitOn(s[|sep|..], sep);
      assert SplitOn(s, sep) == [""] + rest;
      assert ([""] + rest)[1..] == rest;
      assert s == sep + s[|sep|..];
    } else {
      JoinSplitOn(s[1..], sep);
      var rest := SplitOn(s[1..], sep);
      var r := [[s[0]] + rest[0]] + rest[1..];
      assert r[1..] == rest[1..];
      if |rest| == 1 {
        assert Join(r, sep) == [s[0]] + rest[0];
      } else {
        assert Join(rest, sep) == rest[0] + sep + Join(rest[1..], sep);
        assert Join(r, sep) == [s[0]] + rest[0] + sep + Join(rest[1..], sep);
      }
      assert s == [s[0]] + s[1..];
    }
  }

  /** No piece of a split contains the separator. */
  lemma {:induction false} SplitOnPiecesAvoidSeparator(s: string, sep: string, k: nat)
    requires |sep| > 0
    requires k < |SplitOn(s, sep)|
    ensures !Includes(SplitOn(s, sep)[k], sep)
    decreases |s|
  {
    if |s| < |sep| {
      assert SplitOn(s, sep)[k] == s;
    } else if s[..|sep|] == sep {
      if k > 0 {
        SplitOnPiecesAvoidSeparator(s[|sep|..], sep, k - 1);
      }
    } else {
      var rest := SplitOn(s[1..], sep);
      if k > 0 {
        SplitOnPiecesAvoidSeparator(s[1..], sep, k);
      } else {
        SplitOnPiecesAvoidSeparator(s[1..], sep, 0);
        var p := [s[0]] + rest[0];
        if Includes(p, sep) {
          var i :| OccursAt(p, sep, i);
          assert OccursAt(p, sep, i);
          assert 0 <= i <= |p| - |sep| && p[i..i + |sep|] == sep;
          assert |p| == 1 + |rest[0]|;
          if i == 0 {
            FirstPieceIsPrefix(s[1..], sep);
          } else {
            assert p[i..i + |sep|] == rest[0][i - 1..i - 1 + |sep|];
            assert OccursAt(rest[0], sep, i - 1);
          }
        }
      }
    }
  }

  /** The first piece of a split is a prefix of the input. */
  lemma {:induction false} FirstPieceIsPrefix(s: string, sep: string)
    requires |sep| > 0
    ensures StartsWith(s, SplitOn(s, sep)[0])
    decreases |s|
  {
    if |s| < |sep| {
    } else if s[..|sep|] == sep {
    } else {
      FirstPieceIsPrefix(s[1..], sep);
    }
  }

  /** A string without a one-character separator comes back whole. */
  lemma {:induction false} SplitOnAbsent(s: string, c: char)
    requires c !in s
    ensures SplitOn(s, [c]) == [s]
    decreases |s|
  {
    if |s| >= 1 {
      assert s[..1] == [s[0]];
      SplitOnAbsent(s[1..], c);
      assert s == [s[0]] + s[1..];
    }
  }

  /** Splitting on a one-character separator cuts at its first occurrence. */
  lemma {:induction false} SplitOnFirst(a: string, c: char, b: string)
    requires c !in a
    ensures SplitOn(a + [c] + b, [c]) == [a] + SplitOn(b, [c])
    decreases |a|
  {
    var s := a + [c] + b;
    if |a| == 0 {
      assert s[..1] == [c];
      assert s[1..] == b;
    } else {
      assert s[..1] == [a[0]];
      assert s[1..] == a[1..] + [c] + b;
      SplitOnFirst(a[1..], c, b);
      assert [a[0]] + a[1..] == a;
    }
  }

  /*****************************************************************************
   * The `>>` placeholder
   *****************************************************************************/

  /** `s.replace(/>>/g, rep)`: every `>>`, left to right and not overlapping, becomes `rep`. */
  function ReplaceChevrons(s: string, rep: string): string
    decreases |s|
  {
    if |s| < 2 then s
    else if s[0] == '>' && s[1] == '>' then rep + ReplaceChevrons(s[2..], rep)
    else [s[0]] + ReplaceChevrons(s[1..], rep)
  }

  /** The CSS selector a locator stands for: `>>` read as a space. */
  function Css(locator: string): string
  {
    ReplaceChevrons(locator, " ")
  }

  predicate HasChevrons(s: string)
  {
    exists i :: 0 <= i < |s| - 1 && s[i] == '>' && s[i + 1] == '>'
  }

  /** A string without `>>` is left alone by the replacement. */
  lemma {:induction false} ReplaceWithoutChevrons(s: string, rep: string)
    requires !HasChevrons(s)
    ensures ReplaceChevrons(s, rep) == s
    decreases |s|
  {
    if |s| >= 2 {
      assert !(s[0] == '>' && s[1] == '>');
      assert !HasChevrons(s[1..]) by {
        forall i | 0 <= i < |s[1..]| - 1
          ensures !(s[1..][i] == '>' && s[1..][i + 1] == '>')
        {
          assert s[1..][i] == s[i + 1] && s[1..][i + 1] == s[i + 2];
        }
      }
      ReplaceWithoutChevrons(s[1..], rep);
    }
  }

  /** In particular, a string without `>` is left alone. */
  lemma ReplaceWithoutGreater(s: string, rep: string)
    requires '>' !in s
    ensures ReplaceChevrons(s, rep) == s
  {
    assert !HasChevrons(s) by {
      forall i | 0 <= i < |s| - 1 ensures s[i] != '>' {
        assert s[i] in s;
      }
    }
    ReplaceWithoutChevrons(s, rep);
  }

  /** The translated selector starts with the locator's first character unless
      the locator starts with `>>`. */
  lemma {:induction false} CssHead(s: string)
    requires |s| > 0 && !(|s| >= 2 && s[0] == '>' && s[1] == '>')
    ensures |Css(s)| > 0 && Css(s)[0] == s[0]
  {
  }

  /** No `>>` survives the translation to a selector. */
  lemma {:induction false} CssHasNoChevrons(s: string)
    ensures !HasChevrons(Css(s))
    decreases |s|
  {
    if |s| < 2 {
    } else if s[0] == '>' && s[1] == '>' {
      CssHasNoChevrons(s[2..]);
      var t := Css(s[2..]);
      assert Css(s) == " " + t;
      forall i | 0 <= i < |Css(s)| - 1
        ensures !(Css(s)[i] == '>' && Css(s)[i + 1] == '>')
      {
        if i > 0 {
          assert Css(s)[i] == t[i - 1] && Css(s)[i + 1] == t[i];
        }
      }
    } else {
      CssHasNoChevrons(s[1..]);
      var t := Css(s[1..]);
      assert Css(s) == [s[0]] + t;
      forall i | 0 <= i < |Css(s)| - 1
        ensures !(Css(s)[i] == '>' && Css(s)[i + 1] == '>')
      {
        if i > 0 {
          assert Css(s)[i] == t[i - 1] && Css(s)[i + 1] == t[i];
        } else if s[0] == '>' {
          CssHead(s[1..]);
        }
      }
    }
  }

  /** Translating a selector twice is the same as translating it once, which is
      why the engines may apply the translation at every lookup. */
  lemma CssIdempotent(s: string)
    ensures Css(Css(s)) == Css(s)
  {
    CssHasNoChevrons(s);
    ReplaceWithoutChevrons(Css(s), " ");
  }

  /*****************************************************************************
   * Small string operations
   *****************************************************************************/

  /** `s.replace(c, '')` with a one-character string pattern: only the first
      occurrence is removed. */
  function RemoveFirst(s: string, c: char): (r: string)
    ensures c in s ==> |r| == |s| - 1
    ensures c !in s ==> r == s
    decreases |s|
  {
    if |s| == 0 then s
    else if s[0] == c then s[1..]
    else [s[0]] + RemoveFirst(s[1..], c)
  }

  /** Position of the first `c` in `s`, as `indexOf`. */
  function FirstIndex(s: string, c: char): (k: nat)
    requires c in s
    ensures k < |s| && s[k] == c && c !in s[..k]
  {
    if s[0] == c then 0 else 1 + FirstIndex(s[1..], c)
  }

  /** What `RemoveFirst` removes is the first occurrence and nothing else. */
  lemma {:induction false} RemoveFirstAt(s: string, c: char)
    requires c in s
    ensures RemoveFirst(s, c) == s[..FirstIndex(s, c)] + s[FirstIndex(s, c) + 1..]
  {
    if s[0] != c {
      RemoveFirstAt(s[1..], c);
      var k := FirstIndex(s[1..], c);
      assert s[1..][..k] + s[1..][k + 1..] == s[1..k + 1] + s[k + 2..];
      assert [s[0]] + s[1..k + 1] == s[..k + 1];
    }
  }

  /** `s.substring(0, 3)`. */
  function Prefix3(s: string): string
  {
    if |s| <= 3 then s else s[..3]
  }

  /*****************************************************************************
   * Number formatting
   *****************************************************************************/

  function DigitChar(d: nat): char
    requires d < 10
  {
    ('0' as int + d) as char
  }

  /** Decimal rendering of a natural number. */
  function NatText(n: nat): string
    decreases n
  {
    if n < 10 then [DigitChar(n)] else NatText(n / 10) + [DigitChar(n % 10)]
  }

  /** The digits of `f / 1000` after the decimal point, without trailing zeros. */
  function Thousandths(f: nat): string
    requires 0 < f < 1000
  {
    var digits := [DigitChar(f / 100), DigitChar(f / 10 % 10), DigitChar(f % 10)];
    if f % 100 == 0 then digits[..1]
    else if f % 10 == 0 then digits[..2]
    else digits
  }

  /** How JavaScript prints `ms / 1000` for an integer number of milliseconds. */
  function SecondsText(ms: int): string
  {
    var m: nat := if ms < 0 then -ms else ms;
    var sign := if ms < 0 then "-" else "";
    var whole := NatText(m / 1000);
    if m % 1000 == 0 then sign + whole else sign + whole + "." + Thousandths(m % 1000)
  }
}

=== FILE: minitest.dfy ===
/*******************************************************************************
 *  `MiniTest`: the smallest engine. Each action runs from its own timer; a
 *  missing element stops the actions not yet run, and every failure is an
 *  uncaught error rather than a log entry.
 *******************************************************************************/
module MiniTest {
  import opened JsString
  import opened Dom
  import opened Parse

  /** The options object; an absent key is `None`. */
  datatype MiniOptions = MiniOptions(globalDelay: Option<int>, message: Option<string>, messageStyle: Option<string>)

  const DefaultDelay := 500

  /*****************************************************************************
   * Scheduling
   *****************************************************************************/

  /** The delay a timer actually waits: a negative delay counts as zero. */
  function Clamp(ms: int): nat
  {
    if ms < 0 then 0 else ms
  }

  /** When the `i`-th action fires. */
  function FireTime(i: nat, delay: int): nat
  {
    Clamp(i * delay)
  }

  /** The timers never fire out of list order: later actions never fire
      earlier, and timers due at the same moment fire in the order they were
      set, which is list order. */
  lemma FireTimesOrdered(i: nat, j: nat, delay: int)
    requires i <= j
    ensures FireTime(i, delay) <= FireTime(j, delay)
  {
    if delay >= 0 {
      assert i * delay <= j * delay by {
        assert (j - i) * delay >= 0;
      }
    } else {
      assert i * delay <= 0 && j * delay <= 0 by {
        assert i * (-delay) >= 0 && j * (-delay) >= 0;
      }
    }
  }

  /** The message element is removed no earlier than the last action fires
      (and, on a tie, after it, having been set last). */
  lemma BannerOutlastsActions(n: nat, delay: int, i: nat)
    requires i < n
    ensures FireTime(i, delay) <= FireTime(n, delay)
  {
    FireTimesOrdered(i, n, delay);
  }

  /*****************************************************************************
   * One action
   *****************************************************************************/

  /** What one timer callback does: the page after it, whether it cleared
      `continue`, and the error it threw, if any. */
  datatype Effect = Effect(page: Page, halts: bool, thrown: Option<string>)

  /** `error(message, value)` throws this text. */
  function ErrorText(message: string, value: string): string
  {
    "[MiniTest] " + message + ": '" + value + "'. Halting execution."
  }

  datatype Picked = Picked(n: Node) | Missed(e: Effect)

  /** `select`: `document.querySelector` on the locator exactly as written
      (no `>>` translation); a miss clears `continue` and throws. */
  function Select(p: Page, selector: string): (r: Picked)
    ensures r.Picked? <==> Query(p.doc, selector).Some?
    ensures r.Picked? ==> r.n == Query(p.doc, selector).value
    ensures r.Missed? ==> r.e == Effect(p, true, Some(ErrorText("CSS Selector not found", selector)))
  {
    match Query(p.doc, selector)
    case None => Missed(Effect(p, true, Some(ErrorText("CSS Selector not found", selector))))
    case Some(n) => Picked(n)
  }

  /** `do(action)`: dispatch on the first three characters. `nav`, `click` and
      `exists` take the second space-separated word; `value`, `includes` and
      `write` split off a one-word locator and free text. Missing pieces are
      `undefined`, which the DOM receives as the text "undefined". */
  function Do(p: Page, action: string): (r: Effect)
    ensures r.halts ==> r.page == p && r.thrown == Some(ErrorText("CSS Selector not found", Show(
      if Prefix3(action) in {"val", "inc", "wri"} then At(DataSplit(action), 1) else At(SplitOn(action, " "), 1))))
    ensures !(Prefix3(action) in {"nav", "cli", "exi", "val", "inc", "wri"}) ==> r == Effect(p, false, None)
    ensures r.thrown.None? ==> !r.halts
  {
    var code := Prefix3(action);
    var word := At(SplitOn(action, " "), 1);
    var parts := DataSplit(action);
    if code == "nav" then Effect(p.(location := Show(word)), false, None)
    else if code == "cli" then
      match Select(p, Show(word))
      case Missed(e) => e
      case Picked(n) => Effect(Click(p, n), false, None)
    else if code == "exi" then
      match Select(p, Show(word))
      case Missed(e) => e
      case Picked(n) => Effect(p, false, None)
    else if code == "val" then
      match Select(p, Show(At(parts, 1)))
      case Missed(e) => e
      case Picked(n) => Effect(EditNode(p, n.id, SetValue(Show(At(parts, 2)))), false, None)
    else if code == "inc" then
      match Select(p, Show(At(parts, 1)))
      case Missed(e) => e
      case Picked(n) =>
        if Includes(n.text, Show(At(parts, 2))) then Effect(p, false, None)
        else Effect(p, false, Some(ErrorText("Text not found", Show(At(parts, 2)))))
    else if code == "wri" then
      match Select(p, Show(At(parts, 1)))
      case Missed(e) => e
      case Picked(n) => Effect(EditNode(p, n.id, SetText(n.text + Show(At(parts, 2)))), false, None)
    else Effect(p, false, None)
  }

  /** An `includes` whose text is missing throws, but the actions after it
      still run. */
  lemma MissingTextDoesNotHalt(p: Page, w: string, sel: string, text: string)
    requires ' ' !in w && |w| >= 3 && w[..3] == "inc"
    requires |sel| > 0 && forall k :: 0 <= k < |sel| ==> !IsWhitespace(sel[k])
    requires Query(p.doc, sel).Some? && !Includes(Query(p.doc, sel).value.text, text)
    ensures Do(p, w + " " + sel + " " + text) == Effect(p, false, Some(ErrorText("Text not found", text)))
  {
    DataSplitOfWords(w, sel, text);
    assert (w + " " + sel + " " + text)[..3] == w[..3];
  }

  /** `value sel text` stores the text, spaces included, in the element the
      locator matches first. */
  lemma ValueStoresText(p: Page, w: string, sel: string, text: string)
    requires ' ' !in w && |w| >= 3 && w[..3] == "val"
    requires |sel| > 0 && forall k :: 0 <= k < |sel| ==> !IsWhitespace(sel[k])
    requires Query(p.doc, sel).Some?
    ensures Do(p, w + " " + sel + " " + text) == Effect(EditNode(p, Query(p.doc, sel).value.id, SetValue(text)), false, None)
  {
    DataSplitOfWords(w, sel, text);
    assert (w + " " + sel + " " + text)[..3] == w[..3];
  }

  /** `write sel text` appends the text, spaces included, to the text of the
      element the locator matches first: it never writes over it. */
  lemma WriteAppends(p: Page, w: string, sel: string, text: string)
    requires ' ' !in w && |w| >= 3 && w[..3] == "wri"
    requires |sel| > 0 && forall k :: 0 <= k < |sel| ==> !IsWhitespace(sel[k])
    requires Query(p.doc, sel).Some?
    ensures var n := Query(p.doc, sel).value;
      Do(p, w + " " + sel + " " + text) == Effect(EditNode(p, n.id, SetText(n.text + text)), false, None)
  {
    DataSplitOfWords(w, sel, text);
    assert (w + " " + sel + " " + text)[..3] == w[..3];
  }

  /*****************************************************************************
   * The whole list
   *****************************************************************************/

  /** The page, the `continue` flag and the errors thrown so far. */
  datatype Mini = Mini(page: Page, running: bool, thrown: seq<string>)

  predicate SelectorError(t: string)
  {
    StartsWith(t, "[MiniTest] CSS Selector not found: '")
  }

  lemma SelectorErrorText(selector: string)
    ensures SelectorError(ErrorText("CSS Selector not found", selector))
  {
    var t := ErrorText("CSS Selector not found", selector);
    assert t == "[MiniTest] CSS Selector not found: '" + (selector + "'. Halting execution.");
    assert t[..|"[MiniTest] CSS Selector not found: '"|] == "[MiniTest] CSS Selector not found: '";
  }

  /** One timer: the action runs only while `continue` holds. */
  function Fire(m: Mini, action: string): (r: Mini)
    ensures !m.running ==> r == m
    ensures m.running && !r.running ==> |r.thrown| > 0 && SelectorError(r.thrown[|r.thrown| - 1])
    ensures |m.thrown| <= |r.thrown| <= |m.thrown| + 1 && r.thrown[..|m.thrown|] == m.thrown
  {
    if !m.running then m
    else
      var e := Do(m.page, action);
      SelectorErrorText(Show(if Prefix3(action) in {"val", "inc", "wri"} then At(DataSplit(action), 1)
                             else At(SplitOn(action, " "), 1)));
      Mini(e.page, !e.halts, m.thrown + (if e.thrown.Some? then [e.thrown.value] else []))
  }

  /** All timers in list order. */
  function FireAll(m: Mini, actions: seq<string>): (r: Mini)
    decreases |actions|
  {
    if |actions| == 0 then m else FireAll(Fire(m, actions[0]), actions[1..])
  }

  /** Once `continue` is cleared nothing changes any more, and it is only
      ever cleared by a missing element, whose error is then the last one
      thrown. */
  lemma {:induction false} HaltIsFinal(m: Mini, actions: seq<string>)
    ensures !m.running ==> FireAll(m, actions) == m
    ensures m.running && !FireAll(m, actions).running ==>
      var r := FireAll(m, actions);
      |r.thrown| > 0 && SelectorError(r.thrown[|r.thrown| - 1])
    ensures |FireAll(m, actions).thrown| <= |m.thrown| + |actions|
    decreases |actions|
  {
    if |actions| > 0 {
      HaltIsFinal(Fire(m, actions[0]), actions[1..]);
    }
  }

  /** The constructor: the message element appears only for a non-empty
      message; the actions then fire in order. */
  function Start(page: Page, actions: seq<string>, options: Option<MiniOptions>): (r: (bool, Mini))
    ensures r.0 <==> options.Some? && Truthy(options.value.message)
    ensures |r.1.thrown| <= |actions|
    ensures !r.1.running ==> |r.1.thrown| > 0 && SelectorError(r.1.thrown[|r.1.thrown| - 1])
  {
    HaltIsFinal(Mini(page, true, []), actions);
    var shown := options.Some? && Truthy(options.value.message);
    (shown, FireAll(Mini(page, true, []), actions))
  }
}

=== FILE: parse.dfy ===
/*******************************************************************************
 *  Reading an action: the normalised action list, the verb code and negation
 *  flag, and the splits that cut an action string into verb, locator and
 *  data.
 *******************************************************************************/
module Parse {
  import opened JsString
  import opened Settings

  /** What a caller-supplied function does when the engine calls it; `error`
      is the thrown value converted to a string. */
  datatype CallbackResult = Returns | Throws(error: string)

  /** One entry of the action list: a string, a function (its source text and
      what calling it does), or a value of any other type. */
  datatype Action =
    | Command(text: string)
    | Callback(source: string, result: CallbackResult)
    | Other(typeName: string)

  /** The first argument as the caller passed it. */
  datatype ActionsArg =
    | Missing
    | Listed(items: seq<Action>)
    | Text(text: string)
    | NotAList(typeName: string)

  /*****************************************************************************
   * `makeActionList`
   *****************************************************************************/

  /** `b` is what the loop receives for `a`: a string loses its leading white
      space and nothing else, any other value is passed on as it is. */
  predicate Normalised(a: Action, b: Action)
  {
    match a
    case Command(t) =>
      && b.Command?
      && |b.text| <= |t| && t[|t| - |b.text|..] == b.text
      && (forall i :: 0 <= i < |t| - |b.text| ==> IsWhitespace(t[i]))
      && (|b.text| > 0 ==> !IsWhitespace(b.text[0]))
    case _ => b == a
  }

  function TrimAction(a: Action): (b: Action)
    ensures Normalised(a, b)
  {
    if a.Command? then Command(TrimStart(a.text)) else a
  }

  /** The action list the loop walks: the array element by element, or the
      lines of a string. */
  function MakeActionList(arg: ActionsArg): (r: seq<Action>)
    requires arg.Listed? || arg.Text?
    ensures arg.Listed? ==> |r| == |arg.items|
    ensures arg.Listed? ==> forall i :: 0 <= i < |r| ==> Normalised(arg.items[i], r[i])
    ensures arg.Text? ==> |r| == |Split(arg.text, "\n")|
    ensures arg.Text? ==> forall i :: 0 <= i < |r| ==> Normalised(Command(Split(arg.text, "\n")[i]), r[i])
  {
    match arg
    case Listed(items) =>
      seq(|items|, i requires 0 <= i < |items| => TrimAction(items[i]))
    case Text(s) =>
      var lines := Split(s, "\n");
      seq(|lines|, i requires 0 <= i < |lines| => TrimAction(Command(lines[i])))
  }

  /** A string action list is cut at every line break and at nothing else:
      the lines joined back give the string, and no line holds a break. */
  lemma TextListIsLines(s: string)
    ensures Join(Split(s, "\n"), "\n") == s
    ensures forall k :: 0 <= k < |Split(s, "\n")| ==> '\n' !in Split(s, "\n")[k]
    ensures forall k :: 0 <= k < |MakeActionList(Text(s))| ==> MakeActionList(Text(s))[k].Command?
  {
    JoinSplitOn(s, "\n");
    forall k | 0 <= k < |Split(s, "\n")|
      ensures '\n' !in Split(s, "\n")[k]
    {
      var line := Split(s, "\n")[k];
      SplitOnPiecesAvoidSeparator(s, "\n", k);
      if '\n' in line {
        var i :| 0 <= i < |line| && line[i] == '\n';
        assert OccursAt(line, "\n", i);
      }
    }
  }

  /*****************************************************************************
   * Verb code and negation
   *****************************************************************************/

  /** The three-letter code an action string is dispatched on. The newer
      engines drop the first `!` first; `spaCheck` does not. */
  function VerbCode(v: Variant, action: string): string
  {
    if v == SpaCheck then Prefix3(action) else Prefix3(RemoveFirst(action, '!'))
  }

  /** The newer engines' negation flag: the action's first character is `!`. */
  predicate Negated(action: string)
  {
    |action| > 0 && action[0] == '!'
  }

  lemma {:induction false} RemoveFirstAfter(w: string, rest: string, c: char)
    requires c !in w
    ensures RemoveFirst(w + rest, c) == w + RemoveFirst(rest, c)
    decreases |w|
  {
    if |w| > 0 {
      assert (w + rest)[0] == w[0] && w[0] != c;
      assert (w + rest)[1..] == w[1..] + rest;
      assert RemoveFirst(w + rest, c) == [w[0]] + RemoveFirst(w[1..] + rest, c);
      RemoveFirstAfter(w[1..], rest, c);
      assert [w[0]] + (w[1..] + RemoveFirst(rest, c)) == w + RemoveFirst(rest, c);
    } else {
      assert w + rest == rest;
    }
  }

  /** An action that starts with a verb of three or more letters is dispatched
      on that verb's first three letters, by every engine, whatever follows;
      with the newer engines a leading `!` negates it without changing the
      code. */
  lemma VerbOfWord(v: Variant, w: string, rest: string)
    requires |w| >= 3 && '!' !in w
    ensures VerbCode(v, w + rest) == w[..3]
    ensures v != SpaCheck ==> VerbCode(v, "!" + w + rest) == w[..3] && Negated("!" + w + rest)
    ensures !Negated(w + rest)
  {
    RemoveFirstAfter(w, rest, '!');
    assert (w + RemoveFirst(rest, '!'))[..3] == w[..3];
    assert (w + rest)[..3] == w[..3];
    assert ("!" + w + rest)[1..] == w + rest;
  }

  /** `spaCheck` has no action-level negation: a leading `!` makes the code
      start with `!`, which no verb does. */
  lemma SpaBangIsNoVerb(a: string)
    ensures |VerbCode(SpaCheck, "!" + a)| > 0 && VerbCode(SpaCheck, "!" + a)[0] == '!'
  {
  }

  /*****************************************************************************
   * `split(/ ([^\s]+) (.*)/s)`: verb, one-word locator, free-text data
   *****************************************************************************/

  /** The length of the run of non-white-space characters of `s` at `i`. */
  function WordLength(s: string, i: nat): (n: nat)
    requires i <= |s|
    ensures i + n <= |s|
    ensures forall k :: i <= k < i + n ==> !IsWhitespace(s[k])
    ensures i + n < |s| ==> IsWhitespace(s[i + n])
    decreases |s| - i
  {
    if i == |s| || IsWhitespace(s[i]) then 0 else 1 + WordLength(s, i + 1)
  }

  /** The pattern matches at `q`: a space, a non-empty word, a space. The word
      is the whole run, as a shorter one would be followed by a non-space. */
  predicate DataMatchAt(s: string, q: int)
  {
    0 <= q < |s| && s[q] == ' '
    && var n := WordLength(s, q + 1);
    n > 0 && q + 1 + n < |s| && s[q + 1 + n] == ' '
  }

  /** The leftmost match at or after `from`. */
  function FirstDataMatch(s: string, from: nat): (r: Option<nat>)
    requires from <= |s|
    ensures r.Some? ==> from <= r.value && DataMatchAt(s, r.value)
    ensures r.Some? ==> forall p :: from <= p < r.value ==> !DataMatchAt(s, p)
    ensures r.None? ==> forall p :: from <= p ==> !DataMatchAt(s, p)
    decreases |s| - from
  {
    if from == |s| then None
    else if DataMatchAt(s, from) then Some(from)
    else FirstDataMatch(s, from + 1)
  }

  /** `s.split(/ ([^\s]+) (.*)/s)`: with a match, the text before it, the two
      captured groups and the empty rest; without one, `s` alone. */
  function DataSplit(s: string): (r: seq<string>)
    ensures |r| == 1 || |r| == 4
  {
    match FirstDataMatch(s, 0)
    case None => [s]
    case Some(q) =>
      var n := WordLength(s, q + 1);
      [s[..q], s[q + 1..q + 1 + n], s[q + 2 + n..], ""]
  }

  /** The four pieces reassemble the input around the two spaces, the locator
      is one non-empty word, and a single piece means the pattern never
      matches. */
  lemma DataSplitParts(s: string)
    ensures |DataSplit(s)| == 4 ==>
      var r := DataSplit(s);
      r[0] + " " + r[1] + " " + r[2] == s && r[3] == "" && |r[1]| > 0
      && (forall k :: 0 <= k < |r[1]| ==> !IsWhitespace(r[1][k]))
    ensures |DataSplit(s)| == 1 <==> forall q :: !DataMatchAt(s, q)
    ensures |DataSplit(s)| == 1 ==> DataSplit(s) == [s]
  {
    match FirstDataMatch(s, 0)
    case None =>
    case Some(q) =>
      var n := WordLength(s, q + 1);
      Reassemble(s, q, n);
      var r := DataSplit(s);
      forall k | 0 <= k < |r[1]| ensures !IsWhitespace(r[1][k]) {
        assert r[1][k] == s[q + 1 + k];
      }
  }

  /** The text around a match of the pattern, put back together. */
  lemma Reassemble(s: string, q: nat, n: nat)
    requires q + 1 + n < |s| && s[q] == ' ' && s[q + 1 + n] == ' '
    ensures s[..q] + " " + s[q + 1..q + 1 + n] + " " + s[q + 2 + n..] == s
  {
    assert s[..q + 1] == s[..q] + " ";
    assert s[..q + 1 + n] == s[..q + 1] + s[q + 1..q + 1 + n];
    assert s[..q + 2 + n] == s[..q + 1 + n] + " ";
    assert s == s[..q + 2 + n] + s[q + 2 + n..];
  }

  /** The run at the start of a word followed by a space is the word. */
  lemma WordLengthOfWord(s: string, i: nat, word: string)
    requires i + |word| < |s| && s[i..i + |word|] == word && s[i + |word|] == ' '
    requires forall k :: 0 <= k < |word| ==> !IsWhitespace(word[k])
    ensures WordLength(s, i) == |word|
  {
    assert forall k :: 0 <= k < |word| ==> s[i + k] == word[k];
  }

  /** A verb without spaces, a one-word locator and any data split as meant. */
  lemma DataSplitOfWords(w: string, sel: string, data: string)
    requires ' ' !in w
    requires |sel| > 0 && forall k :: 0 <= k < |sel| ==> !IsWhitespace(sel[k])
    ensures DataSplit(w + " " + sel + " " + data) == [w, sel, data, ""]
  {
    var s := w + " " + sel + " " + data;
    var q := |w|;
    assert s[q + 1..q + 1 + |sel|] == sel;
    WordLengthOfWord(s, q + 1, sel);
    assert DataMatchAt(s, q);
    forall p | 0 <= p < q ensures !DataMatchAt(s, p) {
      assert s[p] == w[p];
    }
    assert s[..q] == w;
    assert s[q + 2 + |sel|..] == data;
  }

  /*****************************************************************************
   * `split(/ (.*)/s)`: everything after the first space
   *****************************************************************************/

  /** The position of the first occurrence of `c` at or after `from`. */
  function IndexOf(s: string, c: char, from: nat): (r: Option<nat>)
    requires from <= |s|
    ensures r.Some? ==> from <= r.value < |s| && s[r.value] == c
    ensures r.Some? ==> forall p :: from <= p < r.value ==> s[p] != c
    ensures r.None? ==> forall p :: from <= p < |s| ==> s[p] != c
    decreases |s| - from
  {
    if from == |s| then None
    else if s[from] == c then Some(from)
    else IndexOf(s, c, from + 1)
  }

  /** `s.split(/ (.*)/s)`: the text before the first space, everything after
      it and the empty rest; `s` alone when it has no space. */
  function RestSplit(s: string): (r: seq<string>)
    ensures |r| == 1 || |r| == 3
    ensures |r| == 1 <==> ' ' !in s
    ensures |r| == 1 ==> r[0] == s
    ensures |r| == 3 ==> r[0] + " " + r[1] == s && ' ' !in r[0] && r[2] == ""
  {
    match IndexOf(s, ' ', 0)
    case None => [s]
    case Some(q) =>
      assert s[..q] + " " + s[q + 1..] == s;
      assert ' ' in s by { assert s[q] == ' '; }
      [s[..q], s[q + 1..], ""]
  }

  /** Everything after the first space comes back verbatim. */
  lemma RestSplitOfWord(w: string, rest: string)
    requires ' ' !in w
    ensures RestSplit(w + " " + rest) == [w, rest, ""]
  {
    var s := w + " " + rest;
    assert s[|w|] == ' ';
    assert forall p :: 0 <= p < |w| ==> s[p] == w[p];
    assert s[..|w|] == w && s[|w| + 1..] == rest;
  }

  /** Without a space there is nothing after the verb. */
  lemma RestSplitNoSpace(s: string)
    requires ' ' !in s
    ensures RestSplit(s) == [s]
  {
  }

  /*****************************************************************************
   * `argSplit` and `argSplitComplex`
   *****************************************************************************/

  /** What the split helpers hand back: the pieces, or one of the two ways the
      default-separator path fails. `Malformed` is `argSplit` finding no
      match: it records a failure and then throws on `split[1]`.
      `NoSelector` is `argSplitComplex` seeing a single word: it throws on
      `regularSplit[1]` without recording anything. */
  datatype Args = Parts(parts: seq<string>) | Malformed | NoSelector
  {
    function Selector(): MaybeString requires Parts? { At(parts, 1) }
    function Data(): MaybeString requires Parts? { At(parts, 2) }
  }

  /** `argSplit`: the custom separator splits plainly; the default one uses
      the data pattern and translates `>>` in the locator. */
  function ArgSplit(sep: string, action: string): (r: Args)
    ensures !r.NoSelector?
    ensures r.Malformed? <==> sep == Space && forall q :: !DataMatchAt(action, q)
    ensures sep != Space ==> r == Parts(Split(action, sep))
    ensures sep == Space && r.Parts? ==>
      && |r.parts| == 4 && r.parts[3] == ""
      && exists loc :: r.parts[0] + " " + loc + " " + r.parts[2] == action && |loc| > 0 && r.parts[1] == Css(loc)
  {
    DataSplitParts(action);
    if sep != Space then Parts(Split(action, sep))
    else
      var p := DataSplit(action);
      if |p| < 3 then Malformed
      else
        assert p[0] + " " + p[1] + " " + p[2] == action;
        Parts(p[1 := Css(p[1])])
  }

  /** `argSplitComplex`: like `argSplit` when there is data, otherwise the
      plain split with the locator translated. */
  function ArgSplitComplex(sep: string, action: string): (r: Args)
    ensures sep != Space ==> r == Parts(Split(action, sep))
    ensures sep == Space && |Split(action, sep)| > 2 ==> r == ArgSplit(sep, action)
    ensures sep == Space && |Split(action, sep)| == 2 ==>
      && r.Parts? && |r.parts| == 2 && ' ' !in r.parts[0]
      && exists loc :: r.parts[0] + " " + loc == action && r.parts[1] == Css(loc) && ' ' !in loc
    ensures r.NoSelector? ==> sep == Space && Split(action, sep) == [action]
    ensures sep == Space && ' ' !in action ==> r.NoSelector?
  {
    var regular := Split(action, sep);
    if sep != Space then Parts(regular)
    else
      assert Space == [' '];
      assert ' ' !in action ==> regular == [action] by {
        if ' ' !in action { SplitOnAbsent(action, ' '); }
      }
      if |regular| > 2 then ArgSplit(sep, action)
      else if |regular| < 2 then
        JoinSplitOn(action, sep);
        NoSelector
      else
        JoinSplitOn(action, sep);
        assert Join(regular, sep) == regular[0] + sep + regular[1];
        NoSpaceInPiece(action, 0);
        NoSpaceInPiece(action, 1);
        Parts(regular[1 := Css(regular[1])])
  }

  /** A piece of a split on the default separator holds no space. */
  lemma NoSpaceInPiece(action: string, k: nat)
    requires k < |Split(action, Space)|
    ensures ' ' !in Split(action, Space)[k]
  {
    var piece := Split(action, Space)[k];
    SplitOnPiecesAvoidSeparator(action, Space, k);
    if ' ' in piece {
      var i :| 0 <= i < |piece| && piece[i] == ' ';
      assert piece[i..i + 1] == Space;
      assert OccursAt(piece, Space, i);
      assert false;
    }
  }

  /** With the default separator and data present, the data is the verbatim
      rest of the action and only the locator is translated; both helpers
      agree. */
  lemma ArgSplitWithData(w: string, sel: string, data: string)
    requires ' ' !in w
    requires |sel| > 0 && forall k :: 0 <= k < |sel| ==> !IsWhitespace(sel[k])
    ensures ArgSplit(Space, w + " " + sel + " " + data) == Parts([w, Css(sel), data, ""])
    ensures ArgSplitComplex(Space, w + " " + sel + " " + data) == Parts([w, Css(sel), data, ""])
  {
    DataSplitOfWords(w, sel, data);
    ThreeWordsSplit(w, sel, data);
  }

  lemma ThreeWordsSplit(w: string, sel: string, data: string)
    requires ' ' !in w && ' ' !in sel
    ensures |Split(w + " " + sel + " " + data, Space)| >= 3
  {
    var s := w + " " + sel + " " + data;
    assert s == w + [' '] + (sel + [' '] + data);
    SplitOnFirst(w, ' ', sel + [' '] + data);
    SplitOnFirst(sel, ' ', data);
  }

  /** With the default separator and just a verb and a locator, the data is
      `undefined` and the locator is translated. */
  lemma ArgSplitComplexNoData(w: string, sel: string)
    requires ' ' !in w && ' ' !in sel
    ensures ArgSplitComplex(Space, w + " " + sel) == Parts([w, Css(sel)])
    ensures ArgSplitComplex(Space, w + " " + sel).Data() == None
  {
    assert w + " " + sel == w + [' '] + sel;
    SplitOnFirst(w, ' ', sel);
    SplitOnAbsent(sel, ' ');
  }

  /** With the default separator a lone verb has no locator to translate. */
  lemma ArgSplitComplexLoneWord(w: string)
    requires ' ' !in w
    ensures ArgSplitComplex(Space, w) == NoSelector
  {
    SplitOnAbsent(w, ' ');
  }

  /** A custom separator splits plainly: nothing is translated and nothing is
      lost, so the pieces joined back give the action. */
  lemma CustomSeparatorKeepsText(sep: string, action: string)
    requires sep != Space && |sep| > 0
    ensures ArgSplitComplex(sep, action).Parts?
    ensures Join(ArgSplitComplex(sep, action).parts, sep) == action
    ensures ArgSplit(sep, action) == ArgSplitComplex(sep, action)
  {
    JoinSplitOn(action, sep);
  }

  /** `getTargetText`: how an action names what it looks for. */
  function TargetText(selector: MaybeString, value: MaybeString): (r: string)
    ensures StartsWith(r, "'" + Show(selector) + "'")
    ensures Truthy(value) <==> |r| > |Show(selector)| + 2
    ensures Truthy(value) ==> EndsWith(r, " containing text '" + value.value + "'")
  {
    "'" + Show(selector) + "'" + (if Truthy(value) then " containing text '" + value.value + "'" else "")
  }
}

=== FILE: routine.dfy ===
/*******************************************************************************
 *  A whole run: the start-up checks, input validation, the loop over the
 *  action list and the returned payload, for all three engines.
 *******************************************************************************/
module Routine {
  import opened JsString
  import opened Settings
  import opened Dom
  import opened Parse
  import opened Control
  import opened Actions

  /** The banner another run left in the page: the text of its message
      element (`None` when it has none) and its `data-dry-run` attribute. */
  datatype Banner = Banner(messageText: Option<string>, attribute: Option<string>)

  /** What the run finds in its host: whether there is a `document`, the
      banner of a run of the same engine already on the page, and whether
      `document.onkeydown` is already set. */
  datatype Host = Host(hasDocument: bool, banner: Option<Banner>, onkeydownSet: bool)

  /** What the person watching does around one action: events during the
      delay before it, and events while it waits for a tutorial Next. */
  datatype Moment = Moment(during: seq<Event>, waiting: seq<Event>)

  predicate Calm(m: Moment)
  {
    Quiet(m.during) && Quiet(m.waiting)
  }

  /** The object the returned promise resolves to; only `userRoutine` returns
      its configuration. */
  datatype Payload = Payload(success: bool, log: seq<Entry>, message: string, configuration: Option<Config>)

  /** How the returned promise settles: resolved (with the page and whether
      `document.onkeydown` is left set), rejected with an error message, or
      never (a run paused for good, or an await that cannot end). */
  datatype Outcome =
    | Resolved(payload: Payload, page: Page, onkeydownSet: bool)
    | Rejected(error: string)
    | NeverResolves

  const NullOptions := "Cannot read properties of null (reading 'tutorialMode')"
  const NullMessage := "Cannot read properties of null (reading 'textContent')"
  const NoDocument := "document is not defined"

  /*****************************************************************************
   * `checkIfShouldStart`
   *****************************************************************************/

  datatype Admission = Admitted | Refused(text: string) | Crashes(error: string)

  /** Without a `document` the newer engines refuse and `spaCheck` crashes on
      its first DOM call. `userRoutine` refuses to start beside another
      banner unless simultaneous runs are allowed; `dryRun` always does,
      quoting the banner's attribute (`null` when it has none). */
  function Admit(e: Env, host: Host): (a: Admission)
    ensures a.Refused? ==> e.v != SpaCheck && EndsWith(a.text, Halting)
    ensures a.Crashes? ==> a.error == (if host.hasDocument then NullMessage else NoDocument)
    ensures e.v == SpaCheck ==> (a.Admitted? <==> host.hasDocument)
    ensures host.hasDocument && host.banner.None? ==> a.Admitted?
    ensures e.v == UserRoutine && e.c.Simultaneous() && host.hasDocument ==> a.Admitted?
  {
    if !host.hasDocument then
      if e.v == SpaCheck then Crashes(NoDocument)
      else
        var head := "FAIL: document is undefined. " + Label(e.v) + " can only be used in the browser";
        SuffixesExclusive(head);
        Refused(head + Halting)
    else if e.v == UserRoutine && !e.c.Simultaneous() && host.banner.Some? then
      match host.banner.value.messageText
      case None => Crashes(NullMessage)
      case Some(m) =>
        var head := "FAIL: User Routine '" + m + "' is already running";
        SuffixesExclusive(head);
        Refused(head + Halting)
    else if e.v == DryRun && host.banner.Some? then
      var head := "FAIL: Dry-Run '" + Pick(host.banner.value.attribute, "null") + "' is already running";
      SuffixesExclusive(head);
      Refused(head + Halting)
    else Admitted
  }

  /*****************************************************************************
   * `validateInputs`
   *****************************************************************************/

  predicate ListAccepted(v: Variant, arg: ActionsArg)
  {
    if v == SpaCheck then arg.Listed? else arg.Listed? || arg.Text?
  }

  predicate ValidInputs(v: Variant, arg: ActionsArg, opts: OptionsArg)
  {
    ListAccepted(v, arg) && !opts.NotAnObject?
  }

  /** The failure `validateInputs` records for the action list, if any. */
  function ListProblem(v: Variant, arg: ActionsArg): (m: Option<string>)
    ensures m.None? <==> ListAccepted(v, arg)
  {
    if arg.Missing? then Some("Missing required argument Action List")
    else if ListAccepted(v, arg) then None
    else if v == SpaCheck then Some("Action list argument is not an Array")
    else Some("Action list argument is not an Array or string")
  }

  /** `raiseError(message, '', false)` when there is a problem. */
  function Report(r: Run, problem: Option<string>): (r': Run)
    ensures forall cof :: Later(cof, r, r')
    ensures problem.None? ==> r' == r
    ensures problem.Some? ==> !r'.st.continueActions && r'.st.errorOccurred
    ensures problem.Some? ==> r'.log == r.log + [Failure(FailText(problem.value, Some(""), false))]
  {
    if problem.None? then
      assert r.log[..|r.log|] == r.log;
      r
    else
      var r' := RaiseError(r, problem.value, Some(""), false);
      assert Later(true, r, r');
      r'
  }

  /** Each rejected argument records its own halting failure; both may be
      reported. */
  function Validate(v: Variant, r: Run, arg: ActionsArg, opts: OptionsArg): (r': Run)
    requires r.st.continueActions
    ensures forall cof :: Later(cof, r, r')
    ensures ValidInputs(v, arg, opts) <==> r' == r
    ensures !ValidInputs(v, arg, opts) ==> !r'.st.continueActions && r'.st.errorOccurred
    ensures |r'.log| - |r.log| ==
      (if ListAccepted(v, arg) then 0 else 1) + (if opts.NotAnObject? then 1 else 0)
  {
    var r1 := Report(r, ListProblem(v, arg));
    var r2 := Report(r1, if opts.NotAnObject? then Some("Options argument is not an Object") else None);
    forall cof ensures Later(cof, r, r2) {
      LaterTrans(cof, r, r1, r2);
    }
    r2
  }

  /*****************************************************************************
   * The event loop
   *****************************************************************************/

  /** One pass of the loop body: the delay (the newer engines' `advanceDelay`,
      `spaCheck`'s plain sleep), the action, and the `Unexpected error`
      failure for anything the action throws. `None` is a run that never
      gets past this action. */
  function Iterate(e: Env, s: Session, a: Action, m: Moment): (o: Option<Session>)
    ensures o.Some? ==> Later(e.c.continueOnFailure, s.run, o.value.run)
    ensures o.Some? && e.c.continueOnFailure && Calm(m) ==>
      o.value.run.st.continueActions == s.run.st.continueActions
  {
    var cof := e.c.continueOnFailure;
    var r1 := if e.v == SpaCheck then Some(s.run) else AdvanceDelay(e.c, s.run, m.during);
    if r1.None? then None
    else
      assert Later(cof, s.run, r1.value) by {
        assert s.run.log[..|s.run.log|] == s.run.log;
      }
      var t := Perform(e, s.(run := r1.value), a, m.waiting);
      if t.how.Hangs? then None
      else
        LaterTrans(cof, s.run, r1.value, t.s.run);
        if t.how.Normal? then Some(t.s)
        else
          var r2 := RaiseError(t.s.run, "Unexpected error: " + t.how.message, None, cof);
          LaterTrans(cof, s.run, t.s.run, r2);
          Some(t.s.(run := r2))
  }

  function First(ms: seq<Moment>): Moment
  {
    if |ms| > 0 then ms[0] else Moment([], [])
  }

  function Rest(ms: seq<Moment>): seq<Moment>
  {
    if |ms| > 0 then ms[1..] else []
  }

  /** A loop that ended, and how many actions it ran. */
  datatype Looped = Finished(s: Session, ran: nat) | Forever

  /** `for (const action of actionList)`: a halted run leaves the loop before
      the next action. Moments beyond the list given are calm. */
  function Loop(e: Env, s: Session, actions: seq<Action>, moments: seq<Moment>): (l: Looped)
    ensures l.Finished? ==> Later(e.c.continueOnFailure, s.run, l.s.run)
    ensures l.Finished? ==> l.ran <= |actions|
    ensures l.Finished? && l.ran < |actions| ==> !l.s.run.st.continueActions
    ensures !s.run.st.continueActions ==> l == Finished(s, 0)
    decreases |actions|
  {
    if |actions| == 0 || !s.run.st.continueActions then
      assert s.run.log[..|s.run.log|] == s.run.log;
      Finished(s, 0)
    else
      match Iterate(e, s, actions[0], First(moments))
      case None => Forever
      case Some(s1) =>
        match Loop(e, s1, actions[1..], Rest(moments))
        case Forever => Forever
        case Finished(s2, n) =>
          LaterTrans(e.c.continueOnFailure, s.run, s1.run, s2.run);
          Finished(s2, n + 1)
  }

  /** The loop reads `continueActions` before the delay, not after it: a
      stop confirmed during the delay halts the run, and the action after the
      delay still runs on the halted run, after the stop's failure. */
  lemma ActionRunsAfterStopInDelay(e: Env, s: Session, a: Action)
    requires e.v != SpaCheck && !s.run.st.paused
    ensures var r := Handle(e.c, s.run, StopClick(true));
      var t := Perform(e, s.(run := r), a, []);
      && !r.st.continueActions
      && (t.how.Normal? ==> Iterate(e, s, a, Moment([StopClick(true)], [])) == Some(t.s))
    ensures a.Callback? && a.result.Returns? ==>
      var o := Iterate(e, s, a, Moment([StopClick(true)], []));
      o.Some? && o.value.run.log == Handle(e.c, s.run, StopClick(true)).log + [Note("Ran provided function")]
  {
    StopDuringDelay(e.c, s.run);
  }

  predicate AllCalm(ms: seq<Moment>)
  {
    forall i :: 0 <= i < |ms| ==> Calm(ms[i])
  }

  /** When failures are continued past and nobody confirms a stop, a loop that
      ends has run every action, and the run can still go on. */
  lemma {:induction false} EveryActionRuns(e: Env, s: Session, actions: seq<Action>, moments: seq<Moment>)
    requires e.c.continueOnFailure && s.run.st.continueActions && AllCalm(moments)
    ensures var l := Loop(e, s, actions, moments);
      l.Finished? ==> l.ran == |actions| && l.s.run.st.continueActions
    decreases |actions|
  {
    if |actions| > 0 {
      assert Calm(First(moments)) by {
        if |moments| > 0 {
          assert Calm(moments[0]);
        }
      }
      var o := Iterate(e, s, actions[0], First(moments));
      if o.Some? {
        assert AllCalm(Rest(moments)) by {
          if |moments| > 0 {
            forall i | 0 <= i < |moments| - 1
              ensures Calm(moments[1..][i])
            {
              assert moments[1..][i] == moments[i + 1];
            }
          }
        }
        EveryActionRuns(e, o.value, actions[1..], Rest(moments));
      }
    }
  }

  /*****************************************************************************
   * The run
   *****************************************************************************/

  lemma DoneFalse()
    ensures "Done, success: " + BoolText(false) == "Done, success: false"
  {
  }

  /** The run's state before validation: the key handler installed or not. */
  function Fresh(e: Env, host: Host): Run
  {
    Run(Initial.(keyDownSet := InstallsKeyHandler(e.v, e.c, host.onkeydownSet)), [])
  }

  function Configuration(e: Env): Option<Config>
  {
    if e.v == UserRoutine then Some(e.c) else None
  }

  /** `finish`: the closing note, and the handler the run installed taken
      off again. */
  function Finish(e: Env, s: Session, host: Host, keySet: bool): (o: Outcome)
    ensures o == Resolved(Payload(!s.run.st.errorOccurred,
                                  s.run.log + [Note("Done, success: " + BoolText(!s.run.st.errorOccurred))],
                                  e.c.message, Configuration(e)),
                          s.page, host.onkeydownSet && !keySet)
    ensures Consistent(s.run) ==> (o.payload.success <==> !HasFailure(o.payload.log))
    ensures AllHalt(s.run.log) ==> AllHalt(o.payload.log)
  {
    var done := Log(s.run, "Done, success: " + BoolText(!s.run.st.errorOccurred));
    assert Later(false, s.run, done);
    Resolved(Payload(!s.run.st.errorOccurred, done.log, e.c.message, Configuration(e)), s.page, host.onkeydownSet && !keySet)
  }

  /** The loop over a validated list, then `finish`. */
  function Walk(e: Env, r: Run, actions: seq<Action>, host: Host, page: Page, moments: seq<Moment>): (o: Outcome)
    ensures !o.Rejected?
    ensures o.Resolved? && Consistent(r) ==> (o.payload.success <==> !HasFailure(o.payload.log))
    ensures o.Resolved? && !e.c.continueOnFailure && AllHalt(r.log) ==> AllHalt(o.payload.log)
    ensures o.Resolved? ==> o.onkeydownSet == (host.onkeydownSet && !r.st.keyDownSet)
    ensures o.Resolved? ==> o.payload.message == e.c.message && o.payload.configuration == Configuration(e)
    ensures o.Resolved? ==> |o.payload.log| > 0 && o.payload.log[|o.payload.log| - 1] == Note("Done, success: " + BoolText(o.payload.success))
  {
    match Loop(e, Session(r, page), actions, moments)
    case Forever => NeverResolves
    case Finished(s, _) => Finish(e, s, host, r.st.keyDownSet)
  }

  /** After the start-up checks: install the key handler, validate, walk the
      list and finish. `spaCheck` walks the array as given; the newer engines
      trim each string and split a string list into lines. */
  function Main(e: Env, arg: ActionsArg, opts: OptionsArg, host: Host, page: Page, moments: seq<Moment>): (o: Outcome)
    ensures !o.Rejected?
    ensures o.Resolved? ==> (o.payload.success <==> !HasFailure(o.payload.log))
    ensures o.Resolved? && !e.c.continueOnFailure ==> AllHalt(o.payload.log)
    ensures o.Resolved? ==> o.onkeydownSet == host.onkeydownSet
    ensures o.Resolved? ==> o.payload.message == e.c.message && o.payload.configuration == Configuration(e)
    ensures o.Resolved? ==> |o.payload.log| > 0 && o.payload.log[|o.payload.log| - 1] == Note("Done, success: " + BoolText(o.payload.success))
    ensures !ValidInputs(e.v, arg, opts) ==>
      o == Resolved(Payload(false, Validate(e.v, Fresh(e, host), arg, opts).log + [Note("Done, success: false")],
                            e.c.message, Configuration(e)), page, host.onkeydownSet)
  {
    var r0 := Fresh(e, host);
    assert Consistent(r0) && AllHalt(r0.log);
    var r := Validate(e.v, r0, arg, opts);
    assert Later(false, r0, r);
    if !ValidInputs(e.v, arg, opts) then
      assert r.st.errorOccurred && (!r.st.keyDownSet || !host.onkeydownSet);
      DoneFalse();
      Finish(e, Session(r, page), host, r.st.keyDownSet)
    else
      Walk(e, r, if e.v == SpaCheck then arg.items else MakeActionList(arg), host, page, moments)
  }

  /** A run with its configuration resolved: the start-up checks, then the
      main part. */
  function Start(e: Env, arg: ActionsArg, opts: OptionsArg, host: Host, page: Page, moments: seq<Moment>): (o: Outcome)
    ensures o.Rejected? <==> Admit(e, host).Crashes?
    ensures o.Resolved? ==> (o.payload.success <==> !HasFailure(o.payload.log))
    ensures o.Resolved? && !e.c.continueOnFailure ==> AllHalt(o.payload.log)
    ensures o.Resolved? ==> o.onkeydownSet == host.onkeydownSet
    ensures o.Resolved? ==> o.payload.message == e.c.message && o.payload.configuration == Configuration(e)
    ensures Admit(e, host).Refused? ==>
      o == Resolved(Payload(false, [Failure(Admit(e, host).text)], e.c.message, Configuration(e)), page, host.onkeydownSet)
    ensures Admit(e, host).Admitted? ==> o == Main(e, arg, opts, host, page, moments)
  {
    match Admit(e, host)
    case Crashes(error) => Rejected(error)
    case Refused(text) =>
      assert HasFailure([Failure(text)]) by {
        assert [Failure(text)][0].Failure?;
      }
      Resolved(Payload(false, [Failure(text)], e.c.message, Configuration(e)), page, host.onkeydownSet)
    case Admitted => Main(e, arg, opts, host, page, moments)
  }

  /** `userRoutine(actions, options)`, `dryRun(actions, options)` and
      `spaCheck(actionList, options)`: the newer engines read the options'
      `tutorialMode` first, which throws on `null`. */
  function Routine(v: Variant, arg: ActionsArg, opts: OptionsArg, host: Host, page: Page,
                   moments: seq<Moment>, num: Numbers): (o: Outcome)
    ensures o.Rejected? <==>
      || (v != SpaCheck && opts.Null?)
      || Admit(Env(v, Settings.Resolve(v, opts), num), host).Crashes?
    ensures o.Resolved? ==> (o.payload.success <==> !HasFailure(o.payload.log))
    ensures o.Resolved? && !Settings.Resolve(v, opts).continueOnFailure ==> AllHalt(o.payload.log)
    ensures o.Resolved? ==> o.onkeydownSet == host.onkeydownSet
    ensures o.Resolved? ==> o.payload.message == Settings.Resolve(v, opts).message
    ensures o.Resolved? ==> (o.payload.configuration.Some? <==> v == UserRoutine)
    ensures !(v != SpaCheck && opts.Null?) ==> o == Start(Env(v, Settings.Resolve(v, opts), num), arg, opts, host, page, moments)
  {
    if v != SpaCheck && opts.Null? then Rejected(NullOptions)
    else Start(Env(v, Settings.Resolve(v, opts), num), arg, opts, host, page, moments)
  }

  /*****************************************************************************
   * Properties of whole runs
   *****************************************************************************/

  /** The failure text of `raiseError(message, '', false)`. */
  lemma HaltingText(message: string)
    ensures FailText(message, Some(""), false) == "FAIL: " + message + Halting
  {
    FailTextShape(message, Some(""), false);
    assert "FAIL: " + message + "" == "FAIL: " + message;
  }

  /** A run that gets past the start-up checks and resolves always closes its
      log with the `Done` note, whose flag is the returned `success`. */
  lemma RunEndsWithDone(e: Env, arg: ActionsArg, opts: OptionsArg, host: Host, page: Page, moments: seq<Moment>)
    requires Admit(e, host).Admitted?
    ensures var o := Start(e, arg, opts, host, page, moments);
      o.Resolved? ==> o.payload.log[|o.payload.log| - 1] == Note("Done, success: " + BoolText(o.payload.success))
  {
  }

  /** `userRoutine` beside another run's banner refuses with one halting
      failure, without the `Done` note and without touching the page. */
  lemma GuardRefuses(e: Env, host: Host, m: string, attribute: Option<string>)
    requires e.v == UserRoutine && !e.c.Simultaneous()
    requires host.hasDocument && host.banner == Some(Banner(Some(m), attribute))
    ensures Admit(e, host) == Refused("FAIL: User Routine '" + m + "' is already running" + Halting)
  {
  }

  /** `dryRun` refuses beside any banner of its own, and quotes `null` when
      the banner has no attribute. */
  lemma DryRunGuardQuotesNull(e: Env, host: Host, text: Option<string>)
    requires e.v == DryRun && host.hasDocument && host.banner == Some(Banner(text, None))
    ensures Admit(e, host) == Refused("FAIL: Dry-Run '" + "null" + "' is already running" + Halting)
  {
  }

  /** A `null` options object makes the newer engines throw before they
      start; `spaCheck` spreads it as an empty object and runs. */
  lemma NullOptionsHandling(v: Variant, arg: ActionsArg, host: Host, page: Page, moments: seq<Moment>, num: Numbers)
    ensures v != SpaCheck ==> Routine(v, arg, Null, host, page, moments, num) == Rejected(NullOptions)
    ensures v == SpaCheck && host.hasDocument ==> !Routine(v, arg, Null, host, page, moments, num).Rejected?
  {
  }

  /** `spaCheck` only takes an array: a string list halts with one failure
      and the `Done` note. */
  lemma SpaRejectsTextList(e: Env, text: string, opts: OptionsArg, host: Host, page: Page, moments: seq<Moment>)
    requires e.v == SpaCheck && host.hasDocument && !opts.NotAnObject?
    ensures Start(e, Text(text), opts, host, page, moments) ==
      Resolved(Payload(false, [Failure("FAIL: " + "Action list argument is not an Array" + Halting),
                               Note("Done, success: false")], e.c.message, None),
               page, host.onkeydownSet)
  {
    HaltingText("Action list argument is not an Array");
    var r0 := Fresh(e, host);
    var r1 := Report(r0, Some("Action list argument is not an Array"));
    assert Validate(e.v, r0, Text(text), opts) == Report(r1, None) == r1;
  }

  /** A missing list and an options value that is not an object are both
      reported before the run ends. */
  lemma BothArgumentsReported(e: Env, host: Host, page: Page, moments: seq<Moment>)
    requires Admit(e, host).Admitted?
    ensures Start(e, Missing, NotAnObject, host, page, moments).payload.log ==
      [Failure("FAIL: " + "Missing required argument Action List" + Halting),
       Failure("FAIL: " + "Options argument is not an Object" + Halting),
       Note("Done, success: false")]
  {
    HaltingText("Missing required argument Action List");
    HaltingText("Options argument is not an Object");
    var r0 := Fresh(e, host);
    var r1 := Report(r0, Some("Missing required argument Action List"));
    var r2 := Report(r1, Some("Options argument is not an Object"));
    assert Validate(e.v, r0, Missing, NotAnObject) == r2;
  }

  /** An action that throws in a newer engine, with no control event arriving,
      is followed by the "Unexpected error" failure the loop records. */
  lemma IterateAfterThrow(e: Env, s: Session, a: string, t: Step)
    requires e.v != SpaCheck && !s.run.st.paused
    requires Perform(e, s, Command(a), []) == t && t.how.Threw?
    ensures Iterate(e, s, Command(a), Moment([], [])) ==
      Some(t.s.(run := RaiseError(t.s.run, "Unexpected error: " + t.how.message, None, e.c.continueOnFailure)))
    ensures Iterate(e, s, Command(a), Moment([], [])).value.run.log ==
      t.s.run.log + [Failure(FailText("Unexpected error: " + t.how.message, None, e.c.continueOnFailure))]
  {
    assert HandleAll(e.c, s.run, []) == s.run;
    assert AdvanceDelay(e.c, s.run, []) == Some(s.run);
    assert s.(run := s.run) == s;
  }

  lemma FillCode(v: Variant, sel: string)
    ensures VerbCode(v, "fill " + sel) == "fil"
  {
    assert "fill " + sel == "fill" + (" " + sel);
    VerbOfWord(v, "fill", " " + sel);
    assert "fill"[..3] == "fil";
  }

  /** The newer engines dispatch an action whose verb code is `fil` to `fill`. */
  lemma DispatchFill(e: Env, s: Session, a: string)
    requires e.v != SpaCheck && VerbCode(e.v, a) == "fil"
    ensures Perform(e, s, Command(a), []) == Fill(e, s, a)
  {
  }

  /** A `fill` without data under the default separator fails as malformed
      and throws. */
  lemma PerformShortFill(e: Env, s: Session, sel: string)
    requires e.v != SpaCheck && e.c.separator == Space && ' ' !in sel
    ensures Perform(e, s, Command("fill " + sel), []) ==
      Step(Failed(e, s, MalformedMessage(e.v, "fill " + sel), Some("fill " + sel)), Threw(ReadingReplace))
  {
    var a := "fill " + sel;
    assert a == "fill" + " " + sel;
    FillCode(e.v, sel);
    DispatchFill(e, s, a);
    ShortDataActionThrows(e, s, "fill", sel);
  }

  /** A `fill` without data under the default separator records two failures
      for one action: the malformed input, then the error it throws. */
  lemma ShortFillFailsTwice(e: Env, s: Session, sel: string)
    requires e.v != SpaCheck && e.c.separator == Space && ' ' !in sel && '!' !in sel
    requires !s.run.st.paused
    ensures var a := "fill " + sel;
      Iterate(e, s, Command(a), Moment([], [])).Some? &&
      Iterate(e, s, Command(a), Moment([], [])).value.run.log == s.run.log + [
        Failure(FailText(MalformedMessage(e.v, a), Some(a), e.c.continueOnFailure)),
        Failure(FailText("Unexpected error: " + ReadingReplace, None, e.c.continueOnFailure))]
  {
    var a := "fill " + sel;
    PerformShortFill(e, s, sel);
    var t := Step(Failed(e, s, MalformedMessage(e.v, a), Some(a)), Threw(ReadingReplace));
    IterateAfterThrow(e, s, a, t);
    AppendTwo(s.run.log, Failure(FailText(MalformedMessage(e.v, a), Some(a), e.c.continueOnFailure)),
              Failure(FailText("Unexpected error: " + ReadingReplace, None, e.c.continueOnFailure)));
  }

  lemma AppendTwo<T>(xs: seq<T>, x: T, y: T)
    ensures xs + [x] + [y] == xs + [x, y]
  {
  }
}

=== FILE: settings.dfy ===
/*******************************************************************************
 *  The three published engines, their option records and the configuration
 *  each one resolves for a run.
 *******************************************************************************/
module Settings {
  import opened JsString

  /** The engines modelled: the current `userRoutine`, its predecessor `dryRun`
      and the older `spaCheck`. */
  datatype Variant = UserRoutine | DryRun | SpaCheck

  /** The caller's options object; an absent key is `None`. */
  datatype Options = Options(
    awaitTimeout: Option<int>,
    continueOnFailure: Option<bool>,
    displayMessage: Option<bool>,
    displayProgress: Option<bool>,
    displaySpeed: Option<int>,
    globalDelay: Option<int>,
    keyboardControls: Option<bool>,
    logCollapse: Option<bool>,
    logProgress: Option<bool>,
    logResult: Option<bool>,
    message: Option<string>,
    messageAttribution: Option<string>,
    overrideCss: Option<string>,
    separator: Option<string>,
    simultaneousAllowed: Option<bool>,
    tutorialMode: Option<bool>)

  const NoOptions := Options(None, None, None, None, None, None, None, None,
                             None, None, None, None, None, None, None, None)

  /** The second argument as the caller passed it. An array, a string or a
      number is `NotAnObject`: spreading it contributes no known key. */
  datatype OptionsArg = Absent | Given(options: Options) | Null | NotAnObject

  /** The resolved configuration. Keys that a variant's defaults do not define
      stay `None` unless the caller supplies them. */
  datatype Config = Config(
    awaitTimeout: int,
    continueOnFailure: bool,
    displayMessage: bool,
    displayProgress: bool,
    displaySpeed: int,
    globalDelay: int,
    keyboardControls: Option<bool>,
    logCollapse: bool,
    logProgress: bool,
    logResult: bool,
    message: string,
    messageAttribution: Option<string>,
    overrideCss: string,
    separator: string,
    simultaneousAllowed: Option<bool>,
    tutorialMode: Option<bool>)
  {
    predicate Tutorial() { tutorialMode == Some(true) }
    predicate Keyboard() { keyboardControls == Some(true) }
    predicate Simultaneous() { simultaneousAllowed == Some(true) }
  }

  /** The default separator, the one that enables the whitespace heuristics. */
  const Space := " "

  function Label(v: Variant): string
  {
    match v
    case UserRoutine => "User Routine"
    case DryRun => "Dry-Run"
    case SpaCheck => "SPA Check"
  }

  /** The `defaultConfig` object of each engine. */
  function Defaults(v: Variant): Config
  {
    Config(
      15000, false, true, true, 1, 500,
      if v == UserRoutine then Some(true) else None,
      false, true, true,
      Label(v),
      if v == SpaCheck then None else Some(Label(v)),
      "", Space,
      if v == UserRoutine then Some(false) else None,
      if v == SpaCheck then None else Some(false))
  }

  function Pick<T>(given: Option<T>, default: T): T
  {
    match given
    case Some(x) => x
    case None => default
  }

  function PickOpt<T>(given: Option<T>, default: Option<T>): Option<T>
  {
    if given.Some? then given else default
  }

  /** `{ ...defaults, ...options }`. */
  function Overlay(d: Config, o: Options): Config
  {
    Config(
      Pick(o.awaitTimeout, d.awaitTimeout),
      Pick(o.continueOnFailure, d.continueOnFailure),
      Pick(o.displayMessage, d.displayMessage),
      Pick(o.displayProgress, d.displayProgress),
      Pick(o.displaySpeed, d.displaySpeed),
      Pick(o.globalDelay, d.globalDelay),
      PickOpt(o.keyboardControls, d.keyboardControls),
      Pick(o.logCollapse, d.logCollapse),
      Pick(o.logProgress, d.logProgress),
      Pick(o.logResult, d.logResult),
      Pick(o.message, d.message),
      PickOpt(o.messageAttribution, d.messageAttribution),
      Pick(o.overrideCss, d.overrideCss),
      Pick(o.separator, d.separator),
      PickOpt(o.simultaneousAllowed, d.simultaneousAllowed),
      PickOpt(o.tutorialMode, d.tutorialMode))
  }

  /** The options each engine rewrites before the overlay: `userRoutine` turns
      progress display on and keyboard controls off in tutorial mode, `dryRun`
      sets the delay of tutorial mode, `spaCheck` leaves them alone. */
  function Adjust(v: Variant, o: Options): Options
  {
    var tutorial := o.tutorialMode == Some(true);
    match v
    case UserRoutine =>
      var o1 := if tutorial && o.displayProgress != Some(true) then o.(displayProgress := Some(true)) else o;
      if tutorial && o1.keyboardControls == Some(true) then o1.(keyboardControls := Some(false)) else o1
    case DryRun =>
      if tutorial then o.(globalDelay := Some(TutorialDelay)) else o
    case SpaCheck => o
  }

  /** The delay `dryRun` forces in tutorial mode. */
  const TutorialDelay := 200

  /** The options object the engine actually spreads. */
  function OptionsOf(arg: OptionsArg): Options
  {
    match arg
    case Given(o) => o
    case _ => NoOptions
  }

  /** The configuration a run resolves once and keeps for its lifetime: the
      defaults overlaid by the (adjusted) options. */
  function Resolve(v: Variant, arg: OptionsArg): (c: Config)
    ensures var o := OptionsOf(arg);
      && c.continueOnFailure == Pick(o.continueOnFailure, false)
      && c.separator == Pick(o.separator, Space)
      && c.awaitTimeout == Pick(o.awaitTimeout, 15000)
      && c.message == Pick(o.message, Label(v))
      && c.tutorialMode == PickOpt(o.tutorialMode, Defaults(v).tutorialMode)
      && (v == UserRoutine && o.tutorialMode == Some(true) ==> c.displayProgress)
      && (v == UserRoutine && o.tutorialMode == Some(true) && o.keyboardControls == Some(true) ==> c.keyboardControls == Some(false))
      && (v == UserRoutine ==> c.globalDelay == Pick(o.globalDelay, 500))
      && (v == DryRun ==> c.globalDelay == if o.tutorialMode == Some(true) then TutorialDelay else Pick(o.globalDelay, 500))
      && (v != UserRoutine || o.tutorialMode != Some(true) ==> c.displayProgress == Pick(o.displayProgress, true))
      && (v != UserRoutine || o.tutorialMode != Some(true) ==> c.keyboardControls == PickOpt(o.keyboardControls, Defaults(v).keyboardControls))
  {
    Overlay(Defaults(v), Adjust(v, OptionsOf(arg)))
  }

  /** Whether the run installs its `document.onkeydown` handler, given whether
      the page already had one. */
  function InstallsKeyHandler(v: Variant, c: Config, onkeydownAlreadySet: bool): (b: bool)
    ensures b ==> !onkeydownAlreadySet && !c.Tutorial() && v != SpaCheck
    ensures v == UserRoutine ==> (b <==> !onkeydownAlreadySet && !c.Tutorial() && c.Keyboard())
    ensures v == DryRun ==> (b <==> !onkeydownAlreadySet && !c.Tutorial() && c.displayProgress)
  {
    match v
    case UserRoutine => !onkeydownAlreadySet && !c.Tutorial() && c.Keyboard()
    case DryRun => !onkeydownAlreadySet && c.displayProgress && !c.Tutorial()
    case SpaCheck => false
  }

  /** A `userRoutine` in tutorial mode never installs the key handler, whatever
      the caller asked for. */
  lemma TutorialDisablesKeys(arg: OptionsArg, onkeydownAlreadySet: bool)
    requires OptionsOf(arg).tutorialMode == Some(true)
    ensures Resolve(UserRoutine, arg).displayProgress
    ensures !InstallsKeyHandler(UserRoutine, Resolve(UserRoutine, arg), onkeydownAlreadySet)
  {
  }

  /** With no options at all each engine runs on its documented defaults. */
  lemma NoOptionsMeansDefaults(v: Variant)
    ensures Resolve(v, Absent) == Defaults(v)
  {
  }
}
